=== FILE: README.md ===
# Visrodeck Studio — a Dafny model of the desktop core

Visrodeck Studio is an Electron desktop editor. The main process owns one workspace
directory, one pseudo-terminal slot and the window. It answers the renderer's requests
through a preload bridge: file tree snapshots, file reads and writes, folder creation,
renames, deletions, and terminal input. The renderer pages are the workspace picker, the
editor page (tabs, save, run, explorer context actions), the terminal tabs and the map
panel (file graph and extension histogram).

This project models that core as pure Dafny functions over immutable state and proves
properties of the model. The modules follow the program's structure:

| module | file | models |
|---|---|---|
| `Wrappers` | `wrappers.dfy` | `Option` and `Result` |
| `Text` | `text.dfy` | `trim`, ASCII `toLowerCase`, `split`/`join` on separator characters, `startsWith`, the text after the last `.` |
| `Ordering` | `ordering.dfy` | the sorted enumeration of a finite set under a strict total order, which stands for `localeCompare` |
| `Fs` | `filesystem.dfy` | the disk as a map from paths to entries, and the Node `fs` calls the handlers make |
| `Scanner` | `scanner.dfy` | `buildTree`: the depth-capped, filtered, sorted snapshot |
| `Session` | `session.dfy` | the `ptyProc` slot and every shell ever spawned |
| `Boundary` | `boundary.dfy` | the preload bridge: call → channel and payload, and the listener table behind `onTreeUpdate`/`onData`/`onExit` |
| `Host` | `host.dfy` | the main process handlers, the tree broadcast and the window lifecycle |
| `JsObject` | `jsobject.dfy` | `table[key]` on an object literal, including the members inherited from `Object.prototype` |
| `Languages` | `languages.dfy` | `getLang` in both page revisions, `RUN_COMMANDS` and `canRun` |
| `Logs` | `output_log.dfy` | the bounded debug and output logs and the control-sequence filter of the older page |
| `Studio` | `studio.dfy` | the editor page: tabs, save, run/stop, and the explorer context actions |
| `Grouping` | `grouping.dfy` | grouping into an object of arrays, read back with `Object.keys` |
| `MapStats` | `map_stats.dfy` | `getExt`, `getCol`, `flatFiles`, `countAll`, `buildGraph` without coordinates, and the extension histogram |
| `TerminalTabs` | `terminal_tabs.dfy` | the terminal tab list, the tab counter and the create-once guard for each tab's terminal |
| `WorkspaceSetup` | `workspace_setup.dfy` | the start screen's Open and Browse actions |

Things the program gets from outside are parameters of the step that needs them:

- the folder picker's answer;
- what a file read returned;
- the answers to `prompt` and `confirm`;
- whether a terminal failed to start;
- the collation order;
- the platform.

Requests the page sends to the host are recorded in order in `sent`, and the host's
messages to the window are recorded in order in its own `sent`.

Two details of the code are worth stating plainly:

- The scanner stops at `depth > 6`, and depth starts at 0, so a snapshot lists seven
  levels (`Scanner.SnapshotHeight`).
- `pty:run` always puts a `cd` into the workspace in front of the command when a
  workspace is set (`Host.CommandLine`).

## Model

| member | source | states |
|---|---|---|
| Boundary.Encode | electron/preload.js:4-46 | each bridge call goes out on its own fixed channel; the dialog, workspace and filesystem calls are `invoke`s and the terminal calls are `send`s |
| Boundary.DecodeEncode | electron/preload.js:4-46 | the host reads every bridge call back as the same call with the same arguments |
| Boundary.Decode | electron/preload.js:4-46 | every message the host accepts is the encoding of the call it decodes to |
| Boundary.EncodeInjective | electron/preload.js:4-46 | two different calls never produce the same message |
| Boundary.ChannelsDistinct | electron/preload.js:12-35 | two calls share a channel exactly when they go through the same bridge method |
| Boundary.Subscribe | electron/preload.js:36-40 | `onData` adds a fresh handler last on its channel; no other channel changes; tokens stay unique |
| Boundary.Unsubscribe | electron/preload.js:39 | the returned function removes exactly that handler from its channel and touches no other channel |
| Boundary.SubscribeUnsubscribe | electron/preload.js:36-45 | subscribing and then calling the returned function leaves every channel's handlers exactly as before |
| Boundary.UnsubscribedHearsNothing | electron/preload.js:41-45 | after its unsubscribe function ran, a handler gets nothing more; unsubscribing an absent handler changes nothing |
| Fs.ResolveRender | electron/main.js:39 | a path string built by `path.join` resolves back to the path it names |
| Fs.ReadDir | electron/main.js:29-30 | listing succeeds exactly on a readable directory and returns exactly its children |
| Fs.ReadFile | electron/main.js:85 | reading succeeds exactly on an existing file and returns its content |
| Fs.MakeDirs | electron/main.js:87 | recursive mkdir succeeds exactly when no file is in the way; afterwards every ancestor is a directory; it only adds directories |
| Fs.MakeDirectory | electron/main.js:87 | `mkdir` of a path string succeeds exactly when a path is given and no file is at it or above it; afterwards the path is a directory and every old entry is unchanged |
| Fs.WriteFile | electron/main.js:86 | the write succeeds exactly on a non-root path with no file above it and no directory at it; afterwards the file holds the text, every old entry is unchanged, and the only entries added are the file and directories above it |
| Fs.UnderFileParent | electron/main.js:86 | a file blocks a path exactly when it blocks the path's parent or is the parent |
| Fs.Rename | electron/main.js:88 | the rename succeeds exactly when the source exists and is not the root, the destination's parent is a directory, neither lies inside the other, and an existing destination is of the same kind and, for a directory, empty; afterwards the entries are exactly those outside both subtrees plus the source's subtree carried under the destination with the same contents, and nothing under the source is left unless it was the destination |
| Fs.MoveContents | electron/main.js:88 | moving a subtree carries each entry to the same relative place under the destination and leaves entries outside both subtrees alone |
| Fs.Delete | electron/main.js:89 | delete succeeds exactly on an existing non-root path and removes exactly the entry and everything below it; every surviving entry keeps its content |
| Fs.MakeDirsKeepsWf | electron/main.js:87 | creating directories keeps the disk a tree |
| Fs.WriteFileKeepsWf | electron/main.js:86 | writing a file keeps the disk a tree |
| Fs.DeleteKeepsWf | electron/main.js:89 | deleting a subtree keeps the disk a tree |
| Fs.MoveKeepsWf | electron/main.js:88 | moving a subtree to a fresh place below a directory keeps the disk a tree |
| Fs.RenameKeepsWf | electron/main.js:88 | a successful rename keeps the disk a tree |
| Ordering.SortSet | electron/main.js:33-37 | the sorted listing holds each element of the set once, in strictly increasing order |
| Ordering.IncreasingUnique | electron/main.js:33-37 | there is only one strictly increasing order of a set, so the sorted listing is fully determined |
| Scanner.Visible | electron/main.js:32 | an entry is listed exactly when its name is not ignored and does not start with a dot |
| Scanner.EntryOrderTotal | electron/main.js:33-37 | directories-first, then the collation, is a strict total order whenever the collation is |
| Scanner.BuildTree | electron/main.js:26-44 | the tree returned is a snapshot: empty past the depth cap or for an unlistable directory; otherwise every visible child once, in comparator order, at its joined path with its kind, and directories hold the snapshot one level deeper |
| Scanner.ListDir | electron/main.js:31-43 | a readable directory's listing becomes its snapshot: the visible entries, sorted, each placed at its joined path |
| Scanner.MakeNodes | electron/main.js:38-43 | one node per name, in the given order, each placed at its joined path with its kind |
| Scanner.SnapshotUnique | electron/main.js:26-44 | the disk determines the snapshot: two snapshots of the same directory and depth are equal |
| Scanner.SnapshotClean | electron/main.js:32 | no ignored or dot-named entry appears at any level |
| Scanner.SnapshotHeight | electron/main.js:27 | a snapshot taken from the root has at most seven levels |
| Scanner.SnapshotPathsResolve | electron/main.js:39 | each top-level node's path string resolves back to the entry it was listed from; deeper levels follow by applying it to each directory's children |
| Session.Spawn | electron/main.js:52-60 | the shell in the slot is killed and replaced by a new shell of 120×30 in `cwd`, or in home when `cwd` is empty; when spawning throws, the slot is empty |
| Session.KillCurrent | electron/main.js:130 | the shell in the slot is killed, and no other shell changes |
| Session.Write | electron/main.js:91 | the data is appended to the input of the shell in the slot, and nothing happens when the slot is empty |
| Session.Resize | electron/main.js:92 | the shell in the slot takes the new size, and no other shell changes |
| Session.Exit | electron/main.js:63-66 | the exiting shell, one the host started, is marked exited and the slot is emptied, whichever shell exited |
| Session.SpawnNoNewOrphans | electron/main.js:53 | spawning never leaves a running shell out of reach |
| Session.StaleExitOrphans | electron/main.js:63-66 | the exit of a shell that already left the slot puts the live shell in the slot out of reach |
| Session.ExitOrphans | electron/main.js:63-66 | an exit changes the set of unreachable running shells in exactly one way: the exiting shell leaves it, and the slot's live shell joins it when a different shell exited |
| Session.ReplacedShellExitOrphansNewShell | electron/main.js:77-82 | opening a workspace replaces the window's first shell; if that first shell then reports its exit, the workspace shell keeps running out of reach |
| Session.ExitOwn | electron/main.js:63-66 | the exit handler as intended: the exiting shell is marked exited, and the slot is emptied only when it holds that shell |
| Session.ExitOwnOrphans | electron/main.js:63-66 | with the intended handler an exit changes the unreachable running shells only by removing the exiting one |
| Session.ReplacedShellExitKeepsNewShell | electron/main.js:77-82 | with the intended handler the stale exit of the replaced shell leaves the workspace shell in the slot and reachable |
| Host.PushTree | electron/main.js:46-49 | with both a workspace and a window, exactly one tree update holding the workspace snapshot is sent; otherwise nothing is sent |
| Host.TreeOf | electron/main.js:84 | the tree of a non-empty directory argument is its snapshot; an absent or empty argument lists nothing |
| Host.SetWorkspace | electron/main.js:77-82 | the handler refuses exactly an empty or non-existent directory and changes nothing then; otherwise the directory becomes the workspace, the shell in the slot is killed and the slot holds what spawning in that directory gave, and the reply carries its snapshot unless spawning threw |
| Host.GetTree | electron/main.js:84 | the reply is the snapshot of the given directory, or of the workspace when none is given |
| Host.Read | electron/main.js:85 | the reply carries the content exactly when the path names a file; otherwise it carries the error |
| Host.OpenFolder | electron/main.js:70-75 | the dialog's answer is passed back unchanged and nothing else changes |
| Host.WriteFile | electron/main.js:86 | the handler answers `ok` exactly when the path is non-empty, not the root, has no file above it and no directory at it; then the disk is the written disk and the tree is pushed; on failure nothing changes |
| Host.MakeDir | electron/main.js:87 | the handler answers `ok` exactly when the path is non-empty and no file is at it or above it; then the directory exists, every old entry is unchanged and the tree is pushed; on failure nothing changes |
| Host.RenameTarget | electron/main.js:88 | for a single-segment name the destination is a sibling of the source carrying that name; valid paths stay valid |
| Host.Rename | electron/main.js:88 | the handler answers `ok` exactly when the move from the source to the sibling named `name` is allowed; then the disk is the renamed disk, the entry is at the destination, the reply carries the destination's path string and the tree is pushed |
| Host.Delete | electron/main.js:89 | delete succeeds exactly on an existing non-root path, removes exactly its subtree and keeps every other entry's content; the tree is pushed |
| Host.Input | electron/main.js:91 | the data goes to the shell in the slot only, and nothing happens when the slot is empty |
| Host.Resize | electron/main.js:92 | the shell in the slot takes the new size; every other shell, the disk and the workspace are unchanged |
| Host.CommandLine | electron/main.js:95 | the typed line ends with the command and a carriage return; with a workspace it is exactly the quoted `cd` into the workspace, ` && `, the command and the carriage return |
| Host.Run | electron/main.js:93-97 | a shell is started first when the slot is empty, in the workspace or home; the command line is then the last input of the shell in the slot |
| Host.Stop | electron/main.js:98 | Ctrl-C is written to the shell in the slot |
| Host.ChangeDir | electron/main.js:99 | a quoted `cd` line is written to the shell in the slot |
| Host.ProcessData | electron/main.js:62 | shell output is forwarded to the window when there is one |
| Host.ProcessExit | electron/main.js:63-66 | the exit of a shell the host started is forwarded to the window when there is one, and the slot is emptied |
| Host.WindowCreated | electron/main.js:108-131 | creating the window records it and changes nothing else: disk, workspace, shells, messages and the quitting flag stay |
| Host.WindowReady | electron/main.js:129 | when the window is ready to show, the shell in the slot is killed and a shell starts in the home directory, the slot staying empty when starting throws; nothing else changes |
| Host.WindowClosed | electron/main.js:130 | closing the window kills the shell in the slot, and the window is gone; nothing else changes |
| Host.AllWindowsClosed | electron/main.js:134 | the shell is killed, and the application quits except on macOS; nothing else changes |
| Host.Dispatch | electron/main.js:70-99 | one-way messages are exactly the acknowledged ones and never touch the disk or the workspace; only `workspace:set` changes the workspace; a message no bridge call produces changes nothing |
| Host.DispatchEncoded | electron/main.js:70-99 | each of the thirteen bridge calls reaches the handler written for it, with its arguments, and only the `send` calls are merely acknowledged |
| Host.WriteThenRead | electron/main.js:85-86 | a written file reads back with the written text |
| Host.WriteKeepsOthers | electron/main.js:86 | writing one file leaves every other path reading as before: a file readable before reads the same after, and one readable after read the same before |
| Host.DeleteThenRead | electron/main.js:89 | after a delete, the path and everything below it are gone |
| Host.RenameThenRead | electron/main.js:88 | a renamed file reads back under its new path with its old text |
| Host.HandlersKeepWf | electron/main.js:86-89 | write, mkdir, rename and delete keep the disk a tree |
| Host.MutationBroadcasts | electron/main.js:86-89 | a successful write, mkdir, rename or delete is followed by exactly one tree update, showing the changed disk, whenever a workspace and a window exist |
| Host.PushTreeBroadcasts | electron/main.js:46-49 | pushing the tree after the disk changed sends that disk's workspace snapshot once and keeps everything sent before |
| Host.RunStartsInWorkspace | electron/main.js:93-97 | with no shell running, the command lands in a new shell started in the workspace |
| JsObject.Get | src/pages/labs/StudioPage.jsx:45 | a key the literal defines finds its value; an inherited name finds an `Object.prototype` member; anything else is `undefined` |
| Languages.Ext | src/pages/labs/StudioPage.jsx:39 | the extension is the lower-cased text after the last dot, or the whole name when there is no dot |
| Languages.ExtOf | src/pages/labs/StudioPage.jsx:39 | a name ending in a dot and a lower-case word has that word as its extension |
| Languages.GetLang | src/pages/labs/StudioPage.jsx:38-46 | a file gets its extension's table entry, and "plaintext" for any extension the table does not define |
| Languages.GetLangAsWritten | src/pages/labs/StudioPage.jsx:45 | the lookup as written never misses; it agrees with the corrected lookup except on inherited names, where it yields the inherited member |
| Languages.GetLangAsWrittenConstructor | src/pages/labs/StudioPage.jsx:45 | a file named `x.constructor` gets `Object` as its language as written, where "plaintext" is meant |
| Languages.GetLangOld | pages/labs/StudioPage.jsx:15-19 | the older page, looking only at the table's own entries, gives each extension its entry and "plaintext" otherwise |
| Languages.GetLangOldAsWritten | pages/labs/StudioPage.jsx:15-19 | `??` as written never misses; it agrees with the own-entry lookup except on inherited names, where it finds the `Object.prototype` member |
| Languages.TablesAgree | src/pages/labs/StudioPage.jsx:40-44 | the newer table keeps every entry of the older one, and each entry it adds maps to "plaintext" |
| Languages.RevisionsAgree | pages/labs/StudioPage.jsx:17-18 | both revisions give every file the same language |
| Languages.RevisionsAgreeAsWritten | pages/labs/StudioPage.jsx:15-19 | the two revisions' lookups as written agree on every file name, inherited names included |
| Languages.RunnableTable | src/pages/labs/StudioPage.jsx:29-36 | the extensions whose language has a `RUN_COMMANDS` entry are exactly js, jsx, ts, tsx, py, sh, html and md |
| Languages.CanRunIff | src/pages/labs/StudioPage.jsx:48-51 | `canRun` holds exactly for those eight extensions |
| Languages.CanRunUnaffected | src/pages/labs/StudioPage.jsx:48-51 | `canRun` as written gives the same answer as with the corrected language |
| Languages.CommandLine | src/pages/labs/StudioPage.jsx:30-33 | the command is the program, a space and the double-quoted path |
| Languages.RunCommandFor | src/pages/labs/StudioPage.jsx:313-318 | a file has a command exactly when its language's entry names a program; the command runs that program on the path |
| Languages.ProgramTable | src/pages/labs/StudioPage.jsx:29-36 | which program each runnable extension maps to |
| Languages.RunPrograms | src/pages/labs/StudioPage.jsx:29-36 | js and jsx run with node, ts and tsx with ts-node, py with python3, sh with bash, and nothing else runs |
| Logs.KeepLast | pages/labs/StudioPage.jsx:182 | `slice(-n)` is the last n entries, or all of them when there are fewer |
| Logs.Push | src/pages/labs/StudioPage.jsx:253 | appending to a capped log keeps the newest entries: the result is a suffix of the old log plus the new entry, at most cap long |
| Logs.PushBounded | src/pages/labs/StudioPage.jsx:253 | a capped log stays within its cap and ends with the newest entry; below the cap nothing is dropped |
| Logs.PushAllKeepsLast | src/pages/labs/StudioPage.jsx:253 | pushing entries one at a time keeps exactly the last cap entries of everything pushed |
| Logs.ParamRun | pages/labs/StudioPage.jsx:181 | the length of the longest run of digits and semicolons at the front |
| Logs.CsiLength | pages/labs/StudioPage.jsx:181 | a control sequence found at the front is ESC, `[`, parameters and one of the final letters |
| Logs.StripCsi | pages/labs/StudioPage.jsx:181 | the filter never lengthens the text |
| Logs.StripPlain | pages/labs/StudioPage.jsx:181 | text without an escape character passes the filter unchanged |
| Logs.StripCode | pages/labs/StudioPage.jsx:181 | a complete control sequence at the front is removed whole |
| Logs.StripRender | pages/labs/StudioPage.jsx:181 | for text written as plain runs and control sequences, the filter keeps exactly the plain runs |
| Logs.OnData | pages/labs/StudioPage.jsx:179-183 | a chunk that is blank once filtered and trimmed logs nothing; otherwise its filtered, trimmed text is appended and the log keeps its newest 1000 lines |
| Logs.OnDataStyled | pages/labs/StudioPage.jsx:179-183 | styled output is logged as its visible text, and styling alone logs nothing |
| Studio.Find | src/pages/labs/StudioPage.jsx:282 | finds an open tab with the path exactly when one exists |
| Studio.Dbg | src/pages/labs/StudioPage.jsx:253 | the message becomes the newest debug entry, and a log within 500 entries stays within 500 |
| Studio.OpenWorkspace | src/pages/labs/StudioPage.jsx:275-279 | the workspace is set and `workspace:set` is requested; the tabs are untouched |
| Studio.OpenTab | src/pages/labs/StudioPage.jsx:281-290 | an open file's tab is just activated, without a read; otherwise the file is read, and when content comes back one clean tab is appended and activated |
| Studio.EditPath | src/pages/labs/StudioPage.jsx:293 | the edit reaches exactly the tabs with the path; every other tab is unchanged |
| Studio.ChangeFile | src/pages/labs/StudioPage.jsx:292-295 | the tab and the active file with the path get the new text and turn dirty; nothing else changes |
| Studio.Keep | src/pages/labs/StudioPage.jsx:298 | the filter keeps exactly the tabs not selected; if no two tabs shared a path before, none do afterwards |
| Studio.KeepConcat | src/pages/labs/StudioPage.jsx:298 | the filter keeps the tabs' order: filtering two lists joined is joining the filtered lists |
| Studio.KeepLastKept | src/pages/labs/StudioPage.jsx:298 | the last tab kept is the last tab of the list the filter does not select |
| Studio.CloseTab | src/pages/labs/StudioPage.jsx:297-301 | the path's tab is gone and all others stay; closing the active tab activates the last remaining tab, or none; closing another tab keeps the active one |
| Studio.CloseTabActivatesLastOther | src/pages/labs/StudioPage.jsx:297-301 | the tab activated on closing the active tab is the last tab of the old list with another path |
| Studio.Save | src/pages/labs/StudioPage.jsx:303-309 | the given file, or else the active one, is written; exactly the tabs with its path turn clean and every other tab is unchanged; the active file turns clean when it has that path and is unchanged otherwise; "Saved: name" is logged; with neither, nothing happens |
| Studio.Launch | src/pages/labs/StudioPage.jsx:316-319 | the run is marked on and the output is cleared; a dirty active file is written before the command is sent |
| Studio.Run | src/pages/labs/StudioPage.jsx:311-320 | nothing happens without an active file or during a run; a file without a program is refused with a debug line; otherwise its command is sent |
| Studio.RunFile | src/pages/labs/StudioPage.jsx:314-319 | a file type without a command only logs "Cannot run this file type"; otherwise the run starts, the output is cleared, a dirty file is written before the command goes out, and "Run: " with the command is logged |
| Studio.RunOld | pages/labs/StudioPage.jsx:252-257 | the older page always runs: the active file with node, or `node index.js` without one |
| Studio.Stop | src/pages/labs/StudioPage.jsx:322 | the interrupt is sent and the run is marked off |
| Studio.OnExit | src/pages/labs/StudioPage.jsx:258 | a shell exit marks the run off and logs the exit code |
| Studio.Sep | src/pages/labs/StudioPage.jsx:331 | the separator is a backslash exactly when the workspace path contains one |
| Studio.NewFile | src/pages/labs/StudioPage.jsx:334-338 | a non-empty name first writes an empty file in the target folder; a tab already open on it is activated, otherwise the file is read back and opened as the active tab, and a failed read leaves the tabs as they were; an empty name does nothing |
| Studio.NewFolder | src/pages/labs/StudioPage.jsx:339-342 | a non-empty name requests the folder in the target folder; an empty name does nothing |
| Studio.RenameEntry | src/pages/labs/StudioPage.jsx:343-348 | an empty or unchanged name does nothing; otherwise the rename is requested and exactly the tab with the old path closes |
| Studio.DeleteAsWritten | src/pages/labs/StudioPage.jsx:349-354 | as written, delete closes every tab whose path merely starts with the deleted path |
| Studio.DeleteEntry | src/pages/labs/StudioPage.jsx:349-354 | delete closes exactly the tabs at or inside the deleted path and keeps every other tab |
| Studio.OpenTerminal | src/pages/labs/StudioPage.jsx:355 | the shell is sent a `cd` to the target folder |
| Studio.OpenTabTwice | src/pages/labs/StudioPage.jsx:282-283 | opening an open file again only activates its tab: no new tab and no new read |
| Studio.CloseAfterOpen | src/pages/labs/StudioPage.jsx:297-301 | closing the tab a file was just opened in restores the tab list |
| Studio.ChangeThenSave | src/pages/labs/StudioPage.jsx:292-309 | saving after typing writes what was typed, and the tab is clean afterwards |
| Studio.RunThenStop | src/pages/labs/StudioPage.jsx:311-322 | a run ends with a stop or with the exit of its shell |
| Studio.ViewerNotRun | src/pages/labs/StudioPage.jsx:311-315 | HTML and Markdown files pass `canRun`, but `run` sends nothing for them |
| Studio.RunRevisionsPython | src/pages/labs/StudioPage.jsx:318 | a Python file runs with python3 on the current page and with node on the older one |
| Studio.TargetDirOfFile | src/pages/labs/StudioPage.jsx:332 | for a file, the target folder is its containing folder, written with the workspace's separator |
| Studio.TargetDir | src/pages/labs/StudioPage.jsx:332 | with no node the target is the workspace; a folder is its own target; a file with no separator in its path targets the workspace; a file never gets an empty target while the workspace is non-empty |
| Studio.NewFileSibling | src/pages/labs/StudioPage.jsx:334-338 | "New File" on a file creates a sibling of that file |
| Studio.DeleteAsWrittenClosesSibling | src/pages/labs/StudioPage.jsx:352-353 | deleting `app` closes an open `app.js` as written, while the corrected delete keeps it open |
| Studio.DeleteEntryCloses | src/pages/labs/StudioPage.jsx:349-354 | after the corrected delete, no tab at or below the deleted path is open |
| Grouping.GroupBySpec | src/pages/labs/MapPanel.jsx:21-23 | grouping gives one group per key; each group holds exactly the items with its key, in input order; no group is empty; together the groups hold the input |
| Grouping.GroupItems | src/pages/labs/MapPanel.jsx:21-23 | every group holds exactly the items with its key, and at least one |
| Grouping.GroupSizes | src/pages/labs/MapPanel.jsx:21-23 | the group sizes add up to the number of items |
| MapStats.GetCol | src/pages/labs/MapPanel.jsx:4-6 | the colour is the extension's entry, or the default; an inherited name finds an `Object.prototype` member |
| MapStats.GetExt | src/pages/labs/MapPanel.jsx:5 | the map panel's extension is the editor's: the lower-cased, dot-free text after the last dot |
| MapStats.FlatFiles | src/pages/labs/MapPanel.jsx:8-11 | only file nodes are collected |
| MapStats.FlatFilesAreFiles | src/pages/labs/MapPanel.jsx:8-11 | the list is the file nodes of the whole tree, in pre-order |
| MapStats.CountAll | src/pages/labs/MapPanel.jsx:12-15 | the file count is the length of the flattened list; files plus folders is every node of the tree |
| MapStats.ToNodes | src/pages/labs/MapPanel.jsx:33-36 | one graph node per file, carrying its path, name, folder, extension and colour |
| MapStats.Star | src/pages/labs/MapPanel.jsx:43 | a folder of k files gives k-1 edges, from its first file to each of the others |
| MapStats.Chain | src/pages/labs/MapPanel.jsx:49 | an extension group gives edges between consecutive files |
| MapStats.StarEdges | src/pages/labs/MapPanel.jsx:41-44 | all folder edges are of the folder kind; with non-empty groups there is one edge per file beyond each folder's first |
| MapStats.ChainEdges | src/pages/labs/MapPanel.jsx:45-50 | all extension edges are of the extension kind; an extension with k files adds k-1 edges when k is 2 to 9 and none otherwise |
| MapStats.StarEdgesShape | src/pages/labs/MapPanel.jsx:41-44 | every folder edge joins two files of the same folder; there is one edge per file beyond each folder's first |
| MapStats.ChainEdgesShape | src/pages/labs/MapPanel.jsx:45-50 | every extension edge joins two files of the same extension |
| MapStats.GraphShape | src/pages/labs/MapPanel.jsx:17-52 | the graph has exactly one node per file; every edge joins two of its nodes of one folder or one extension; the edges number the files minus the folders, plus k-1 for each extension with k files where k is 2 to 9 |
| MapStats.BuildGraphAsWritten | src/pages/labs/MapPanel.jsx:21 | as written, the graph throws exactly when some node of the corrected graph has an inherited name as its folder key or extension; otherwise it is the corrected graph |
| MapStats.InheritedNode | src/pages/labs/MapPanel.jsx:21-46 | some graph node has an inherited folder key or extension exactly when some file of the tree has |
| MapStats.BuildGraphAsWrittenThrows | src/pages/labs/MapPanel.jsx:46 | a tree with the single file `x.constructor` makes the graph throw, while the corrected graph has one node |
| MapStats.OneFile | src/pages/labs/MapPanel.jsx:17-38 | a tree of one file has one graph node |
| MapStats.InsertDesc | src/pages/labs/MapPanel.jsx:176 | insertion keeps the bars in descending order and adds exactly the one bar |
| MapStats.SortDesc | src/pages/labs/MapPanel.jsx:176 | the sort is a permutation of the bars, in descending order of count |
| MapStats.InsertDescStable | src/pages/labs/MapPanel.jsx:176 | inserting a bar into a descending list places it after every bar of its count and keeps their order |
| MapStats.SortDescStable | src/pages/labs/MapPanel.jsx:176 | the sort is stable: for every count, the bars with that count come out in the order they went in |
| MapStats.Histogram | src/pages/labs/MapPanel.jsx:173-177 | at most eight bars, in descending order of count |
| MapStats.HistogramLength | src/pages/labs/MapPanel.jsx:176 | there are eight bars, or one per label when there are fewer labels |
| MapStats.HistogramTop | src/pages/labs/MapPanel.jsx:176 | a label left out has no more files than the smallest bar shown |
| MapStats.HistogramCounts | src/pages/labs/MapPanel.jsx:175 | each bar counts exactly the files with its label, and at least one |
| MapStats.HistogramTies | src/pages/labs/MapPanel.jsx:173-177 | for every count, the bars shown with it are the first labels with that count in order of first appearance |
| MapStats.HistogramTieOrder | src/pages/labs/MapPanel.jsx:173-177 | of two labels with the same count, the later one is shown only when the earlier one is, so a label cut off at a tie appears after every shown label of its count |
| MapStats.CountsSum | src/pages/labs/MapPanel.jsx:175 | the counts of all labels add up to the number of files |
| TerminalTabs.Mount | src/pages/labs/MultiTerminal.jsx:27-28 | the panel mounts with one active tab, id 1 |
| TerminalTabs.AddTab | src/pages/labs/MultiTerminal.jsx:94-98 | the counter is incremented and its new value is appended as a fresh, active tab id |
| TerminalTabs.Remove | src/pages/labs/MultiTerminal.jsx:109 | the filter keeps exactly the other tab ids |
| TerminalTabs.RemoveIncreasing | src/pages/labs/MultiTerminal.jsx:109 | removing a tab keeps the remaining ids in increasing order |
| TerminalTabs.FirstOther | src/pages/labs/MultiTerminal.jsx:110 | the fallback is the first tab, in display order, other than the closed one, or 1 when there is none |
| TerminalTabs.Release | src/pages/labs/MultiTerminal.jsx:104 | exactly the terminal's data listener leaves the data channel and exactly its exit listener leaves the exit channel; every other channel is unchanged |
| TerminalTabs.CloseTab | src/pages/labs/MultiTerminal.jsx:100-111 | the last tab is never closed; otherwise the tab goes and its instance is forgotten, exactly its terminal's two listeners are removed and every other channel is unchanged, and an active tab hands over to the first other tab |
| TerminalTabs.InitTerm | src/pages/labs/MultiTerminal.jsx:34-35 | for a tab whose terminal was never created, a present element creates it and records it once, adding exactly one data and one exit listener and leaving the tabs alone; without an element nothing changes |
| TerminalTabs.SetTabRef | src/pages/labs/MultiTerminal.jsx:115-120 | the first element for a tab is recorded and its terminal is created; later calls change nothing |
| TerminalTabs.CloseAfterAdd | src/pages/labs/MultiTerminal.jsx:94-111 | closing a tab just added restores the tab list |
| TerminalTabs.SetTabRefIdempotent | src/pages/labs/MultiTerminal.jsx:115-120 | however often the ref callback runs, the tab's terminal is created once |
| TerminalTabs.ReleaseFresh | src/pages/labs/MultiTerminal.jsx:73-85 | releasing a terminal right after it subscribed restores every channel |
| TerminalTabs.InitThenCloseRestoresListeners | src/pages/labs/MultiTerminal.jsx:100-120 | creating a tab's terminal and then closing the tab leaves every bridge channel with the listeners it had before |
| Text.Trim | src/pages/labs/Workspacesetup.jsx:21 | `trim` returns the part of the input that starts right after its leading white space and is followed only by white space; it neither starts nor ends with white space |
| Text.LeadingBlanks | src/pages/labs/Workspacesetup.jsx:21 | the count of white-space characters at the front, stopping at the first other character |
| Text.TrimEmptyIff | src/pages/labs/Workspacesetup.jsx:22 | trimming leaves nothing exactly when the input is all white space |
| Text.TrimSurrounding | src/pages/labs/Workspacesetup.jsx:21 | white space around a string does not change what `trim` returns |
| Text.SplitJoin | src/pages/labs/MapPanel.jsx:21 | splitting a joined path on the separators gives back its pieces |
| Text.AfterLastOf | src/pages/labs/StudioPage.jsx:39 | the text after the last dot is the dot-free tail |
| WorkspaceSetup.HandleOpen | src/pages/labs/Workspacesetup.jsx:20-25 | a blank path shows "Enter a directory path." and opens nothing; otherwise the error clears and the trimmed path opens |
| WorkspaceSetup.DisabledIffRefused | src/pages/labs/Workspacesetup.jsx:63 | the Open button is disabled exactly when `handleOpen` would refuse |
| WorkspaceSetup.OpenIgnoresSurroundingBlanks | src/pages/labs/Workspacesetup.jsx:21 | a path typed with surrounding blanks opens the same workspace as the path alone |
| WorkspaceSetup.HandleBrowse | src/pages/labs/Workspacesetup.jsx:11-18 | loading always ends, whether or not a folder was picked; a non-empty pick opens that folder |
| WorkspaceSetup.BrowseKeepsOpenButton | src/pages/labs/Workspacesetup.jsx:55-63 | browsing leaves the typed path, and so the Open button's state, unchanged |

## Left out

- The window controls (`win:*`) and `shell:open` are not modelled. They only drive the window and the operating system.
- `Host.OpenFolder`: the native dialog is a parameter, so its answer is simply passed through.
- `Host.WindowCreated` only records that a window exists. The window's size, frame and URL are not modelled.
- `Host.Run`: the shell program and the spawn environment are not modelled, because they depend on the platform and on `process.env`.
- `Session.Spawn`: the same applies to the shell and its environment.
- `Scanner.BuildTree`: `localeCompare` is an abstract strict total order, because its collation is not known.
- `Fs`: paths are POSIX paths without `.` or `..`. Windows drive letters and backslash paths are not modelled. A trailing `/` is not modelled either: `Fs.Segments` drops it, where Node requires the path to name a directory. Paths from the tree never end in `/`; only typed paths and names can.
- `Host.Read`: a path ending in `/` that names a file is read as that file, where `readFileSync` fails with `ENOTDIR`.
- `Host.WriteFile`: a path ending in `/` is written as the file without the slash, where `writeFileSync` fails with `EISDIR` or `ENOTDIR` after `mkdirSync` has created the parents.
- `Host.Rename`: a source ending in `/` that names a file, or a file renamed to a name ending in `/`, is moved, where `renameSync` fails with `ENOTDIR`.
- `Host.Delete`: a path ending in `/` that names a file is deleted, where `statSync` fails with `ENOTDIR` and nothing is removed.
- `Host.SetWorkspace`: a path ending in `/` that names a file is taken as the workspace, where `existsSync` is false and the handler answers `{ok:false}`.
- `Fs.Rename`: the rename rules are POSIX `rename` semantics. Cross-device moves and permission errors are not modelled.
- `Fs.Delete`: permissions are not modelled. Deleting a non-empty directory that cannot be read succeeds in the model, where `rmSync` fails with `EACCES`.
- `Fs.Delete`: deleting the root fails with `EBUSY` and changes nothing. The real `rmSync` would first remove whatever it may below the root before failing.
- `Fs.Resolve`: every path is resolved from the root. A relative workspace such as `proj` becomes `/proj`, and node paths are written as absolute paths, where `path.join` would keep them relative.
- `Logs.KeepLast`: `KeepLast(xs, 0)` keeps nothing, whereas `slice(-0)` copies the whole array. The pages' caps are 500 and 1000, so no caller passes 0.
- `Languages.Ext`: lower-casing covers ASCII only. JavaScript's full Unicode `toLowerCase` is not modelled.
- `Studio.Dbg`: the time stamp on each debug entry is not modelled. Clocks are out of scope.
- `Studio.NewFile` and `Studio.NewFolder` require a workspace. The explorer that offers them is only shown once a workspace is set.
- `Studio.OpenTerminal` also requires a workspace, for the same reason.
- `Studio.OpenTab`: the host's reply to the read is a parameter. Two concurrent opens of the same file, which can add a duplicate tab, are not modelled.
- The "Copy Path" actions are not modelled. They write to the clipboard.
- The editor-menu "Format" action is not modelled. It only logs a placeholder.
- The older page's own terminal writes (banner, `[cd …]`, `[process exited]`) are not modelled. They are display only.
- `Studio.RunOld`: the terminal writes of the older page are not modelled.
- `MapStats.BuildGraph`: coordinates, random jitter and the force layout are not modelled. They are floating-point display data.
- `MapStats.BuildGraph`: groups come in first-appearance order. JavaScript lists integer-like keys first, which is not modelled.
- `MapStats.Histogram`: the same key-order rule for ties between integer-like labels is not modelled.
- `MapStats.Histogram`: labels that name an inherited member of `Object.prototype` are counted like any other label, which the code as written does not do. The count is `(m[e]||(m[e]=0));m[e]++`, and `getExt` lower-cases, so of the twelve inherited names only "constructor" and "__proto__" can be labels; `hasOwnProperty`, `isPrototypeOf`, `propertyIsEnumerable`, `toString`, `toLocaleString`, `valueOf`, `__defineGetter__`, `__defineSetter__`, `__lookupGetter__` and `__lookupSetter__` hold capitals and never occur.
  - "constructor": the first such file finds the truthy inherited `Object`, so nothing is reset, and `++` stores an own `NaN`. Every later file finds that falsy `NaN`, resets it to 0 and adds one. So one file shows `NaN`, and k ≥ 2 files show k − 1.
  - "__proto__": `++` hands `NaN` to the prototype setter, which ignores it, so no own property is made and the label never appears in the histogram.
  - A `NaN` count makes the comparator `b[1]-a[1]` answer `NaN`, which the sort reads as a tie with every bar. The comparator is then inconsistent, and the order of the sorted bars is not defined.
- `TerminalTabs.InitTerm`: the xterm instance, its resize observer and the routing of output to tabs are not modelled. They are display only.
- `TerminalTabs.Mount`: the first-tab effect is not modelled. Its ref is never attached to an element, so it never runs; tab 1 gets its terminal through the ref callback like every other tab.
- Labels are not modelled. A tab's label is always `bash <id>`.
- The AI assistant panel, the settings panel and the file viewer are not modelled.
- Messages on a bridge channel with a malformed payload find no handler in the model. The real handlers would read `undefined` fields.

## Findings

| source | as written | input that shows it | evidently intended | confidence | as-written member | corrected member |
|---|---|---|---|---|---|---|
| src/pages/labs/StudioPage.jsx:45 | `map[e] \|\| "plaintext"` looks the extension up on a plain object, so inherited members such as `constructor` are found | a file named `x.constructor` (the older page's `?? "plaintext"` at pages/labs/StudioPage.jsx:18 behaves the same) | the language "plaintext" | medium, not executed | Languages.GetLangAsWrittenConstructor | Languages.GetLang |
| src/pages/labs/MapPanel.jsx:46 | `(byExt[n.ext]\|\|(byExt[n.ext]=[])).push(n)` finds `Object.prototype.constructor` for the extension "constructor" and calls `push` on a function, which throws (line 21 does the same for a folder key) | a tree holding one file `x.constructor` | that file drawn as a node in its own extension group | medium, not executed | MapStats.BuildGraphAsWrittenThrows | MapStats.GraphShape |
| electron/main.js:65 | the exit handler of every shell sets `ptyProc = null`, whichever shell is in the slot by then | open a workspace while the window's first shell runs (it is killed and replaced), then let the killed shell report its exit | empty the slot only when it still holds the exiting shell | medium, not executed | Session.ReplacedShellExitOrphansNewShell | Session.ExitOwnOrphans |
| src/pages/labs/StudioPage.jsx:352 | after a delete, tabs are closed by `x.path.startsWith(node.path)`, a raw string prefix (the older page does the same at pages/labs/StudioPage.jsx:288) | deleting `/ws/app` while `/ws/app.js` is open | close only the deleted entry and the tabs inside it | high, not executed | Studio.DeleteAsWrittenClosesSibling | Studio.DeleteEntry |

The host model keeps the exit handler as written: `Host.ProcessExit` empties the slot through `Session.Exit`, so the orphan lemmas describe the program as it stands, and `Session.ExitOwn` states the corrected handler beside it.

=== FILE: boundary.dfy ===
/** The preload bridge: each call the renderer makes on `window.studio` becomes one IPC
    message on a fixed channel, either an `invoke` (answered) or a `send` (one-way), with
    its arguments packed into one payload value; and the listener table behind the
    `onTreeUpdate`, `onData` and `onExit` subscriptions. */
module Boundary {
  import opened Wrappers

  /** A payload value as the structured clone carries it. */
  datatype Value =
    | Undefined
    | Str(s: string)
    | Num(n: int)
    | Obj(fields: map<string, Value>)

  /** The calls of `window.studio` that reach the host's workspace, filesystem and
      terminal handlers. */
  datatype Call =
    | OpenFolder
    | SetWorkspace(dir: string)
    | Tree(target: Option<string>)
    | Read(fp: string)
    | Write(fp: string, content: string)
    | Mkdir(dir: string)
    | Rename(from: string, name: string)
    | Delete(fp: string)
    | PtyWrite(data: string)
    | PtyResize(cols: int, rows: int)
    | PtyRun(cmd: string)
    | PtyStop
    | PtyCd(dir: string)

  /** `ipcRenderer.invoke` waits for the handler's answer; `ipcRenderer.send` does not. */
  datatype Mode = Invoke | Send

  datatype Message = Message(mode: Mode, channel: string, payload: Value)

  function Channel(c: Call): string {
    match c
    case OpenFolder => "dialog:openFolder"
    case SetWorkspace(_) => "workspace:set"
    case Tree(_) => "fs:tree"
    case Read(_) => "fs:read"
    case Write(_, _) => "fs:write"
    case Mkdir(_) => "fs:mkdir"
    case Rename(_, _) => "fs:rename"
    case Delete(_) => "fs:delete"
    case PtyWrite(_) => "pty:input"
    case PtyResize(_, _) => "pty:resize"
    case PtyRun(_) => "pty:run"
    case PtyStop => "pty:stop"
    case PtyCd(_) => "pty:cd"
  }

  /** The calls answered by the host: the dialog, the workspace and the filesystem. */
  predicate IsQuery(c: Call) {
    !(c.PtyWrite? || c.PtyResize? || c.PtyRun? || c.PtyStop? || c.PtyCd?)
  }

  /** The message `preload.js` sends for a call. */
  function Encode(c: Call): (m: Message)
    ensures m.channel == Channel(c)
    ensures m.mode == Invoke <==> IsQuery(c)
  {
    match c
    case OpenFolder => Message(Invoke, Channel(c), Undefined)
    case SetWorkspace(dir) => Message(Invoke, Channel(c), Str(dir))
    case Tree(dir) => Message(Invoke, Channel(c), if dir.Some? then Str(dir.value) else Undefined)
    case Read(fp) => Message(Invoke, Channel(c), Str(fp))
    case Write(fp, content) => Message(Invoke, Channel(c), Obj(map["fp" := Str(fp), "content" := Str(content)]))
    case Mkdir(dir) => Message(Invoke, Channel(c), Str(dir))
    case Rename(from, name) => Message(Invoke, Channel(c), Obj(map["from" := Str(from), "name" := Str(name)]))
    case Delete(fp) => Message(Invoke, Channel(c), Str(fp))
    case PtyWrite(data) => Message(Send, Channel(c), Str(data))
    case PtyResize(cols, rows) => Message(Send, Channel(c), Obj(map["cols" := Num(cols), "rows" := Num(rows)]))
    case PtyRun(cmd) => Message(Send, Channel(c), Str(cmd))
    case PtyStop => Message(Send, Channel(c), Undefined)
    case PtyCd(dir) => Message(Send, Channel(c), Str(dir))
  }

  /** The two string fields of an object payload with exactly those keys. */
  function Pair(v: Value, a: string, b: string): (r: Option<(string, string)>)
    requires a != b
    ensures r.Some? <==> v.Obj? && v.fields.Keys == {a, b} && v.fields[a].Str? && v.fields[b].Str?
    ensures r.Some? ==> v == Obj(map[a := Str(r.value.0), b := Str(r.value.1)])
  {
    if v.Obj? && v.fields.Keys == {a, b} && v.fields[a].Str? && v.fields[b].Str? then
      assert v.fields == map[a := v.fields[a], b := v.fields[b]];
      Some((v.fields[a].s, v.fields[b].s))
    else None
  }

  /** The call a message stands for, as the host's handlers read it; `None` for a
      message the bridge never produces. Every message accepted is the encoding of the
      call it is read as: the payload shapes leave no room for a second reading. */
  function Decode(m: Message): (r: Option<Call>)
    ensures r.Some? ==> Encode(r.value) == m
  {
    match m.channel
    case "dialog:openFolder" =>
      if m.mode == Invoke && m.payload == Undefined then Some(OpenFolder) else None
    case "workspace:set" =>
      if m.mode == Invoke && m.payload.Str? then Some(SetWorkspace(m.payload.s)) else None
    case "fs:tree" =>
      if m.mode != Invoke then None
      else if m.payload == Undefined then Some(Tree(None))
      else if m.payload.Str? then Some(Tree(Some(m.payload.s)))
      else None
    case "fs:read" =>
      if m.mode == Invoke && m.payload.Str? then Some(Read(m.payload.s)) else None
    case "fs:write" =>
      var p := Pair(m.payload, "fp", "content");
      if m.mode == Invoke && p.Some? then Some(Write(p.value.0, p.value.1)) else None
    case "fs:mkdir" =>
      if m.mode == Invoke && m.payload.Str? then Some(Mkdir(m.payload.s)) else None
    case "fs:rename" =>
      var p := Pair(m.payload, "from", "name");
      if m.mode == Invoke && p.Some? then Some(Rename(p.value.0, p.value.1)) else None
    case "fs:delete" =>
      if m.mode == Invoke && m.payload.Str? then Some(Delete(m.payload.s)) else None
    case "pty:input" =>
      if m.mode == Send && m.payload.Str? then Some(PtyWrite(m.payload.s)) else None
    case "pty:resize" =>
      var v := m.payload;
      if m.mode == Send && v.Obj? && v.fields.Keys == {"cols", "rows"}
         && v.fields["cols"].Num? && v.fields["rows"].Num?
      then
        assert v.fields == map["cols" := v.fields["cols"], "rows" := v.fields["rows"]];
        Some(PtyResize(v.fields["cols"].n, v.fields["rows"].n))
      else None
    case "pty:run" =>
      if m.mode == Send && m.payload.Str? then Some(PtyRun(m.payload.s)) else None
    case "pty:stop" =>
      if m.mode == Send && m.payload == Undefined then Some(PtyStop) else None
    case "pty:cd" =>
      if m.mode == Send && m.payload.Str? then Some(PtyCd(m.payload.s)) else None
    case _ => None
  }

  /** Every call reaches the host as itself. */
  lemma {:induction false} DecodeEncode(c: Call)
    ensures Decode(Encode(c)) == Some(c)
  {
    match c
    case Write(fp, content) =>
      assert Pair(Encode(c).payload, "fp", "content") == Some((fp, content));
    case Rename(from, name) =>
      assert Pair(Encode(c).payload, "from", "name") == Some((from, name));
    case PtyResize(cols, rows) =>
      assert Encode(c).payload.fields.Keys == {"cols", "rows"};
    case _ =>
  }

  /** Two different calls never produce the same message. */
  lemma EncodeInjective(a: Call, b: Call)
    requires Encode(a) == Encode(b)
    ensures a == b
  {
    DecodeEncode(a);
    DecodeEncode(b);
  }

  /** The bridge method a call goes through: the call with its arguments blanked. */
  function Method(c: Call): Call {
    match c
    case OpenFolder => OpenFolder
    case SetWorkspace(_) => SetWorkspace("")
    case Tree(_) => Tree(None)
    case Read(_) => Read("")
    case Write(_, _) => Write("", "")
    case Mkdir(_) => Mkdir("")
    case Rename(_, _) => Rename("", "")
    case Delete(_) => Delete("")
    case PtyWrite(_) => PtyWrite("")
    case PtyResize(_, _) => PtyResize(0, 0)
    case PtyRun(_) => PtyRun("")
    case PtyStop => PtyStop
    case PtyCd(_) => PtyCd("")
  }

  /** Each bridge method has a channel of its own. */
  lemma ChannelsDistinct(a: Call, b: Call)
    ensures Channel(a) == Channel(b) <==> Method(a) == Method(b)
  {
  }

  // ---------------------------------------------------------------- subscriptions

  /** The push channels a renderer can subscribe to. */
  const TreeUpdate: string := "fs:treeUpdate"
  const PtyData: string := "pty:data"
  const PtyExit: string := "pty:exit"

  /** `ipcRenderer`'s listener table: for each channel the handlers, by token, in the
      order they were added and so in the order a message on the channel reaches them;
      `next` is the token the next handler gets. */
  datatype Registry = Registry(listeners: map<string, seq<nat>>, next: nat)
  {
    /** Every token is below `next` and appears once. */
    ghost predicate Valid() {
      && (forall ch, i :: ch in listeners && 0 <= i < |listeners[ch]| ==> listeners[ch][i] < next)
      && (forall ch, i, j :: ch in listeners && 0 <= i < j < |listeners[ch]| ==> listeners[ch][i] != listeners[ch][j])
    }
  }

  const NoListeners: Registry := Registry(map[], 0)

  function Handlers(reg: Registry, ch: string): seq<nat> {
    if ch in reg.listeners then reg.listeners[ch] else []
  }

  /** `ipcRenderer.on(ch, h)` with a fresh handler `h`: it is added last; the returned
      token stands for the unsubscribe function the bridge hands back. */
  function Subscribe(reg: Registry, ch: string): (r: (Registry, nat))
    requires reg.Valid()
    ensures r.0.Valid() && r.1 == reg.next && r.0.next == reg.next + 1
    ensures Handlers(r.0, ch) == Handlers(reg, ch) + [r.1]
    ensures forall c :: c != ch ==> Handlers(r.0, c) == Handlers(reg, c)
  {
    var hs := Handlers(reg, ch) + [reg.next];
    (Registry(reg.listeners[ch := hs], reg.next + 1), reg.next)
  }

  /** `hs` without the token `t`. */
  function Without(hs: seq<nat>, t: nat): (r: seq<nat>)
    ensures forall x :: x in r <==> x in hs && x != t
    ensures |r| <= |hs|
  {
    if hs == [] then []
    else (if hs[0] == t then [] else [hs[0]]) + Without(hs[1..], t)
  }

  /** The unsubscribe function: `ipcRenderer.removeListener(ch, h)`. Removing a handler
      that is not there changes nothing. */
  function Unsubscribe(reg: Registry, ch: string, token: nat): (r: Registry)
    requires reg.Valid()
    ensures r.Valid() && r.next == reg.next
    ensures forall x :: x in Handlers(r, ch) <==> x in Handlers(reg, ch) && x != token
    ensures forall c :: c != ch ==> Handlers(r, c) == Handlers(reg, c)
  {
    if ch !in reg.listeners then reg
    else
      var hs := Without(reg.listeners[ch], token);
      WithoutKeepsDistinct(reg.listeners[ch], token);
      assert forall i :: 0 <= i < |hs| ==> hs[i] in reg.listeners[ch];
      Registry(reg.listeners[ch := hs], reg.next)
  }

  lemma {:induction false} WithoutKeepsDistinct(hs: seq<nat>, t: nat)
    requires forall i, j :: 0 <= i < j < |hs| ==> hs[i] != hs[j]
    ensures forall i, j :: 0 <= i < j < |Without(hs, t)| ==> Without(hs, t)[i] != Without(hs, t)[j]
  {
    if hs != [] {
      WithoutKeepsDistinct(hs[1..], t);
      var rest := Without(hs[1..], t);
      assert hs[0] !in hs[1..];
      assert hs[0] !in rest;
    }
  }

  lemma {:induction false} WithoutAbsent(hs: seq<nat>, t: nat)
    requires t !in hs
    ensures Without(hs, t) == hs
  {
    if hs != [] {
      WithoutAbsent(hs[1..], t);
      assert [hs[0]] + hs[1..] == hs;
    }
  }

  lemma {:induction false} WithoutLast(hs: seq<nat>, t: nat)
    requires t !in hs
    ensures Without(hs + [t], t) == hs
  {
    if hs == [] {
      assert Without([t], t) == [] + Without([], t);
    } else {
      WithoutLast(hs[1..], t);
      assert (hs + [t])[1..] == hs[1..] + [t];
      assert [hs[0]] + hs[1..] == hs;
    }
  }

  /** Unsubscribing the handler added last restores the channel's earlier handlers. */
  lemma UnsubscribeLast(reg: Registry, ch: string, hs: seq<nat>, t: nat)
    requires reg.Valid() && Handlers(reg, ch) == hs + [t] && t !in hs
    ensures Handlers(Unsubscribe(reg, ch, t), ch) == hs
  {
    WithoutLast(hs, t);
  }

  /** Subscribing and then calling the returned unsubscribe function leaves every
      channel's handlers as they were. */
  lemma SubscribeUnsubscribe(reg: Registry, ch: string)
    requires reg.Valid()
    ensures
      var (r1, t) := Subscribe(reg, ch);
      forall c :: Handlers(Unsubscribe(r1, ch, t), c) == Handlers(reg, c)
  {
    var (r1, t) := Subscribe(reg, ch);
    assert t !in Handlers(reg, ch);
    WithoutLast(Handlers(reg, ch), t);
  }

  /** After its unsubscribe function ran, a handler receives nothing more from its
      channel; unsubscribing a handler that is not there changes nothing. */
  lemma UnsubscribedHearsNothing(reg: Registry, ch: string, token: nat)
    requires reg.Valid()
    ensures token !in Handlers(Unsubscribe(reg, ch, token), ch)
    ensures token !in Handlers(reg, ch) ==> Unsubscribe(reg, ch, token) == reg
  {
    if token !in Handlers(reg, ch) && ch in reg.listeners {
      WithoutAbsent(reg.listeners[ch], token);
    }
  }
}

=== FILE: filesystem.dfy ===
/** The abstract filesystem the host process works on, and the effect of the Node `fs`
    calls its handlers make (`readFileSync`, `writeFileSync`, `mkdirSync` with
    `recursive`, `renameSync`, `statSync` + `rmSync`/`unlinkSync`).

    A path is the sequence of its segments below the root. Path strings are absolute
    POSIX paths: `path.join` becomes appending a segment and `path.dirname` dropping
    the last one. */
module Fs {
  import opened Wrappers
  import opened Text

  type Path = seq<string>

  /** What is stored at a path. A directory the host may not list is `Dir(false)`. */
  datatype Entry = File(content: string) | Dir(readable: bool)

  type FileSystem = map<Path, Entry>

  /** The error codes the model's `fs` calls can fail with. */
  datatype Errno = ENOENT | ENOTDIR | EISDIR | EEXIST | EINVAL | ENOTEMPTY | EBUSY

  predicate IsPrefix(a: Path, b: Path) {
    |a| <= |b| && b[..|a|] == a
  }

  function Parent(p: Path): Path
    requires p != []
  {
    p[..|p| - 1]
  }

  /** A segment as it can appear in a path: non-empty, no separator. */
  predicate ValidName(n: string) {
    n != "" && NoneOf(n, {'/'})
  }

  predicate ValidPath(p: Path) {
    forall i :: 0 <= i < |p| ==> ValidName(p[i])
  }

  /** A tree: the root is a directory, every other path hangs below a directory. */
  ghost predicate Wf(fs: FileSystem) {
    && [] in fs && fs[[]].Dir?
    && (forall p :: p in fs && p != [] ==> Parent(p) in fs && fs[Parent(p)].Dir?)
    && (forall p :: p in fs ==> ValidPath(p))
  }

  predicate IsDir(fs: FileSystem, p: Path) {
    p in fs && fs[p].Dir?
  }

  predicate IsFile(fs: FileSystem, p: Path) {
    p in fs && fs[p].File?
  }

  // ---------------------------------------------------------------- path strings

  /** The non-empty pieces of `parts`, in order. */
  function NonEmpty(parts: seq<string>): (r: seq<string>)
    requires forall i :: 0 <= i < |parts| ==> NoneOf(parts[i], {'/'})
    ensures ValidPath(r)
  {
    if parts == [] then []
    else (if parts[0] == "" then [] else [parts[0]]) + NonEmpty(parts[1..])
  }

  /** The segments of an absolute path string; repeated and trailing `/` are ignored. */
  function Segments(s: string): (r: Path)
    ensures ValidPath(r)
  {
    NonEmpty(Split(s, {'/'}))
  }

  /** The path a handler argument names. Node rejects the empty string with ENOENT. */
  function Resolve(s: string): Option<Path> {
    if s == "" then None else Some(Segments(s))
  }

  /** The absolute path string of `p`, as `path.join` writes it. */
  function Render(p: Path): (r: string)
    ensures r != ""
  {
    if p == [] then "/" else Join([""] + p, "/")
  }

  lemma {:induction false} NonEmptyOfValid(p: Path)
    requires ValidPath(p)
    ensures NonEmpty(p) == p
  {
    if p != [] {
      NonEmptyOfValid(p[1..]);
      assert [p[0]] + p[1..] == p;
    }
  }

  /** Rendering a valid path and resolving the string again gives the path back. */
  lemma ResolveRender(p: Path)
    requires ValidPath(p)
    ensures Resolve(Render(p)) == Some(p)
  {
    if p == [] {
      assert Split("/", {'/'}) == ["", ""];
    } else {
      var parts := [""] + p;
      forall i | 0 <= i < |parts|
        ensures NoneOf(parts[i], {'/'})
      {
        if i > 0 {
          assert parts[i] == p[i - 1];
        }
      }
      SplitJoin(parts, {'/'}, '/');
      assert parts[1..] == p;
      assert NonEmpty(parts) == NonEmpty(parts[1..]);
      NonEmptyOfValid(p);
    }
  }

  // ---------------------------------------------------------------- reading

  /** The names directly inside `dir`. */
  function Children(fs: FileSystem, dir: Path): (r: set<string>)
    ensures forall n :: n in r <==> dir + [n] in fs
  {
    var r := set p | p in fs && |p| == |dir| + 1 && p[..|dir|] == dir :: p[|dir|];
    assert forall n :: dir + [n] in fs ==> n in r by {
      forall n | dir + [n] in fs
        ensures n in r
      {
        var p := dir + [n];
        assert p[..|dir|] == dir && p[|dir|] == n;
      }
    }
    assert forall n :: n in r ==> dir + [n] in fs by {
      forall n | n in r
        ensures dir + [n] in fs
      {
        var p :| p in fs && |p| == |dir| + 1 && p[..|dir|] == dir && p[|dir|] == n;
        assert p == dir + [n];
      }
    }
    r
  }

  /** `readdirSync(dir)`: the names inside a readable directory; `None` when it throws. */
  function ReadDir(fs: FileSystem, dir: Path): (r: Option<set<string>>)
    ensures r.Some? <==> dir in fs && fs[dir] == Dir(true)
    ensures r.Some? ==> forall n :: n in r.value <==> dir + [n] in fs
  {
    if dir in fs && fs[dir] == Dir(true) then Some(Children(fs, dir)) else None
  }

  /** Some proper ancestor of `p` is a file. */
  predicate UnderFile(fs: FileSystem, p: Path) {
    exists k :: 0 <= k < |p| && IsFile(fs, p[..k])
  }

  /** The code Node reports for a path that does not exist. */
  function MissingCode(fs: FileSystem, p: Path): Errno {
    if UnderFile(fs, p) then ENOTDIR else ENOENT
  }

  /** `readFileSync(fp, "utf8")`. */
  function ReadFile(fs: FileSystem, fp: Option<Path>): (r: Result<string, Errno>)
    ensures r.Ok? <==> fp.Some? && IsFile(fs, fp.value)
    ensures r.Ok? ==> r.value == fs[fp.value].content
  {
    match fp
    case None => Err(ENOENT)
    case Some(p) =>
      if p !in fs then Err(MissingCode(fs, p))
      else if fs[p].Dir? then Err(EISDIR)
      else Ok(fs[p].content)
  }

  // ---------------------------------------------------------------- mutations

  function Prefixes(p: Path): (r: set<Path>)
    ensures forall q :: q in r <==> IsPrefix(q, p)
  {
    var r := set k | 0 <= k <= |p| :: p[..k];
    assert forall q :: IsPrefix(q, p) ==> q in r by {
      forall q | IsPrefix(q, p)
        ensures q in r
      {
        assert q == p[..|q|];
      }
    }
    r
  }

  /** `mkdirSync(p, { recursive: true })`: creates every missing directory on the way to
      `p`; succeeds without change when `p` is already a directory. */
  function MakeDirs(fs: FileSystem, p: Path): (r: Result<FileSystem, Errno>)
    ensures r.Ok? <==> !UnderFile(fs, p) && !IsFile(fs, p)
    ensures r.Ok? ==> fs.Keys <= r.value.Keys
    ensures r.Ok? ==> forall q :: q in r.value ==> if q in fs then r.value[q] == fs[q] else IsPrefix(q, p) && r.value[q] == Dir(true)
    ensures r.Ok? ==> forall q :: IsPrefix(q, p) ==> IsDir(r.value, q)
  {
    if UnderFile(fs, p) then Err(ENOTDIR)
    else if IsFile(fs, p) then Err(EEXIST)
    else
      var added := map q | q in Prefixes(p) && q !in fs :: Dir(true);
      var r := fs + added;
      assert forall q :: IsPrefix(q, p) ==> IsDir(r, q) by {
        forall q | IsPrefix(q, p)
          ensures IsDir(r, q)
        {
          if q in fs && q != p {
            assert q == p[..|q|];
            assert !IsFile(fs, q);
          }
        }
      }
      Ok(r)
  }

  /** A file is in the way of a path exactly when one is in the way of its parent or is
      the parent itself. */
  lemma UnderFileParent(fs: FileSystem, p: Path)
    requires p != []
    ensures UnderFile(fs, p) <==> UnderFile(fs, Parent(p)) || IsFile(fs, Parent(p))
  {
    if UnderFile(fs, p) && !IsFile(fs, Parent(p)) {
      var k :| 0 <= k < |p| && IsFile(fs, p[..k]);
      assert Parent(p)[..k] == p[..k];
    }
    if UnderFile(fs, Parent(p)) {
      var k :| 0 <= k < |Parent(p)| && IsFile(fs, Parent(p)[..k]);
      assert Parent(p)[..k] == p[..k];
    }
  }

  /** `mkdirSync(dirname(fp), { recursive: true })` followed by `writeFileSync(fp, content)`. */
  function WriteFile(fs: FileSystem, fp: Option<Path>, content: string): (r: Result<FileSystem, Errno>)
    ensures r.Ok? <==> fp.Some? && fp.value != [] && !UnderFile(fs, fp.value) && !IsDir(fs, fp.value)
    ensures r.Ok? ==> fp.Some? && fp.value != [] && fp.value in r.value && r.value[fp.value] == File(content)
    ensures r.Ok? ==> forall q :: q in fs && q != fp.value ==> q in r.value && r.value[q] == fs[q]
    ensures r.Ok? ==> forall q :: q in r.value && q !in fs && q != fp.value ==>
      IsPrefix(q, fp.value) && r.value[q] == Dir(true)
  {
    match fp
    case None => Err(ENOENT)
    case Some(p) =>
      if p == [] then Err(EISDIR)
      else
        UnderFileParent(fs, p);
        match MakeDirs(fs, Parent(p))
        case Err(e) => Err(e)
        case Ok(fs1) =>
          if IsDir(fs1, p) then Err(EISDIR) else Ok(fs1[p := File(content)])
  }

  /** `mkdirSync(dir, { recursive: true })` on a handler argument. */
  function MakeDirectory(fs: FileSystem, dir: Option<Path>): (r: Result<FileSystem, Errno>)
    ensures r.Ok? <==> dir.Some? && !UnderFile(fs, dir.value) && !IsFile(fs, dir.value)
    ensures r.Ok? ==> IsDir(r.value, dir.value)
    ensures r.Ok? ==> forall q :: q in fs ==> q in r.value && r.value[q] == fs[q]
  {
    match dir
    case None => Err(ENOENT)
    case Some(p) =>
      assert IsPrefix(p, p);
      MakeDirs(fs, p)
  }

  /** The new locations of `from` and everything below it once moved to `dest`. */
  function MovedKeys(fs: FileSystem, from: Path, dest: Path): (r: set<Path>)
    ensures forall q :: q in r ==> IsPrefix(dest, q) && from + q[|dest|..] in fs
    ensures forall p :: p in fs && IsPrefix(from, p) ==> dest + p[|from|..] in r
  {
    var r := set p | p in fs && IsPrefix(from, p) :: dest + p[|from|..];
    assert forall q :: q in r ==> IsPrefix(dest, q) && from + q[|dest|..] in fs by {
      forall q | q in r
        ensures IsPrefix(dest, q) && from + q[|dest|..] in fs
      {
        var p :| p in fs && IsPrefix(from, p) && q == dest + p[|from|..];
        assert q[|dest|..] == p[|from|..];
        assert from + p[|from|..] == p;
      }
    }
    r
  }

  /** The filesystem after the subtree at `from` is moved to `dest`, replacing `dest`. */
  function Move(fs: FileSystem, from: Path, dest: Path): FileSystem {
    (map p | p in fs && !IsPrefix(from, p) && !IsPrefix(dest, p) :: fs[p])
    + (map q | q in MovedKeys(fs, from, dest) :: fs[from + q[|dest|..]])
  }

  /** Moving a subtree carries every entry below `from` to the same place below `dest`,
      and leaves every entry outside both subtrees as it was. */
  lemma MoveContents(fs: FileSystem, from: Path, dest: Path)
    ensures forall p :: p in fs && !IsPrefix(from, p) && !IsPrefix(dest, p) ==>
      p in Move(fs, from, dest) && Move(fs, from, dest)[p] == fs[p]
    ensures forall p :: p in fs && IsPrefix(from, p) ==>
      dest + p[|from|..] in Move(fs, from, dest) && Move(fs, from, dest)[dest + p[|from|..]] == fs[p]
    ensures forall q :: q in Move(fs, from, dest) <==>
      (q in fs && !IsPrefix(from, q) && !IsPrefix(dest, q)) || (IsPrefix(dest, q) && from + q[|dest|..] in fs)
  {
    forall q | IsPrefix(dest, q) && from + q[|dest|..] in fs
      ensures q in MovedKeys(fs, from, dest)
    {
      var p := from + q[|dest|..];
      assert IsPrefix(from, p) && p[|from|..] == q[|dest|..];
      assert dest + q[|dest|..] == q;
    }
    forall p | p in fs && IsPrefix(from, p)
      ensures dest + p[|from|..] in Move(fs, from, dest) && Move(fs, from, dest)[dest + p[|from|..]] == fs[p]
    {
      var q := dest + p[|from|..];
      assert q in MovedKeys(fs, from, dest);
      assert q[|dest|..] == p[|from|..];
      assert from + p[|from|..] == p;
    }
  }

  /** Two prefixes of one path are prefixes of each other. */
  lemma PrefixesNested(a: Path, b: Path, q: Path)
    requires IsPrefix(a, q) && IsPrefix(b, q) && |a| <= |b|
    ensures IsPrefix(a, b)
  {
    assert b[..|a|] == q[..|a|];
  }

  /** The renames POSIX `rename` accepts: an existing source that is not the root, a
      destination inside an existing directory, the source onto itself, or else no move
      into its own subtree or onto one of its ancestors, and an existing destination of
      the same kind, a directory only when it is empty. */
  predicate RenameAllowed(fs: FileSystem, src: Path, dest: Path) {
    && src != [] && dest != [] && src in fs && IsDir(fs, Parent(dest))
    && (src == dest
        || (&& !IsPrefix(src, dest) && !IsPrefix(dest, src)
            && (dest in fs ==> fs[dest].Dir? == fs[src].Dir? && (fs[dest].Dir? ==> Children(fs, dest) == {}))))
  }

  /** `renameSync(from, dest)` with POSIX `rename` semantics: a file may replace a file,
      a directory may replace an empty directory, nothing may move into itself. */
  function Rename(fs: FileSystem, from: Option<Path>, dest: Path): (r: Result<FileSystem, Errno>)
    ensures r.Ok? <==> from.Some? && RenameAllowed(fs, from.value, dest)
    ensures from.None? || from.value == [] || dest == [] || from.value !in fs ==> r.Err?
    ensures from.Some? && from.value != [] && dest != [] && !IsDir(fs, Parent(dest)) ==> r.Err?
    ensures from.Some? && from.value != dest && IsPrefix(from.value, dest) ==> r.Err?
    ensures r.Ok? ==> from.Some? && from.value in fs && dest in r.value && r.value[dest] == fs[from.value]
    ensures r.Ok? && from.Some? && from.value != dest ==> from.value !in r.value
    ensures r.Ok? && from.Some? ==> forall p :: p in fs && IsPrefix(from.value, p) ==>
      dest + p[|from.value|..] in r.value && r.value[dest + p[|from.value|..]] == fs[p]
    ensures r.Ok? && from.Some? ==> forall p :: p in fs && !IsPrefix(from.value, p) && !IsPrefix(dest, p) ==>
      p in r.value && r.value[p] == fs[p]
    ensures r.Ok? && from.Some? ==> forall q :: q in r.value <==>
      (q in fs && !IsPrefix(from.value, q) && !IsPrefix(dest, q)) || (IsPrefix(dest, q) && from.value + q[|dest|..] in fs)
    ensures r.Ok? && from.Some? && from.value != dest ==> forall q :: IsPrefix(from.value, q) ==> q !in r.value
  {
    match from
    case None => Err(ENOENT)
    case Some(src) =>
      if src == [] || dest == [] then Err(EBUSY)
      else if src !in fs then Err(MissingCode(fs, src))
      else if !IsDir(fs, Parent(dest)) then
        (if Parent(dest) in fs then Err(ENOTDIR) else Err(MissingCode(fs, Parent(dest))))
      else if dest == src then
        assert forall p :: IsPrefix(src, p) ==> dest + p[|src|..] == p;
        assert forall q :: IsPrefix(src, q) ==> src + q[|src|..] == q;
        Ok(fs)
      else if IsPrefix(src, dest) then Err(EINVAL)
      else if IsPrefix(dest, src) then Err(ENOTEMPTY)
      else if dest in fs && fs[src].File? && fs[dest].Dir? then Err(EISDIR)
      else if dest in fs && fs[src].Dir? && fs[dest].File? then Err(ENOTDIR)
      else if dest in fs && fs[dest].Dir? && Children(fs, dest) != {} then Err(ENOTEMPTY)
      else
        var r := Move(fs, src, dest);
        assert IsPrefix(src, src) && src[|src|..] == [];
        assert dest + src[|src|..] == dest;
        assert dest in MovedKeys(fs, src, dest);
        assert src + dest[|dest|..] == src;
        assert src !in MovedKeys(fs, src, dest);
        MoveContents(fs, src, dest);
        forall q | IsPrefix(src, q)
          ensures q !in r
        {
          if IsPrefix(dest, q) {
            if |src| <= |dest| { PrefixesNested(src, dest, q); } else { PrefixesNested(dest, src, q); }
          }
        }
        Ok(r)
  }

  /** `statSync(fp)` then `rmSync(fp, { recursive: true, force: true })` or `unlinkSync(fp)`:
      the entry and everything below it disappear. */
  function Delete(fs: FileSystem, fp: Option<Path>): (r: Result<FileSystem, Errno>)
    ensures r.Ok? <==> fp.Some? && fp.value in fs && fp.value != []
    ensures r.Ok? ==> forall q :: q in r.value <==> q in fs && !IsPrefix(fp.value, q)
    ensures r.Ok? ==> forall q :: q in r.value ==> r.value[q] == fs[q]
  {
    match fp
    case None => Err(ENOENT)
    case Some(p) =>
      if p !in fs then Err(MissingCode(fs, p))
      else if p == [] then Err(EBUSY)
      else Ok(map q | q in fs && !IsPrefix(p, q) :: fs[q])
  }

  // ---------------------------------------------------------------- tree shape is kept

  lemma ParentOfPrefix(q: Path, p: Path)
    requires q != [] && IsPrefix(q, p)
    ensures IsPrefix(Parent(q), p) && IsPrefix(Parent(q), q)
  {
  }

  /** Creating directories along a valid path keeps the filesystem a tree. */
  lemma {:induction false} MakeDirsKeepsWf(fs: FileSystem, p: Path)
    requires Wf(fs) && ValidPath(p) && MakeDirs(fs, p).Ok?
    ensures Wf(MakeDirs(fs, p).value)
  {
    var r := MakeDirs(fs, p).value;
    forall q | q in r && q != []
      ensures Parent(q) in r && r[Parent(q)].Dir?
    {
      if q !in fs {
        ParentOfPrefix(q, p);
      }
    }
    forall q | q in r
      ensures ValidPath(q)
    {
      if q !in fs {
        assert q == p[..|q|];
      }
    }
  }

  /** Writing a file at a valid path keeps the filesystem a tree. */
  lemma {:induction false} WriteFileKeepsWf(fs: FileSystem, p: Path, content: string)
    requires Wf(fs) && ValidPath(p) && WriteFile(fs, Some(p), content).Ok?
    ensures Wf(WriteFile(fs, Some(p), content).value)
  {
    var fs1 := MakeDirs(fs, Parent(p)).value;
    MakeDirsKeepsWf(fs, Parent(p));
    assert IsPrefix(Parent(p), Parent(p));
    var r := fs1[p := File(content)];
    assert r == WriteFile(fs, Some(p), content).value;
    forall q | q in r && q != []
      ensures Parent(q) in r && r[Parent(q)].Dir?
    {
    }
  }

  /** Deleting an entry with everything below it keeps the filesystem a tree. */
  lemma DeleteKeepsWf(fs: FileSystem, fp: Option<Path>)
    requires Wf(fs) && Delete(fs, fp).Ok?
    ensures Wf(Delete(fs, fp).value)
  {
    var r := Delete(fs, fp).value;
    var p := fp.value;
    forall q | q in r && q != []
      ensures Parent(q) in r && r[Parent(q)].Dir?
    {
      assert IsPrefix(p, Parent(q)) ==> IsPrefix(p, q);
    }
  }

  /** The parent of a moved key below `dest` is itself a moved key, holding a directory. */
  lemma MovedParent(fs: FileSystem, src: Path, dest: Path, q: Path)
    requires Wf(fs) && q in MovedKeys(fs, src, dest) && q != dest
    ensures Parent(q) in MovedKeys(fs, src, dest)
    ensures fs[src + Parent(q)[|dest|..]].Dir?
  {
    var x := q[|dest|..];
    assert q == dest + x && x != [];
    assert src + x in fs;
    assert Parent(src + x) == src + Parent(x);
    assert (src + Parent(x))[|src|..] == Parent(x);
    assert IsPrefix(src, src + Parent(x));
    assert Parent(q) == dest + Parent(x);
    assert Parent(q)[|dest|..] == Parent(x);
  }

  /** A moved key is a valid path when `dest` is. */
  lemma MovedValid(fs: FileSystem, src: Path, dest: Path, q: Path)
    requires Wf(fs) && ValidPath(dest) && q in MovedKeys(fs, src, dest)
    ensures ValidPath(q)
  {
    var x := q[|dest|..];
    assert ValidPath(src + x);
    assert forall i :: 0 <= i < |x| ==> x[i] == (src + x)[|src| + i];
    assert q == dest + x;
  }

  /** Moving a subtree to a fresh place below a directory keeps the filesystem a tree. */
  lemma {:induction false} MoveKeepsWf(fs: FileSystem, src: Path, dest: Path)
    requires Wf(fs) && ValidPath(dest) && src != [] && dest != [] && src in fs
    requires IsDir(fs, Parent(dest)) && !IsPrefix(src, dest) && !IsPrefix(dest, src)
    ensures Wf(Move(fs, src, dest))
  {
    var r := Move(fs, src, dest);
    var moved := MovedKeys(fs, src, dest);
    assert [] in r by {
      assert !IsPrefix(src, []) && !IsPrefix(dest, []);
    }
    forall q | q in r && q != []
      ensures Parent(q) in r && r[Parent(q)].Dir?
    {
      if q in moved {
        if q == dest {
          assert !IsPrefix(dest, Parent(dest));
          assert !IsPrefix(src, Parent(dest));
        } else {
          MovedParent(fs, src, dest, q);
        }
      } else {
        assert IsPrefix(src, Parent(q)) ==> IsPrefix(src, q);
        assert IsPrefix(dest, Parent(q)) ==> IsPrefix(dest, q);
      }
    }
    forall q | q in r
      ensures ValidPath(q)
    {
      if q in moved {
        MovedValid(fs, src, dest, q);
      }
    }
  }

  /** A successful rename between valid paths keeps the filesystem a tree. */
  lemma RenameKeepsWf(fs: FileSystem, src: Path, dest: Path)
    requires Wf(fs) && ValidPath(dest) && Rename(fs, Some(src), dest).Ok?
    ensures Wf(Rename(fs, Some(src), dest).value)
  {
    if dest != src {
      MoveKeepsWf(fs, src, dest);
    }
  }
}

=== FILE: grouping.dfy ===
/** Grouping by a string key into an object of arrays (`(m[k] || (m[k] = [])).push(x)`),
    read back with `Object.keys`: one group per key, in the order the keys first appear,
    each holding its items in input order. */
module Grouping {
  datatype Group<T> = Group(key: string, items: seq<T>)

  /** Adds `x` to the group of `k`, opening that group at the end when it is new. */
  function Add<T>(gs: seq<Group<T>>, k: string, x: T): (r: seq<Group<T>>)
    ensures |r| == |gs| || |r| == |gs| + 1
  {
    if gs == [] then [Group(k, [x])]
    else if gs[0].key == k then [gs[0].(items := gs[0].items + [x])] + gs[1..]
    else [gs[0]] + Add(gs[1..], k, x)
  }

  function GroupBy<T>(xs: seq<T>, key: T -> string): seq<Group<T>>
    decreases |xs|
  {
    if xs == [] then [] else Add(GroupBy(xs[..|xs| - 1], key), key(xs[|xs| - 1]), xs[|xs| - 1])
  }

  function Keys<T>(gs: seq<Group<T>>): (ks: seq<string>)
    ensures |ks| == |gs|
    ensures forall i :: 0 <= i < |gs| ==> ks[i] == gs[i].key
  {
    if gs == [] then [] else [gs[0].key] + Keys(gs[1..])
  }

  ghost predicate Distinct(ks: seq<string>) {
    forall i, j :: 0 <= i < j < |ks| ==> ks[i] != ks[j]
  }

  /** The items of the first group with key `k`, none when there is no such group. */
  function ItemsOf<T>(gs: seq<Group<T>>, k: string): seq<T> {
    if gs == [] then [] else if gs[0].key == k then gs[0].items else ItemsOf(gs[1..], k)
  }

  /** The items with key `k`, in input order: `xs.filter(x => key(x) === k)`. */
  function Select<T>(xs: seq<T>, key: T -> string, k: string): (r: seq<T>)
    ensures |r| <= |xs|
    decreases |xs|
  {
    if xs == [] then []
    else Select(xs[..|xs| - 1], key, k) + (if key(xs[|xs| - 1]) == k then [xs[|xs| - 1]] else [])
  }

  /** All items of all groups, group after group. */
  function Flatten<T>(gs: seq<Group<T>>): seq<T> {
    if gs == [] then [] else gs[0].items + Flatten(gs[1..])
  }

  // ---------------------------------------------------------------- adding one item

  lemma {:induction false} AddItems<T>(gs: seq<Group<T>>, k: string, x: T, k': string)
    ensures ItemsOf(Add(gs, k, x), k') == ItemsOf(gs, k') + (if k' == k then [x] else [])
  {
    if gs != [] && gs[0].key != k {
      AddItems(gs[1..], k, x, k');
    }
  }

  lemma {:induction false} AddKeys<T>(gs: seq<Group<T>>, k: string, x: T)
    ensures Keys(Add(gs, k, x)) == if k in Keys(gs) then Keys(gs) else Keys(gs) + [k]
  {
    if gs != [] && gs[0].key != k {
      AddKeys(gs[1..], k, x);
      assert Keys(gs) == [gs[0].key] + Keys(gs[1..]);
    }
  }

  lemma {:induction false} AddNonEmpty<T>(gs: seq<Group<T>>, k: string, x: T)
    requires forall i :: 0 <= i < |gs| ==> gs[i].items != []
    ensures forall i :: 0 <= i < |Add(gs, k, x)| ==> Add(gs, k, x)[i].items != []
  {
    if gs != [] && gs[0].key != k {
      AddNonEmpty(gs[1..], k, x);
      var r := Add(gs, k, x);
      assert forall i :: 1 <= i < |r| ==> r[i] == Add(gs[1..], k, x)[i - 1];
    }
  }

  lemma {:induction false} AddFlatten<T>(gs: seq<Group<T>>, k: string, x: T)
    ensures multiset(Flatten(Add(gs, k, x))) == multiset(Flatten(gs)) + multiset{x}
  {
    if gs == [] {
      assert Flatten([Group(k, [x])]) == [x] + Flatten([]);
    } else if gs[0].key == k {
      var r := Add(gs, k, x);
      assert r[1..] == gs[1..];
      assert Flatten(r) == gs[0].items + [x] + Flatten(gs[1..]);
    } else {
      AddFlatten(gs[1..], k, x);
      var r := Add(gs, k, x);
      assert r[1..] == Add(gs[1..], k, x);
    }
  }

  // ---------------------------------------------------------------- the grouping

  /** Each key has one group, each group holds exactly the items with its key in input
      order, no group is empty, and the groups together hold the input. */
  lemma GroupBySpec<T>(xs: seq<T>, key: T -> string)
    ensures Distinct(Keys(GroupBy(xs, key)))
    ensures forall k :: ItemsOf(GroupBy(xs, key), k) == Select(xs, key, k)
    ensures forall i :: 0 <= i < |GroupBy(xs, key)| ==> GroupBy(xs, key)[i].items != []
    ensures multiset(Flatten(GroupBy(xs, key))) == multiset(xs)
  {
    GroupByDistinct(xs, key);
    forall k
      ensures ItemsOf(GroupBy(xs, key), k) == Select(xs, key, k)
    {
      GroupBySelects(xs, key, k);
    }
    GroupByNonEmpty(xs, key);
    GroupByFlatten(xs, key);
  }

  lemma {:induction false} GroupByDistinct<T>(xs: seq<T>, key: T -> string)
    ensures Distinct(Keys(GroupBy(xs, key)))
    decreases |xs|
  {
    if xs != [] {
      var init, x := xs[..|xs| - 1], xs[|xs| - 1];
      GroupByDistinct(init, key);
      AddKeys(GroupBy(init, key), key(x), x);
    }
  }

  lemma {:induction false} GroupBySelects<T>(xs: seq<T>, key: T -> string, k: string)
    ensures ItemsOf(GroupBy(xs, key), k) == Select(xs, key, k)
    decreases |xs|
  {
    if xs != [] {
      var init, x := xs[..|xs| - 1], xs[|xs| - 1];
      GroupBySelects(init, key, k);
      AddItems(GroupBy(init, key), key(x), x, k);
    }
  }

  lemma {:induction false} GroupByNonEmpty<T>(xs: seq<T>, key: T -> string)
    ensures forall i :: 0 <= i < |GroupBy(xs, key)| ==> GroupBy(xs, key)[i].items != []
    decreases |xs|
  {
    if xs != [] {
      var init, x := xs[..|xs| - 1], xs[|xs| - 1];
      GroupByNonEmpty(init, key);
      AddNonEmpty(GroupBy(init, key), key(x), x);
    }
  }

  lemma {:induction false} GroupByFlatten<T>(xs: seq<T>, key: T -> string)
    ensures multiset(Flatten(GroupBy(xs, key))) == multiset(xs)
    decreases |xs|
  {
    if xs != [] {
      var init, x := xs[..|xs| - 1], xs[|xs| - 1];
      GroupByFlatten(init, key);
      AddFlatten(GroupBy(init, key), key(x), x);
      assert init + [x] == xs;
    }
  }

  /** A group's items are those the lookup by its key finds, when keys are distinct. */
  lemma {:induction false} ItemsOfGroup<T>(gs: seq<Group<T>>, i: nat)
    requires Distinct(Keys(gs)) && i < |gs|
    ensures ItemsOf(gs, gs[i].key) == gs[i].items
  {
    if i > 0 {
      assert Keys(gs)[0] != Keys(gs)[i];
      assert Distinct(Keys(gs[1..])) by {
        assert forall j :: 0 <= j < |gs| - 1 ==> Keys(gs[1..])[j] == Keys(gs)[j + 1];
      }
      ItemsOfGroup(gs[1..], i - 1);
    }
  }

  /** Every group of `GroupBy` holds exactly the items with its key. */
  lemma GroupItems<T>(xs: seq<T>, key: T -> string, i: nat)
    requires i < |GroupBy(xs, key)|
    ensures GroupBy(xs, key)[i].items == Select(xs, key, GroupBy(xs, key)[i].key)
    ensures GroupBy(xs, key)[i].items != []
  {
    GroupBySpec(xs, key);
    ItemsOfGroup(GroupBy(xs, key), i);
  }

  /** One item makes one group, which holds it. */
  lemma GroupOne<T>(x: T, key: T -> string)
    ensures GroupBy([x], key) == [Group(key(x), [x])]
    ensures Flatten(GroupBy([x], key)) == [x]
  {
    assert [x][..0] == [];
    assert Flatten([Group(key(x), [x])]) == [x] + Flatten([]);
  }

  lemma {:induction false} FlattenLength<T>(gs: seq<Group<T>>)
    ensures |Flatten(gs)| == SumSizes(gs)
  {
    if gs != [] {
      FlattenLength(gs[1..]);
    }
  }

  function SumSizes<T>(gs: seq<Group<T>>): nat {
    if gs == [] then 0 else |gs[0].items| + SumSizes(gs[1..])
  }

  /** The group sizes add up to the number of items. */
  lemma GroupSizes<T>(xs: seq<T>, key: T -> string)
    ensures SumSizes(GroupBy(xs, key)) == |xs|
  {
    GroupBySpec(xs, key);
    FlattenLength(GroupBy(xs, key));
    assert |multiset(Flatten(GroupBy(xs, key)))| == |multiset(xs)|;
  }
}

=== FILE: host.dfy ===
/** The Electron main process: the workspace, the filesystem handlers, the terminal
    handlers and the window lifecycle, as steps on one state. The collation used to
    sort the tree is a parameter `lt`; the home directory is part of the state; whether
    a terminal fails to start is a parameter `fails`. */
module Host {
  import opened Wrappers
  import opened Text
  import opened Ordering
  import opened Fs
  import opened Scanner
  import Session
  import Boundary

  /** A message the host pushes to the window without being asked. */
  datatype Outbound =
    | TreeUpdate(tree: seq<TreeNode>)
    | PtyData(data: string)
    | PtyExit(code: int)

  /** What an `invoke` handler resolves with. `Rejected` is a handler that throws, so
      that the renderer's promise is rejected. */
  datatype Reply =
    | NotOk
    | Opened(tree: seq<TreeNode>)
    | Tree(tree: seq<TreeNode>)
    | Content(text: string)
    | Done
    | Moved(path: string)
    | Failed(error: Errno)
    | Rejected
    | Picked(folder: Option<string>)
    | Ack

  /** `workspace`, `ptyProc` and `win` of the main process, the disk, the messages sent
      to the window so far, and whether the application is quitting. */
  datatype State = State(
    fs: FileSystem,
    workspace: Option<string>,
    pty: Session.Slot,
    window: bool,
    sent: seq<Outbound>,
    home: string,
    quitting: bool)
  {
    ghost predicate Valid() {
      pty.Valid() && (workspace.Some? ==> workspace.value != "")
    }
  }

  datatype Step = Step(state: State, reply: Reply)

  /** The application before its window exists. */
  function Start(fs: FileSystem, home: string): (s: State)
    ensures s.Valid() && s.workspace.None? && !s.window && s.sent == []
  {
    State(fs, None, Session.Empty, false, [], home, false)
  }

  // ---------------------------------------------------------------- tree broadcast

  /** `pushTree()`: the window gets the workspace tree, when there is both a workspace
      and a window; otherwise nothing is sent. */
  function PushTree(s: State, lt: (string, string) -> bool): (r: State)
    requires StrictTotal(lt)
    ensures r.(sent := s.sent) == s
    ensures s.workspace.Some? && s.window ==>
      |r.sent| == |s.sent| + 1 && r.sent[..|s.sent|] == s.sent
      && r.sent[|s.sent|].TreeUpdate?
      && IsSnapshot(s.fs, Segments(s.workspace.value), 0, lt, r.sent[|s.sent|].tree)
    ensures !(s.workspace.Some? && s.window) ==> r == s
  {
    if s.workspace.Some? && s.window then
      var t := BuildTree(s.fs, Segments(s.workspace.value), 0, lt);
      s.(sent := s.sent + [TreeUpdate(t)])
    else s
  }

  /** The tree of a directory string; an empty or missing argument lists nothing. */
  function TreeOf(fs: FileSystem, dir: Option<string>, lt: (string, string) -> bool): (r: seq<TreeNode>)
    requires StrictTotal(lt)
    ensures dir.None? || dir.value == "" ==> r == []
    ensures dir.Some? && dir.value != "" ==> IsSnapshot(fs, Segments(dir.value), 0, lt, r)
  {
    match dir
    case None => []
    case Some(d) => if d == "" then [] else BuildTree(fs, Segments(d), 0, lt)
  }

  // ---------------------------------------------------------------- invoke handlers

  /** `workspace:set`: an empty or missing directory is refused; otherwise it becomes the
      workspace, a fresh terminal starts in it, and the reply carries its tree. A
      terminal that fails to start makes the handler throw after the workspace is set. */
  function SetWorkspace(s: State, dir: string, lt: (string, string) -> bool, fails: bool): (r: Step)
    requires s.Valid() && StrictTotal(lt)
    ensures r.state.Valid()
    ensures r.reply == NotOk <==> dir == "" || Resolve(dir).value !in s.fs
    ensures r.reply == NotOk ==> r.state == s
    ensures r.reply != NotOk ==> r.state.workspace == Some(dir) && r.state.fs == s.fs && r.state.sent == s.sent
    ensures r.reply != NotOk ==> (r.reply.Opened? <==> !fails)
    ensures r.reply != NotOk ==> r.state.pty == Session.Spawn(s.pty, dir, s.home, fails).0
    ensures r.reply != NotOk && s.pty.current.Some? ==> r.state.pty.procs[s.pty.current.value].killed
    ensures r.reply.Opened? ==> IsSnapshot(s.fs, Segments(dir), 0, lt, r.reply.tree)
    ensures r.reply.Opened? ==>
      && r.state.pty.current.Some?
      && r.state.pty.procs[r.state.pty.current.value].cwd == dir
      && r.state.pty.procs[r.state.pty.current.value].Live()
  {
    if dir == "" || Resolve(dir).value !in s.fs then Step(s, NotOk)
    else
      var (pty, started) := Session.Spawn(s.pty, dir, s.home, fails);
      var s1 := s.(workspace := Some(dir), pty := pty);
      if !started then Step(s1, Rejected)
      else Step(s1, Opened(BuildTree(s.fs, Segments(dir), 0, lt)))
  }

  /** `fs:tree`: the tree of `dir`, or of the workspace when `dir` is empty or missing. */
  function GetTree(s: State, dir: Option<string>, lt: (string, string) -> bool): (r: Step)
    requires StrictTotal(lt)
    ensures r.state == s && r.reply.Tree?
    ensures dir.Some? && dir.value != "" ==> IsSnapshot(s.fs, Segments(dir.value), 0, lt, r.reply.tree)
    ensures (dir.None? || dir.value == "") && s.workspace.Some? && s.workspace.value != "" ==>
      IsSnapshot(s.fs, Segments(s.workspace.value), 0, lt, r.reply.tree)
    ensures (dir.None? || dir.value == "") && s.workspace.None? ==> r.reply.tree == []
  {
    var target := if dir.Some? && dir.value != "" then dir else s.workspace;
    Step(s, Tree(TreeOf(s.fs, target, lt)))
  }

  /** `fs:read`: the text of a file, or the error `readFileSync` throws. */
  function Read(s: State, fp: string): (r: Step)
    ensures r.state == s
    ensures r.reply.Content? || r.reply.Failed?
    ensures r.reply.Content? <==> fp != "" && IsFile(s.fs, Segments(fp))
    ensures r.reply.Content? ==> r.reply.text == s.fs[Segments(fp)].content
  {
    match ReadFile(s.fs, Resolve(fp))
    case Ok(text) => Step(s, Content(text))
    case Err(e) => Step(s, Failed(e))
  }

  /** `fs:write`: parent directories are created, the file is written, the tree is pushed. */
  function WriteFile(s: State, fp: string, content: string, lt: (string, string) -> bool): (r: Step)
    requires StrictTotal(lt)
    ensures r.reply.Done? || r.reply.Failed?
    ensures r.reply.Failed? ==> r.state == s
    ensures r.reply.Done? <==>
      fp != "" && Segments(fp) != [] && !UnderFile(s.fs, Segments(fp)) && !IsDir(s.fs, Segments(fp))
    ensures r.reply.Done? ==> Fs.WriteFile(s.fs, Resolve(fp), content) == Ok(r.state.fs)
    ensures r.reply.Done? ==> r.state == PushTree(s.(fs := r.state.fs), lt)
  {
    match Fs.WriteFile(s.fs, Resolve(fp), content)
    case Ok(fs) => Step(PushTree(s.(fs := fs), lt), Done)
    case Err(e) => Step(s, Failed(e))
  }

  /** `fs:mkdir`: the directory and its missing ancestors are created, the tree is pushed. */
  function MakeDir(s: State, dir: string, lt: (string, string) -> bool): (r: Step)
    requires StrictTotal(lt)
    ensures r.reply.Done? || r.reply.Failed?
    ensures r.reply.Failed? ==> r.state == s
    ensures r.reply.Done? <==> dir != "" && !UnderFile(s.fs, Segments(dir)) && !IsFile(s.fs, Segments(dir))
    ensures r.reply.Done? ==> MakeDirs(s.fs, Segments(dir)) == Ok(r.state.fs)
    ensures r.reply.Done? ==> IsDir(r.state.fs, Segments(dir))
    ensures r.reply.Done? ==> forall q :: q in s.fs ==> q in r.state.fs && r.state.fs[q] == s.fs[q]
    ensures r.reply.Done? ==> r.state == PushTree(s.(fs := r.state.fs), lt)
  {
    match MakeDirectory(s.fs, Resolve(dir))
    case Ok(fs) =>
      assert IsPrefix(Segments(dir), Segments(dir));
      Step(PushTree(s.(fs := fs), lt), Done)
    case Err(e) => Step(s, Failed(e))
  }

  /** `path.join(path.dirname(from), name)` on a resolved source path. */
  function RenameTarget(src: Path, name: string): (r: Path)
    ensures ValidPath(src) ==> ValidPath(r)
    ensures src != [] && |Segments(name)| == 1 ==>
      |r| == |src| && Parent(r) == Parent(src) && r[|r| - 1] == Segments(name)[0]
  {
    (if src == [] then [] else Parent(src)) + Segments(name)
  }

  /** `fs:rename`: `from` is renamed to `name` in the same directory; the reply carries
      the new path string and the tree is pushed. */
  function Rename(s: State, from: string, name: string, lt: (string, string) -> bool): (r: Step)
    requires StrictTotal(lt)
    ensures r.reply.Moved? || r.reply.Failed?
    ensures r.reply.Failed? ==> r.state == s
    ensures r.reply.Moved? <==> from != "" && RenameAllowed(s.fs, Segments(from), RenameTarget(Segments(from), name))
    ensures r.reply.Moved? ==> Fs.Rename(s.fs, Some(Segments(from)), RenameTarget(Segments(from), name)) == Ok(r.state.fs)
    ensures r.reply.Moved? ==>
      var dest := RenameTarget(Segments(from), name);
      && from != "" && Segments(from) in s.fs
      && r.reply.path == Render(dest)
      && dest in r.state.fs && r.state.fs[dest] == s.fs[Segments(from)]
      && (dest != Segments(from) ==> Segments(from) !in r.state.fs)
      && r.state == PushTree(s.(fs := r.state.fs), lt)
  {
    var src := Resolve(from);
    var dest := RenameTarget(if src.Some? then src.value else [], name);
    match Fs.Rename(s.fs, src, dest)
    case Ok(fs) => Step(PushTree(s.(fs := fs), lt), Moved(Render(dest)))
    case Err(e) => Step(s, Failed(e))
  }

  /** `fs:delete`: the entry, and for a directory everything below it, is removed. */
  function Delete(s: State, fp: string, lt: (string, string) -> bool): (r: Step)
    requires StrictTotal(lt)
    ensures r.reply.Done? || r.reply.Failed?
    ensures r.reply.Failed? ==> r.state == s
    ensures r.reply.Done? <==> fp != "" && Segments(fp) in s.fs && Segments(fp) != []
    ensures r.reply.Done? ==> forall q :: q in r.state.fs <==> q in s.fs && !IsPrefix(Segments(fp), q)
    ensures r.reply.Done? ==> forall q :: q in r.state.fs ==> r.state.fs[q] == s.fs[q]
    ensures r.reply.Done? ==> r.state == PushTree(s.(fs := r.state.fs), lt)
  {
    match Fs.Delete(s.fs, Resolve(fp))
    case Ok(fs) => Step(PushTree(s.(fs := fs), lt), Done)
    case Err(e) => Step(s, Failed(e))
  }

  /** `dialog:openFolder`: the folder the user picked, or nothing when cancelled. */
  function OpenFolder(s: State, picked: Option<string>): (r: Step)
    ensures r.state == s && r.reply == Picked(picked)
  {
    Step(s, Picked(picked))
  }

  // ---------------------------------------------------------------- send handlers

  /** `data` was appended to the input of the terminal in the slot, and no other terminal
      changed. */
  ghost predicate Wrote(before: Session.Slot, after: Session.Slot, data: string)
    requires before.Valid() && before.current.Some?
  {
    var c := before.current.value;
    && after.current == before.current && |after.procs| == |before.procs|
    && after.procs[c].input == before.procs[c].input + [data]
    && after.procs[c].cwd == before.procs[c].cwd
    && (forall i :: 0 <= i < |before.procs| && i != c ==> after.procs[i] == before.procs[i])
  }

  /** `pty:input`: the data is written to the terminal in the slot, if there is one. */
  function Input(s: State, data: string): (r: State)
    requires s.Valid()
    ensures r.Valid() && r.(pty := s.pty) == s
    ensures s.pty.current.None? ==> r == s
    ensures s.pty.current.Some? ==> Wrote(s.pty, r.pty, data)
  {
    s.(pty := Session.Write(s.pty, data))
  }

  /** `pty:resize`: the terminal in the slot, if there is one, takes the new size. */
  function Resize(s: State, cols: int, rows: int): (r: State)
    requires s.Valid()
    ensures r.Valid() && r.(pty := s.pty) == s
    ensures s.pty.current.None? ==> r == s
    ensures s.pty.current.Some? ==>
      && r.pty.current == s.pty.current && |r.pty.procs| == |s.pty.procs|
      && r.pty.procs[s.pty.current.value] == s.pty.procs[s.pty.current.value].(cols := cols, rows := rows)
    ensures forall i :: 0 <= i < |s.pty.procs| && s.pty.current != Some(i) ==> r.pty.procs[i] == s.pty.procs[i]
  {
    s.(pty := Session.Resize(s.pty, cols, rows))
  }

  /** The line `pty:run` types: a `cd` into the quoted workspace first when there is one,
      ended by a carriage return. */
  function CommandLine(workspace: Option<string>, cmd: string): (r: string)
    ensures |r| > |cmd| && r[|r| - 1] == '\r'
    ensures r[|r| - 1 - |cmd|..|r| - 1] == cmd
    ensures workspace.None? ==> r == cmd + "\r"
    ensures workspace.Some? ==> StartsWith(r, "cd \"" + workspace.value + "\" && ")
    ensures workspace.Some? ==> |r| == |"cd \"" + workspace.value + "\" && "| + |cmd| + 1
  {
    match workspace
    case None => cmd + "\r"
    case Some(w) => "cd \"" + w + "\" && " + cmd + "\r"
  }

  /** `pty:run`: a terminal is started first when the slot is empty (in the workspace, or
      home), then the command line is written to the terminal in the slot. */
  function Run(s: State, cmd: string, fails: bool): (r: State)
    requires s.Valid()
    ensures r.Valid() && r.fs == s.fs && r.workspace == s.workspace && r.sent == s.sent
    ensures s.pty.current.Some? || !fails ==>
      var c := r.pty.current;
      && c.Some?
      && |r.pty.procs[c.value].input| > 0
      && r.pty.procs[c.value].input[|r.pty.procs[c.value].input| - 1] == CommandLine(s.workspace, cmd)
    ensures s.pty.current.Some? ==> r.pty.current == s.pty.current
    ensures s.pty.current.None? && !fails ==>
      r.pty.current == Some(|s.pty.procs|)
      && r.pty.procs[|s.pty.procs|].cwd == (if s.workspace.Some? then s.workspace.value else s.home)
  {
    var pty :=
      if s.pty.current.None? then Session.Spawn(s.pty, s.workspace.GetOr(s.home), s.home, fails).0
      else s.pty;
    s.(pty := Session.Write(pty, CommandLine(s.workspace, cmd)))
  }

  /** The interrupt character `pty:stop` writes (Ctrl-C). */
  const Interrupt: string := "\U{0003}"

  /** `pty:stop`: the interrupt character is written to the terminal in the slot. */
  function Stop(s: State): (r: State)
    requires s.Valid()
    ensures r.Valid() && r.(pty := s.pty) == s
    ensures s.pty.current.None? ==> r == s
    ensures s.pty.current.Some? ==> Wrote(s.pty, r.pty, Interrupt)
  {
    s.(pty := Session.Write(s.pty, Interrupt))
  }

  /** `pty:cd`: a quoted `cd` into `dir`, ended by a carriage return. */
  function ChangeDir(s: State, dir: string): (r: State)
    requires s.Valid()
    ensures r.Valid() && r.(pty := s.pty) == s
    ensures s.pty.current.None? ==> r == s
    ensures s.pty.current.Some? ==> Wrote(s.pty, r.pty, "cd \"" + dir + "\"\r")
  {
    s.(pty := Session.Write(s.pty, "cd \"" + dir + "\"\r"))
  }

  // ---------------------------------------------------------------- terminal events

  /** A terminal's output: forwarded to the window, whichever terminal produced it. */
  function ProcessData(s: State, data: string): (r: State)
    ensures r.(sent := s.sent) == s
    ensures r.sent == if s.window then s.sent + [PtyData(data)] else s.sent
  {
    if s.window then s.(sent := s.sent + [PtyData(data)]) else s
  }

  /** A terminal's exit: forwarded to the window, and the slot is emptied, whichever
      terminal it was. */
  function ProcessExit(s: State, id: nat, code: int): (r: State)
    requires s.Valid() && id < |s.pty.procs|
    ensures r.Valid()
    ensures r.sent == if s.window then s.sent + [PtyExit(code)] else s.sent
    ensures r.pty.current.None? && r.fs == s.fs && r.workspace == s.workspace
    ensures r.pty == Session.Exit(s.pty, id)
  {
    var sent := if s.window then s.sent + [PtyExit(code)] else s.sent;
    s.(pty := Session.Exit(s.pty, id), sent := sent)
  }

  // ---------------------------------------------------------------- window lifecycle

  /** `createWindow()`, once the application is ready or re-activated without windows. */
  function WindowCreated(s: State): (r: State)
    ensures r.window
    ensures r.fs == s.fs && r.workspace == s.workspace && r.pty == s.pty && r.sent == s.sent
    ensures r.home == s.home && r.quitting == s.quitting
  {
    s.(window := true)
  }

  /** `ready-to-show`: the window is shown and a terminal starts in the home directory. */
  function WindowReady(s: State, fails: bool): (r: State)
    requires s.Valid()
    ensures r.Valid()
    ensures !fails ==> r.pty.current.Some? && r.pty.procs[r.pty.current.value].cwd == s.home
    ensures r.pty == Session.Spawn(s.pty, s.home, s.home, fails).0
    ensures s.pty.current.Some? ==> r.pty.procs[s.pty.current.value].killed
    ensures fails ==> r.pty.current.None?
    ensures r.fs == s.fs && r.workspace == s.workspace && r.sent == s.sent
    ensures r.window == s.window && r.home == s.home && r.quitting == s.quitting
  {
    s.(pty := Session.Spawn(s.pty, s.home, s.home, fails).0)
  }

  /** `closed`: the terminal in the slot is killed and the window is gone. */
  function WindowClosed(s: State): (r: State)
    requires s.Valid()
    ensures r.Valid() && !r.window
    ensures r.pty == Session.KillCurrent(s.pty)
    ensures r.fs == s.fs && r.workspace == s.workspace && r.sent == s.sent
    ensures r.home == s.home && r.quitting == s.quitting
  {
    s.(pty := Session.KillCurrent(s.pty), window := false)
  }

  /** `window-all-closed`: the terminal is killed, and except on macOS the app quits. */
  function AllWindowsClosed(s: State, darwin: bool): (r: State)
    requires s.Valid()
    ensures r.Valid() && r.quitting == (s.quitting || !darwin)
    ensures r.pty == Session.KillCurrent(s.pty)
    ensures r.fs == s.fs && r.workspace == s.workspace && r.sent == s.sent
    ensures r.home == s.home && r.window == s.window
  {
    s.(pty := Session.KillCurrent(s.pty), quitting := s.quitting || !darwin)
  }

  // ---------------------------------------------------------------- dispatch

  /** The handler a bridge message reaches. `picked` is the dialog's answer and `fails`
      whether a terminal started on the way fails; `Ack` answers a one-way message. A
      message the bridge never produces finds no handler. */
  function Dispatch(s: State, m: Boundary.Message, lt: (string, string) -> bool, fails: bool, picked: Option<string>): (r: Step)
    requires s.Valid() && StrictTotal(lt)
    ensures r.state.Valid()
    ensures Boundary.Decode(m).None? ==> r.state == s
    ensures r.reply == Ack <==> m.mode == Boundary.Send
    ensures m.mode == Boundary.Send ==> r.state.fs == s.fs && r.state.workspace == s.workspace
    ensures Boundary.Decode(m).Some? && !Boundary.Decode(m).value.SetWorkspace? ==> r.state.workspace == s.workspace
  {
    if m.mode == Boundary.Send then
      match Boundary.Decode(m)
      case Some(PtyWrite(data)) => Step(Input(s, data), Ack)
      case Some(PtyResize(cols, rows)) => Step(Resize(s, cols, rows), Ack)
      case Some(PtyRun(cmd)) => Step(Run(s, cmd, fails), Ack)
      case Some(PtyStop) => Step(Stop(s), Ack)
      case Some(PtyCd(dir)) => Step(ChangeDir(s, dir), Ack)
      case _ => Step(s, Ack)
    else
      match Boundary.Decode(m)
      case Some(OpenFolder) => OpenFolder(s, picked)
      case Some(SetWorkspace(dir)) => SetWorkspace(s, dir, lt, fails)
      case Some(Tree(dir)) => GetTree(s, dir, lt)
      case Some(Read(fp)) => Read(s, fp)
      case Some(Write(fp, content)) => WriteFile(s, fp, content, lt)
      case Some(Mkdir(dir)) => MakeDir(s, dir, lt)
      case Some(Rename(from, name)) => Rename(s, from, name, lt)
      case Some(Delete(fp)) => Delete(s, fp, lt)
      case _ => Step(s, Rejected)
  }

  // ---------------------------------------------------------------- properties

  /** A file written through `fs:write` reads back with the written text. */
  lemma WriteThenRead(s: State, fp: string, content: string, lt: (string, string) -> bool)
    requires StrictTotal(lt) && WriteFile(s, fp, content, lt).reply.Done?
    ensures Read(WriteFile(s, fp, content, lt).state, fp).reply == Content(content)
  {
  }

  /** Writing one file leaves every other file's text as it was. */
  lemma WriteKeepsOthers(s: State, fp: string, other: string, content: string, lt: (string, string) -> bool)
    requires StrictTotal(lt) && WriteFile(s, fp, content, lt).reply.Done?
    requires Segments(other) != Segments(fp)
    ensures Read(WriteFile(s, fp, content, lt).state, other).reply.Content? ==>
      Read(s, other).reply == Read(WriteFile(s, fp, content, lt).state, other).reply
    ensures Read(s, other).reply.Content? ==>
      Read(WriteFile(s, fp, content, lt).state, other).reply == Read(s, other).reply
  {
  }

  /** After `fs:delete` succeeds, the path and everything below it read as missing. */
  lemma DeleteThenRead(s: State, fp: string, below: Path, lt: (string, string) -> bool)
    requires StrictTotal(lt) && Delete(s, fp, lt).reply.Done?
    ensures Read(Delete(s, fp, lt).state, fp).reply.Failed?
    ensures IsPrefix(Segments(fp), below) ==> below !in Delete(s, fp, lt).state.fs
  {
    assert IsPrefix(Segments(fp), Segments(fp));
  }

  /** A renamed file reads back under its new path with its old text. */
  lemma RenameThenRead(s: State, from: string, name: string, lt: (string, string) -> bool)
    requires StrictTotal(lt) && Rename(s, from, name, lt).reply.Moved?
    requires IsFile(s.fs, Segments(from))
    ensures Read(Rename(s, from, name, lt).state, Rename(s, from, name, lt).reply.path).reply
            == Read(s, from).reply
  {
    var dest := RenameTarget(Segments(from), name);
    var r := Rename(s, from, name, lt);
    assert ValidPath(dest);
    ResolveRender(dest);
  }

  /** The filesystem handlers keep the disk a tree. */
  lemma HandlersKeepWf(s: State, fp: string, name: string, content: string, lt: (string, string) -> bool)
    requires StrictTotal(lt) && Wf(s.fs)
    ensures Wf(WriteFile(s, fp, content, lt).state.fs)
    ensures Wf(MakeDir(s, fp, lt).state.fs)
    ensures Wf(Rename(s, fp, name, lt).state.fs)
    ensures Wf(Delete(s, fp, lt).state.fs)
  {
    var p := Resolve(fp);
    if p.Some? {
      if Fs.WriteFile(s.fs, p, content).Ok? {
        WriteFileKeepsWf(s.fs, p.value, content);
      }
      if MakeDirs(s.fs, p.value).Ok? {
        MakeDirsKeepsWf(s.fs, p.value);
      }
      var dest := RenameTarget(p.value, name);
      if Fs.Rename(s.fs, p, dest).Ok? {
        RenameKeepsWf(s.fs, p.value, dest);
      }
    }
    if Fs.Delete(s.fs, p).Ok? {
      DeleteKeepsWf(s.fs, p);
    }
  }

  /** `after` broadcast exactly one tree update beyond what `before` had sent, and that
      update shows the disk of `after` below the workspace. */
  ghost predicate BroadcastOnce(before: State, after: State, lt: (string, string) -> bool)
    requires before.workspace.Some? && StrictTotal(lt)
  {
    && |after.sent| == |before.sent| + 1 && after.sent[..|before.sent|] == before.sent
    && after.sent[|before.sent|].TreeUpdate?
    && after.sent[|before.sent|].tree == BuildTree(after.fs, Segments(before.workspace.value), 0, lt)
  }

  /** Every successful filesystem change is followed by exactly one tree update, and that
      update shows the changed disk, whenever a workspace and a window exist. */
  lemma MutationBroadcasts(s: State, fp: string, name: string, content: string, lt: (string, string) -> bool)
    requires StrictTotal(lt) && s.workspace.Some? && s.window
    ensures WriteFile(s, fp, content, lt).reply.Done? ==> BroadcastOnce(s, WriteFile(s, fp, content, lt).state, lt)
    ensures MakeDir(s, fp, lt).reply.Done? ==> BroadcastOnce(s, MakeDir(s, fp, lt).state, lt)
    ensures Rename(s, fp, name, lt).reply.Moved? ==> BroadcastOnce(s, Rename(s, fp, name, lt).state, lt)
    ensures Delete(s, fp, lt).reply.Done? ==> BroadcastOnce(s, Delete(s, fp, lt).state, lt)
  {
    var w, m, n, d := WriteFile(s, fp, content, lt), MakeDir(s, fp, lt), Rename(s, fp, name, lt), Delete(s, fp, lt);
    if w.reply.Done? { PushTreeBroadcasts(s, w.state.fs, lt); }
    if m.reply.Done? { PushTreeBroadcasts(s, m.state.fs, lt); }
    if n.reply.Moved? { PushTreeBroadcasts(s, n.state.fs, lt); }
    if d.reply.Done? { PushTreeBroadcasts(s, d.state.fs, lt); }
  }

  /** Pushing the tree after the disk became `fs` broadcasts that disk once. */
  lemma PushTreeBroadcasts(s: State, fs: FileSystem, lt: (string, string) -> bool)
    requires StrictTotal(lt) && s.workspace.Some? && s.window
    ensures BroadcastOnce(s, PushTree(s.(fs := fs), lt), lt)
  {
    var r := PushTree(s.(fs := fs), lt);
    SnapshotUnique(fs, Segments(s.workspace.value), 0, lt,
                   r.sent[|s.sent|].tree, BuildTree(fs, Segments(s.workspace.value), 0, lt));
  }

  /** The command `pty:run` types lands in a terminal started in the workspace, even when
      no terminal was running. */
  lemma RunStartsInWorkspace(s: State, cmd: string)
    requires s.Valid() && s.pty.current.None? && s.workspace.Some?
    ensures
      var r := Run(s, cmd, false);
      var p := r.pty.procs[r.pty.current.value];
      p.cwd == s.workspace.value && p.input == [CommandLine(s.workspace, cmd)]
  {
  }

  /** A call made on the bridge reaches the handler written for it, with its arguments. */
  lemma DispatchEncoded(s: State, c: Boundary.Call, lt: (string, string) -> bool, fails: bool, picked: Option<string>)
    requires s.Valid() && StrictTotal(lt)
    ensures
      var r := Dispatch(s, Boundary.Encode(c), lt, fails, picked);
      && (r.reply == Ack <==> !Boundary.IsQuery(c))
      && (c.SetWorkspace? ==> r == SetWorkspace(s, c.dir, lt, fails))
      && (c.Read? ==> r == Read(s, c.fp))
      && (c.Write? ==> r == WriteFile(s, c.fp, c.content, lt))
      && (c.Rename? ==> r == Rename(s, c.from, c.name, lt))
      && (c.Delete? ==> r == Delete(s, c.fp, lt))
      && (c.PtyRun? ==> r.state == Run(s, c.cmd, fails))
      && (c.PtyWrite? ==> r.state == Input(s, c.data))
      && (c.OpenFolder? ==> r == OpenFolder(s, picked))
      && (c.Tree? ==> r == GetTree(s, c.target, lt))
      && (c.Mkdir? ==> r == MakeDir(s, c.dir, lt))
      && (c.PtyResize? ==> r.state == Resize(s, c.cols, c.rows))
      && (c.PtyStop? ==> r.state == Stop(s))
      && (c.PtyCd? ==> r.state == ChangeDir(s, c.dir))
  {
    Boundary.DecodeEncode(c);
  }
}

=== FILE: jsobject.dfy ===
/** Property lookup on a JavaScript object literal (`table[key]`), which the renderer uses
    as a dictionary. A key the literal does not define still finds the members every
    object inherits from `Object.prototype`. */
module JsObject {
  import opened Wrappers

  /** The property names every plain object inherits. */
  const InheritedKeys: set<string> := {
    "constructor", "__proto__", "hasOwnProperty", "isPrototypeOf",
    "propertyIsEnumerable", "toString", "toLocaleString", "valueOf",
    "__defineGetter__", "__defineSetter__", "__lookupGetter__", "__lookupSetter__"
  }

  /** What `table[key]` evaluates to. */
  datatype Found<V> =
    | Own(value: V)         // a property the literal defines
    | Inherited(key: string) // a function or object from `Object.prototype`, always truthy
    | Missing               // `undefined`

  /** `table[key]` on an object literal whose properties are `table`. */
  function Get<V>(table: map<string, V>, key: string): (r: Found<V>)
    ensures r.Own? <==> key in table
    ensures r.Own? ==> r.value == table[key]
    ensures r.Inherited? <==> key !in table && key in InheritedKeys
  {
    if key in table then Own(table[key])
    else if key in InheritedKeys then Inherited(key)
    else Missing
  }

  /** The lookup restricted to the literal's own properties (`Object.hasOwn`). */
  function GetOwn<V>(table: map<string, V>, key: string): (r: Option<V>)
    ensures r.Some? <==> key in table
    ensures r.Some? ==> r.value == table[key]
  {
    if key in table then Some(table[key]) else None
  }

  /** The two lookups differ only on inherited names. */
  lemma GetAgreesOffPrototype<V>(table: map<string, V>, key: string)
    requires key !in InheritedKeys
    ensures Get(table, key) == (if GetOwn(table, key).Some? then Own(GetOwn(table, key).value) else Missing)
  {
  }
}

=== FILE: languages.dfy ===
/** Language detection and run commands of the editor page, in both revisions: the
    extension after the last `.`, lower-cased, looked up in a fixed table, and the
    commands that run a file of a given language. */
module Languages {
  import opened Wrappers
  import opened Text
  import opened JsObject

  const Plaintext: string := "plaintext"

  /** The extension table of the current editor page. */
  const LangTable: map<string, string> := map[
    "js" := "javascript", "jsx" := "javascript", "ts" := "typescript", "tsx" := "typescript",
    "json" := "json", "md" := "markdown", "css" := "css", "html" := "html",
    "sh" := "shell", "py" := "python",
    "txt" := Plaintext, "log" := Plaintext, "gitignore" := Plaintext, "env" := Plaintext
  ]

  /** The extension table of the older editor page: the same without the entries that
      map to "plaintext". */
  const OldLangTable: map<string, string> := map[
    "js" := "javascript", "jsx" := "javascript", "ts" := "typescript", "tsx" := "typescript",
    "json" := "json", "md" := "markdown", "css" := "css", "html" := "html",
    "sh" := "shell", "py" := "python"
  ]

  /** Every language a file can be given. */
  const Languages: set<string> := {"javascript", "typescript", "json", "markdown", "css", "html", "shell", "python", Plaintext}

  /** `name.split(".").pop().toLowerCase()`. */
  function Ext(name: string): (r: string)
    ensures '.' !in r && |r| <= |name|
    ensures r == Lower(name[|name| - |r|..])
    ensures |r| < |name| ==> name[|name| - |r| - 1] == '.'
  {
    var tail := AfterLast(name, '.');
    LowerKeepsOut(tail, '.');
    Lower(tail)
  }

  /** The language of a file, as an editor language id. */
  function GetLang(name: string): (r: string)
    ensures r in Languages
    ensures Ext(name) in LangTable ==> r == LangTable[Ext(name)]
    ensures Ext(name) !in LangTable ==> r == Plaintext
  {
    match GetOwn(LangTable, Ext(name))
    case Some(l) => l
    case None => Plaintext
  }

  /** What `getLang` yields as written: `map[e] || "plaintext"` also finds inherited
      members, so a file named `x.constructor` gets the `Object` function as its language. */
  function GetLangAsWritten(name: string): (r: Found<string>)
    ensures r.Missing? ==> false
    ensures Ext(name) !in InheritedKeys ==> r == Own(GetLang(name))
    ensures Ext(name) in InheritedKeys ==> r == Inherited(Ext(name))
  {
    var e := Ext(name);
    assert e in InheritedKeys ==> e !in LangTable by {
      if e in InheritedKeys { InheritedNotInTable(e); }
    }
    match Get(LangTable, e)
    case Own(l) => Own(l)
    case Inherited(k) => Inherited(k)
    case Missing => Own(Plaintext)
  }

  /** The older page's `getLang`, looking at the table's own entries only: the language an
      entry gives, or "plaintext". */
  function GetLangOld(name: string): (r: string)
    ensures r in Languages
    ensures Ext(name) in OldLangTable ==> r == OldLangTable[Ext(name)]
    ensures Ext(name) !in OldLangTable ==> r == Plaintext
  {
    match GetOwn(OldLangTable, Ext(name))
    case Some(l) => l
    case None => Plaintext
  }

  /** What the older page's `getLang` yields as written: `??` falls back only on `undefined`,
      and an inherited member is never `undefined`, so `x.constructor` again gets the
      `Object` function for its language. */
  function GetLangOldAsWritten(name: string): (r: Found<string>)
    ensures r.Missing? ==> false
    ensures Ext(name) !in InheritedKeys ==> r == Own(GetLangOld(name))
    ensures Ext(name) in InheritedKeys ==> r == Inherited(Ext(name))
  {
    var e := Ext(name);
    assert e in InheritedKeys ==> e !in OldLangTable by {
      if e in InheritedKeys { InheritedNotInTable(e); }
    }
    match Get(OldLangTable, e)
    case Own(l) => Own(l)
    case Inherited(k) => Inherited(k)
    case Missing => Own(Plaintext)
  }

  /** The two revisions' lookups, as written, agree on every file name: on the inherited
      names they are equally wrong. */
  lemma RevisionsAgreeAsWritten(name: string)
    ensures GetLangOldAsWritten(name) == GetLangAsWritten(name)
  {
    var e := Ext(name);
    if e in InheritedKeys {
      InheritedNotInTable(e);
    } else {
      RevisionsAgree(name);
    }
  }

  /** No extension of either table is an inherited name. */
  lemma InheritedNotInTable(e: string)
    requires e in InheritedKeys
    ensures e !in LangTable && e !in OldLangTable
  {
  }

  /** The extension of a name that ends in `.` and a dot-free lower-case word is that word. */
  lemma ExtOf(base: string, ext: string)
    requires '.' !in ext && Lower(ext) == ext
    ensures Ext(base + "." + ext) == ext
  {
    AfterLastOf(base, '.', ext);
  }

  /** A file whose extension is an inherited name is given no language at all: `x.constructor`
      has the `Object` function for its language, where the fallback was meant. */
  lemma GetLangAsWrittenConstructor(base: string, ext: string)
    requires ext == "constructor"
    ensures GetLangAsWritten(base + "." + ext) == Inherited(ext)
    ensures GetLang(base + "." + ext) == Plaintext
  {
    ConstructorExt(base, ext);
    InheritedExt(base + "." + ext);
  }

  lemma ConstructorExt(base: string, ext: string)
    requires ext == "constructor"
    ensures Ext(base + "." + ext) == ext
  {
    LowerUnchanged(ext);
    ExtOf(base, ext);
  }

  lemma InheritedExt(name: string)
    requires Ext(name) == "constructor"
    ensures GetLangAsWritten(name) == Inherited("constructor")
    ensures GetLang(name) == Plaintext
  {
    assert "constructor" !in LangTable && "constructor" in InheritedKeys;
  }

  /** The tables of the two revisions, entry by entry. */
  lemma TablesAgree(e: string)
    ensures e in OldLangTable ==> e in LangTable && LangTable[e] == OldLangTable[e]
    ensures e in LangTable && e !in OldLangTable ==> LangTable[e] == Plaintext
  {
  }

  /** The two revisions give every file the same language: the entries the newer table
      adds all map to the fallback. */
  lemma RevisionsAgree(name: string)
    ensures GetLangOld(name) == GetLang(name)
  {
    TablesAgree(Ext(name));
  }

  // ---------------------------------------------------------------- running a file

  /** An entry of `RUN_COMMANDS`: a program the file is passed to, or `null` for the
      languages shown in a viewer instead. */
  datatype RunEntry = Command(program: string) | Viewer

  const RunCommands: map<string, RunEntry> := map[
    "javascript" := Command("node"),
    "typescript" := Command("ts-node"),
    "python" := Command("python3"),
    "shell" := Command("bash"),
    "html" := Viewer,
    "markdown" := Viewer
  ]

  /** The extensions whose language has a `RUN_COMMANDS` entry. */
  const RunnableExts: set<string> := {"js", "jsx", "ts", "tsx", "py", "sh", "html", "md"}

  /** `canRun(name)`: the file's language has an entry, even a `null` one. */
  predicate CanRun(name: string) {
    GetLang(name) in RunCommands
  }

  /** The runnable extensions, entry by entry. */
  lemma RunnableTable(e: string)
    ensures (e in LangTable && LangTable[e] in RunCommands) <==> e in RunnableExts
    ensures Plaintext !in RunCommands
  {
  }

  lemma CanRunIff(name: string)
    ensures CanRun(name) <==> Ext(name) in RunnableExts
  {
    RunnableTable(Ext(name));
  }

  /** The command that runs `path` with `program`: the program and the double-quoted path. */
  function CommandLine(program: string, path: string): (r: string)
    ensures |r| == |program| + |path| + 3
    ensures StartsWith(r, program + " \"") && r[|r| - 1] == '"'
    ensures r[|program| + 2..|r| - 1] == path
  {
    program + " \"" + path + "\""
  }

  /** The command `run` sends for a file; `None` when the file cannot be run, including
      the viewer languages for which `canRun` holds. */
  function RunCommandFor(name: string, path: string): (r: Option<string>)
    ensures r.Some? <==> CanRun(name) && RunCommands[GetLang(name)].Command?
    ensures r.Some? ==> r.value == CommandLine(RunCommands[GetLang(name)].program, path)
  {
    var entry := GetOwn(RunCommands, GetLang(name));
    if entry.Some? && entry.value.Command? then Some(CommandLine(entry.value.program, path)) else None
  }

  /** The programs of the runnable extensions, entry by entry. */
  lemma ProgramTable(e: string)
    ensures (e in LangTable && LangTable[e] in RunCommands && RunCommands[LangTable[e]].Command?)
            <==> e in {"js", "jsx", "ts", "tsx", "py", "sh"}
    ensures e in {"js", "jsx"} ==> RunCommands[LangTable[e]] == Command("node")
    ensures e in {"ts", "tsx"} ==> RunCommands[LangTable[e]] == Command("ts-node")
    ensures e == "py" ==> RunCommands[LangTable[e]] == Command("python3")
    ensures e == "sh" ==> RunCommands[LangTable[e]] == Command("bash")
  {
  }

  /** Which programs run which extensions. */
  lemma RunPrograms(name: string, path: string)
    ensures RunCommandFor(name, path).Some? <==> Ext(name) in {"js", "jsx", "ts", "tsx", "py", "sh"}
    ensures Ext(name) in {"js", "jsx"} ==> RunCommandFor(name, path) == Some(CommandLine("node", path))
    ensures Ext(name) in {"ts", "tsx"} ==> RunCommandFor(name, path) == Some(CommandLine("ts-node", path))
    ensures Ext(name) == "py" ==> RunCommandFor(name, path) == Some(CommandLine("python3", path))
    ensures Ext(name) == "sh" ==> RunCommandFor(name, path) == Some(CommandLine("bash", path))
  {
    ProgramTable(Ext(name));
    RunnableTable(Ext(name));
  }

  /** `canRun` as written looks the language up in `RUN_COMMANDS`; an inherited language
      value is a function or object whose string form is no key, so the answer is the
      same as with the corrected language. */
  predicate CanRunAsWritten(name: string) {
    match GetLangAsWritten(name)
    case Own(l) => l in RunCommands
    case _ => false
  }

  lemma CanRunUnaffected(name: string)
    ensures CanRunAsWritten(name) <==> CanRun(name)
  {
  }
}

=== FILE: map_stats.dfy ===
/** The map panel's derived data (`MapPanel`): file extensions and colours, the flattened
    file list and counts of a tree, the graph of files linked by folder and by extension
    (without its coordinates), and the extension histogram. */
module MapStats {
  import opened Wrappers
  import opened Text
  import opened JsObject
  import opened Languages
  import opened Scanner
  import opened Grouping

  /** `getExt(name)`: the extension as the editor page computes it; `|| ""` changes nothing. */
  function GetExt(name: string): (r: string)
    ensures r == Ext(name)
    ensures '.' !in r && r == Lower(name[|name| - |r|..])
    ensures |r| < |name| ==> name[|name| - |r| - 1] == '.'
  {
    Ext(name)
  }

  const DefaultColor: string := "#666"

  const ExtColor: map<string, string> := map[
    "js" := "#f5c542", "jsx" := "#61dafb", "ts" := "#3178c6", "tsx" := "#61dafb",
    "json" := "#cbcb41", "md" := "#fff", "css" := "#5b9cf6", "html" := "#e44d26",
    "sh" := "#3ddc84", "py" := "#3776ab", "default" := DefaultColor
  ]

  /** `getCol(name)`: the colour of the extension, else the default; an inherited name
      finds an `Object.prototype` member instead. */
  function GetCol(name: string): (r: Found<string>)
    ensures !r.Missing?
    ensures Ext(name) !in InheritedKeys ==>
      r == Own(if Ext(name) in ExtColor then ExtColor[Ext(name)] else DefaultColor)
    ensures Ext(name) in InheritedKeys ==> r == Inherited(Ext(name))
  {
    ColorOf(Ext(name))
  }

  /** `EXT_COLOR[e] || EXT_COLOR.default`. */
  function ColorOf(e: string): (r: Found<string>)
    ensures !r.Missing?
    ensures e !in InheritedKeys ==> r == Own(if e in ExtColor then ExtColor[e] else DefaultColor)
    ensures e in InheritedKeys ==> r == Inherited(e)
  {
    assert ExtColor["default"] == DefaultColor;
    assert forall k :: k in InheritedKeys ==> k !in ExtColor;
    match Get(ExtColor, e)
    case Own(c) => Own(c)
    case Inherited(k) => Inherited(k)
    case Missing => Own(ExtColor["default"])
  }

  // ---------------------------------------------------------------- flattening and counting

  /** `flatFiles(nodes)`: the file nodes, depth first, in tree order. */
  function FlatFiles(r: seq<TreeNode>): (fs: seq<TreeNode>)
    ensures forall i :: 0 <= i < |fs| ==> fs[i].FileNode?
    decreases r
  {
    if r == [] then []
    else
      (if r[0].FileNode? then [r[0]] else FlatFiles(r[0].children)) + FlatFiles(r[1..])
  }

  function OnlyFiles(ns: seq<TreeNode>): seq<TreeNode> {
    if ns == [] then [] else (if ns[0].FileNode? then [ns[0]] else []) + OnlyFiles(ns[1..])
  }

  lemma {:induction false} OnlyFilesAppend(a: seq<TreeNode>, b: seq<TreeNode>)
    ensures OnlyFiles(a + b) == OnlyFiles(a) + OnlyFiles(b)
  {
    if a != [] {
      assert (a + b)[1..] == a[1..] + b;
      OnlyFilesAppend(a[1..], b);
    } else {
      assert a + b == b;
    }
  }

  /** The flattened list is the file nodes of the whole tree in pre-order. */
  lemma {:induction false} FlatFilesAreFiles(r: seq<TreeNode>)
    ensures FlatFiles(r) == OnlyFiles(AllNodes(r))
    decreases r
  {
    if r != [] {
      var below := if r[0].DirNode? then AllNodes(r[0].children) else [];
      var rest := AllNodes(r[1..]);
      assert AllNodes(r) == [r[0]] + below + rest;
      FlatFilesAreFiles(r[1..]);
      OnlyFilesAppend([r[0]] + below, rest);
      OnlyFilesAppend([r[0]], below);
      assert OnlyFiles([r[0]]) == (if r[0].FileNode? then [r[0]] else []) + OnlyFiles([]);
      if r[0].DirNode? {
        FlatFilesAreFiles(r[0].children);
        assert FlatFiles(r) == FlatFiles(r[0].children) + FlatFiles(r[1..]);
      } else {
        assert FlatFiles(r) == [r[0]] + FlatFiles(r[1..]);
      }
    }
  }

  /** `countAll(nodes)`: the numbers of files and of folders in the tree. */
  function CountAll(r: seq<TreeNode>): (c: (nat, nat))
    ensures c.0 == |FlatFiles(r)|
    ensures c.0 + c.1 == |AllNodes(r)|
    decreases r
  {
    if r == [] then (0, 0)
    else
      var here := if r[0].FileNode? then (1, 0) else (0, 1);
      var below := if r[0].DirNode? then CountAll(r[0].children) else (0, 0);
      var rest := CountAll(r[1..]);
      (here.0 + below.0 + rest.0, here.1 + below.1 + rest.1)
  }

  // ---------------------------------------------------------------- the graph

  /** A graph node, without its position and velocity. */
  datatype GraphNode = GraphNode(id: string, name: string, dir: string, ext: string, color: Found<string>)

  /** Star edges join files of one folder; chain edges join files of one extension. */
  datatype EdgeKind = SameDir | SameExt
  datatype Edge = Edge(from: GraphNode, to: GraphNode, kind: EdgeKind)

  datatype Graph = Graph(nodes: seq<GraphNode>, edges: seq<Edge>)

  /** `path.split(/[\\/]/).slice(0, -1).join("/")`. */
  function DirKey(path: string): string {
    var parts := Split(path, PathSeps);
    Join(parts[..|parts| - 1], "/")
  }

  function ToNode(f: TreeNode): GraphNode {
    GraphNode(f.path, f.name, DirKey(f.path), GetExt(f.name), GetCol(f.name))
  }

  function ToNodes(fs: seq<TreeNode>): (ns: seq<GraphNode>)
    ensures |ns| == |fs|
    ensures forall i :: 0 <= i < |fs| ==> ns[i] == ToNode(fs[i])
  {
    seq(|fs|, i requires 0 <= i < |fs| => ToNode(fs[i]))
  }

  function DirOf(n: GraphNode): string { n.dir }
  function ExtOf(n: GraphNode): string { n.ext }

  /** Edges from the first file of a folder to each of the others. */
  function Star(g: seq<GraphNode>): (es: seq<Edge>)
    requires g != []
    ensures |es| == |g| - 1
    ensures forall i :: 0 <= i < |es| ==> es[i] == Edge(g[0], g[i + 1], SameDir)
  {
    seq(|g| - 1, i requires 0 <= i < |g| - 1 => Edge(g[0], g[i + 1], SameDir))
  }

  /** Edges between consecutive files of an extension. */
  function Chain(g: seq<GraphNode>): (es: seq<Edge>)
    requires g != []
    ensures |es| == |g| - 1
    ensures forall i :: 0 <= i < |es| ==> es[i] == Edge(g[i], g[i + 1], SameExt)
  {
    seq(|g| - 1, i requires 0 <= i < |g| - 1 => Edge(g[i], g[i + 1], SameExt))
  }

  /** One folder edge per file beyond the first of each folder. */
  function StarEdges(gs: seq<Group<GraphNode>>): (es: seq<Edge>)
    ensures forall e :: e in es ==> e.kind == SameDir
    ensures (forall i :: 0 <= i < |gs| ==> gs[i].items != []) ==> |es| + |gs| == SumSizes(gs)
  {
    if gs == [] then []
    else (if |gs[0].items| > 1 then Star(gs[0].items) else []) + StarEdges(gs[1..])
  }

  /** The chain edges an extension with `k` files adds: `k - 1` when it has 2 to 9 files,
      none otherwise. */
  function ChainSize(k: nat): nat {
    if 1 < k < 10 then k - 1 else 0
  }

  function ChainTotal(gs: seq<Group<GraphNode>>): nat {
    if gs == [] then 0 else ChainSize(|gs[0].items|) + ChainTotal(gs[1..])
  }

  /** Chain edges only for extensions with 2 to 9 files. */
  function ChainEdges(gs: seq<Group<GraphNode>>): (es: seq<Edge>)
    ensures forall e :: e in es ==> e.kind == SameExt
    ensures |es| == ChainTotal(gs)
  {
    if gs == [] then []
    else (if 1 < |gs[0].items| < 10 then Chain(gs[0].items) else []) + ChainEdges(gs[1..])
  }

  /** `buildGraph(tree)` without coordinates: the files grouped folder by folder, the star
      edges of each folder, then the chain edges of each extension. */
  function BuildGraph(tree: seq<TreeNode>): Graph {
    var byDir := GroupBy(ToNodes(FlatFiles(tree)), DirOf);
    var nodes := Flatten(byDir);
    var byExt := GroupBy(nodes, ExtOf);
    Graph(nodes, StarEdges(byDir) + ChainEdges(byExt))
  }

  /** The lookups `byDir[d]` and `byExt[e]` find an inherited member for an inherited
      name, and calling `push` on it throws a `TypeError`. */
  function BuildGraphAsWritten(tree: seq<TreeNode>): (r: Result<Graph, string>)
    ensures r.Ok? ==> r.value == BuildGraph(tree)
    ensures r.Err? <==> exists n :: n in BuildGraph(tree).nodes && InheritedKey(n)
  {
    var fs := FlatFiles(tree);
    InheritedNode(tree);
    if exists f :: f in fs && (DirKey(f.path) in InheritedKeys || GetExt(f.name) in InheritedKeys) then Err("TypeError")
    else Ok(BuildGraph(tree))
  }

  /** A node whose folder key or extension is an inherited name. */
  predicate InheritedKey(n: GraphNode) {
    n.dir in InheritedKeys || n.ext in InheritedKeys
  }

  /** Some graph node has an inherited folder key or extension exactly when some file of
      the tree has. */
  lemma InheritedNode(tree: seq<TreeNode>)
    ensures (exists n :: n in BuildGraph(tree).nodes && InheritedKey(n))
        <==> exists f :: f in FlatFiles(tree) && InheritedKey(ToNode(f))
  {
    var files := ToNodes(FlatFiles(tree));
    NodesAreFiles(tree);
    SameItemsInherited(BuildGraph(tree).nodes, files);
    ToNodesInherited(FlatFiles(tree));
  }

  /** The graph's nodes are the files' nodes, regrouped. */
  lemma NodesAreFiles(tree: seq<TreeNode>)
    ensures multiset(BuildGraph(tree).nodes) == multiset(ToNodes(FlatFiles(tree)))
  {
    GroupByFlatten(ToNodes(FlatFiles(tree)), DirOf);
  }

  lemma ToNodesInherited(fs: seq<TreeNode>)
    ensures (exists n :: n in ToNodes(fs) && InheritedKey(n)) <==> exists f :: f in fs && InheritedKey(ToNode(f))
  {
    var files := ToNodes(fs);
    forall n | n in files && InheritedKey(n)
      ensures exists f :: f in fs && InheritedKey(ToNode(f))
    {
      var i :| 0 <= i < |files| && files[i] == n;
      assert fs[i] in fs;
    }
    forall f | f in fs && InheritedKey(ToNode(f))
      ensures exists n :: n in files && InheritedKey(n)
    {
      var i :| 0 <= i < |fs| && fs[i] == f;
      assert files[i] in files;
    }
  }

  lemma SameItemsInherited(a: seq<GraphNode>, b: seq<GraphNode>)
    requires multiset(a) == multiset(b)
    ensures (exists n :: n in a && InheritedKey(n)) <==> (exists n :: n in b && InheritedKey(n))
  {
    forall n | n in a ensures n in b { assert n in multiset(a); }
    forall n | n in b ensures n in a { assert n in multiset(b); }
  }

  // ---------------------------------------------------------------- graph properties

  ghost predicate EdgeWithin(e: Edge, nodes: seq<GraphNode>) {
    && e.from in nodes && e.to in nodes
    && (e.kind == SameDir ==> e.from.dir == e.to.dir)
    && (e.kind == SameExt ==> e.from.ext == e.to.ext)
  }

  lemma {:induction false} StarEdgesShape(gs: seq<Group<GraphNode>>)
    requires forall i :: 0 <= i < |gs| ==> gs[i].items != []
    requires forall i :: 0 <= i < |gs| ==> forall n :: n in gs[i].items ==> n.dir == gs[i].key
    ensures forall e :: e in StarEdges(gs) ==> EdgeWithin(e, Flatten(gs)) && e.kind == SameDir
    ensures |StarEdges(gs)| + |gs| == |Flatten(gs)|
  {
    if gs != [] {
      StarEdgesShape(gs[1..]);
      var g := gs[0].items;
      assert g[0] in g;
      var here := if |g| > 1 then Star(g) else [];
      forall e | e in here
        ensures EdgeWithin(e, Flatten(gs)) && e.kind == SameDir
      {
        var i :| 0 <= i < |here| && here[i] == e;
        assert g[i + 1] in g;
      }
    }
  }

  lemma {:induction false} ChainEdgesShape(gs: seq<Group<GraphNode>>)
    requires forall i :: 0 <= i < |gs| ==> gs[i].items != []
    requires forall i :: 0 <= i < |gs| ==> forall n :: n in gs[i].items ==> n.ext == gs[i].key
    ensures forall e :: e in ChainEdges(gs) ==> EdgeWithin(e, Flatten(gs)) && e.kind == SameExt
  {
    if gs != [] {
      ChainEdgesShape(gs[1..]);
      var g := gs[0].items;
      var here := if 1 < |g| < 10 then Chain(g) else [];
      forall e | e in here
        ensures EdgeWithin(e, Flatten(gs)) && e.kind == SameExt
      {
        var i :| 0 <= i < |here| && here[i] == e;
        assert g[i] in g && g[i + 1] in g;
      }
    }
  }

  /** The items of a group all carry the group's key. */
  lemma GroupKeys<T>(xs: seq<T>, key: T -> string)
    ensures forall i :: 0 <= i < |GroupBy(xs, key)| ==>
      forall n :: n in GroupBy(xs, key)[i].items ==> key(n) == GroupBy(xs, key)[i].key
  {
    forall i | 0 <= i < |GroupBy(xs, key)|
      ensures forall n :: n in GroupBy(xs, key)[i].items ==> key(n) == GroupBy(xs, key)[i].key
    {
      GroupItems(xs, key, i);
      SelectKeys(xs, key, GroupBy(xs, key)[i].key);
    }
  }

  lemma {:induction false} SelectKeys<T>(xs: seq<T>, key: T -> string, k: string)
    ensures forall n :: n in Select(xs, key, k) ==> key(n) == k
    decreases |xs|
  {
    if xs != [] {
      SelectKeys(xs[..|xs| - 1], key, k);
    }
  }

  /** The graph has one node per file of the tree; every edge joins two of its nodes of the
      same folder or the same extension; each folder with `k` files adds `k - 1` star
      edges, so there are as many star edges as files beyond the first of each folder; and
      each extension adds its chain edges, `k - 1` for 2 to 9 files and none otherwise. */
  lemma GraphShape(tree: seq<TreeNode>)
    ensures multiset(BuildGraph(tree).nodes) == multiset(ToNodes(FlatFiles(tree)))
    ensures forall e :: e in BuildGraph(tree).edges ==> EdgeWithin(e, BuildGraph(tree).nodes)
    ensures
      var byDir := GroupBy(ToNodes(FlatFiles(tree)), DirOf);
      |StarEdges(byDir)| + |byDir| == |FlatFiles(tree)|
    ensures
      var byDir := GroupBy(ToNodes(FlatFiles(tree)), DirOf);
      var byExt := GroupBy(BuildGraph(tree).nodes, ExtOf);
      |BuildGraph(tree).edges| == |FlatFiles(tree)| - |byDir| + ChainTotal(byExt)
  {
    var files := ToNodes(FlatFiles(tree));
    var byDir := GroupBy(files, DirOf);
    var nodes := Flatten(byDir);
    var byExt := GroupBy(nodes, ExtOf);
    GroupBySpec(files, DirOf);
    GroupKeys(files, DirOf);
    StarEdgesShape(byDir);
    GroupBySpec(nodes, ExtOf);
    GroupKeys(nodes, ExtOf);
    ChainEdgesShape(byExt);
    assert |multiset(nodes)| == |multiset(files)|;
    forall e | e in ChainEdges(byExt)
      ensures EdgeWithin(e, nodes)
    {
      assert e.from in Flatten(byExt) && e.to in Flatten(byExt);
      assert e.from in multiset(Flatten(byExt)) && e.to in multiset(Flatten(byExt));
    }
  }

  /** The defect of `buildGraph` as written: a file named `x.constructor` (or `x.__proto__`)
      makes the panel throw instead of drawing the graph. */
  lemma BuildGraphAsWrittenThrows(base: string, ext: string, path: string)
    requires ext == "constructor"
    ensures BuildGraphAsWritten([FileNode(base + "." + ext, path)]).Err?
    ensures BuildGraph([FileNode(base + "." + ext, path)]).nodes == [ToNode(FileNode(base + "." + ext, path))]
  {
    var f := FileNode(base + "." + ext, path);
    ConstructorExt(base, ext);
    OneFile(f);
    var n := ToNode(f);
    assert n.ext == "constructor";
    assert n in BuildGraph([f]).nodes && InheritedKey(n);
  }

  /** A tree of one file has a graph of one node. */
  lemma OneFile(f: TreeNode)
    requires f.FileNode?
    ensures FlatFiles([f]) == [f]
    ensures BuildGraph([f]).nodes == [ToNode(f)]
  {
    assert FlatFiles([f]) == [f] + FlatFiles([]);
    var n := ToNode(f);
    assert ToNodes([f]) == [n];
    GroupOne(n, DirOf);
    assert BuildGraph([f]).nodes == Flatten(GroupBy([n], DirOf));
  }

  // ---------------------------------------------------------------- the histogram

  /** One bar of the "types" view. */
  datatype Bar = Bar(name: string, count: nat)

  /** A file's histogram label: its extension, or `other` when it has none. */
  function Label(f: TreeNode): string {
    if GetExt(f.name) == "" then "other" else GetExt(f.name)
  }

  function ToBars(gs: seq<Group<TreeNode>>): (bs: seq<Bar>)
    ensures |bs| == |gs|
    ensures forall i :: 0 <= i < |gs| ==> bs[i] == Bar(gs[i].key, |gs[i].items|)
  {
    if gs == [] then [] else [Bar(gs[0].key, |gs[0].items|)] + ToBars(gs[1..])
  }

  /** `Object.entries(m)`: one bar per label, in order of first appearance. */
  function Counts(files: seq<TreeNode>): seq<Bar> {
    ToBars(GroupBy(files, Label))
  }

  ghost predicate Descending(bs: seq<Bar>) {
    forall i, j :: 0 <= i < j < |bs| ==> bs[i].count >= bs[j].count
  }

  /** Inserts a bar after every bar with at least its count, which keeps the sort stable
      (`InsertDescStable`). */
  function InsertDesc(sorted: seq<Bar>, b: Bar): (r: seq<Bar>)
    ensures multiset(r) == multiset(sorted) + multiset{b}
    ensures Descending(sorted) ==> Descending(r)
  {
    if sorted == [] then [b]
    else if sorted[0].count >= b.count then
      var rest := InsertDesc(sorted[1..], b);
      assert sorted == [sorted[0]] + sorted[1..];
      assert Descending(sorted) ==> Descending([sorted[0]] + rest) by {
        if Descending(sorted) {
          DescendingTail(sorted);
          HeadAbove(sorted, b, rest);
        }
      }
      [sorted[0]] + rest
    else
      assert Descending(sorted) ==> Descending([b] + sorted) by {
        if Descending(sorted) {
          PrependAbove(b, sorted);
        }
      }
      [b] + sorted
  }

  lemma DescendingTail(bs: seq<Bar>)
    requires bs != [] && Descending(bs)
    ensures Descending(bs[1..])
  {
    forall i, j | 0 <= i < j < |bs| - 1
      ensures bs[1..][i].count >= bs[1..][j].count
    {
      assert bs[1..][i] == bs[i + 1] && bs[1..][j] == bs[j + 1];
    }
  }

  /** A bar with a larger count than the first of a descending list can go in front. */
  lemma PrependAbove(b: Bar, sorted: seq<Bar>)
    requires sorted != [] && b.count > sorted[0].count && Descending(sorted)
    ensures Descending([b] + sorted)
  {
    var r := [b] + sorted;
    forall i, j | 0 <= i < j < |r|
      ensures r[i].count >= r[j].count
    {
      assert r[j] == sorted[j - 1];
      if i > 0 {
        assert r[i] == sorted[i - 1];
      }
    }
  }

  /** The first bar stays first when what follows it is re-arranged with a smaller bar. */
  lemma HeadAbove(sorted: seq<Bar>, b: Bar, rest: seq<Bar>)
    requires sorted != [] && sorted[0].count >= b.count
    requires multiset(rest) == multiset(sorted[1..]) + multiset{b}
    requires Descending(sorted) && Descending(rest)
    ensures Descending([sorted[0]] + rest)
  {
    var r := [sorted[0]] + rest;
    forall j | 1 <= j < |r|
      ensures r[0].count >= r[j].count
    {
      assert r[j] == rest[j - 1];
      assert rest[j - 1] in multiset(rest);
      if rest[j - 1] != b {
        assert rest[j - 1] in multiset(sorted[1..]);
        var k :| 0 <= k < |sorted[1..]| && sorted[1..][k] == rest[j - 1];
        assert sorted[k + 1] == rest[j - 1];
      }
    }
  }

  /** `.sort((a, b) => b[1] - a[1])`: by count, largest first, ties in their old order. */
  function SortDesc(bs: seq<Bar>): (r: seq<Bar>)
    ensures multiset(r) == multiset(bs)
    ensures Descending(r)
    decreases |bs|
  {
    if bs == [] then []
    else
      var init := bs[..|bs| - 1];
      assert init + [bs[|bs| - 1]] == bs;
      InsertDesc(SortDesc(init), bs[|bs| - 1])
  }

  const HistogramSize: nat := 8

  /** The "types" view: the eight most frequent labels with their counts. */
  function Histogram(files: seq<TreeNode>): (r: seq<Bar>)
    ensures |r| <= HistogramSize
    ensures Descending(r)
  {
    var sorted := SortDesc(Counts(files));
    if |sorted| <= HistogramSize then sorted else sorted[..HistogramSize]
  }

  /** The histogram has eight bars, or one per label when there are fewer. */
  lemma HistogramLength(files: seq<TreeNode>)
    ensures |Histogram(files)| == if |Counts(files)| < HistogramSize then |Counts(files)| else HistogramSize
  {
    var counts := Counts(files);
    assert |multiset(SortDesc(counts))| == |multiset(counts)|;
  }

  /** The histogram holds the largest counts: every label it leaves out has no more files
      than its smallest bar. */
  lemma HistogramTop(files: seq<TreeNode>, b: Bar)
    requires b in Counts(files) && b !in Histogram(files)
    ensures |Histogram(files)| == HistogramSize
    ensures b.count <= Histogram(files)[HistogramSize - 1].count
  {
    var sorted := SortDesc(Counts(files));
    var h := Histogram(files);
    assert b in multiset(sorted);
    var j :| 0 <= j < |sorted| && sorted[j] == b;
    assert |sorted| > HistogramSize;
    assert sorted[HistogramSize - 1] == h[HistogramSize - 1];
  }

  /** Each bar counts exactly the files with its label. */
  lemma HistogramCounts(files: seq<TreeNode>, b: Bar)
    requires b in Histogram(files)
    ensures b.count == |Select(files, Label, b.name)| >= 1
  {
    var counts := Counts(files);
    var sorted := SortDesc(counts);
    assert b in sorted;
    assert b in multiset(sorted);
    assert b in multiset(counts);
    var i :| 0 <= i < |counts| && counts[i] == b;
    GroupItems(files, Label, i);
  }

  // ---------------------------------------------------------------- ties keep their order

  /** The bars of `bs` with count `c`, in their order in `bs`. */
  function WithCount(bs: seq<Bar>, c: nat): seq<Bar> {
    if bs == [] then [] else IfCount(bs[0], c) + WithCount(bs[1..], c)
  }

  /** `[b]` when `b` has count `c`, else nothing. */
  function IfCount(b: Bar, c: nat): seq<Bar> {
    if b.count == c then [b] else []
  }

  lemma {:induction false} WithCountIn(bs: seq<Bar>, c: nat, b: Bar)
    ensures b in WithCount(bs, c) <==> b in bs && b.count == c
  {
    if bs != [] {
      WithCountIn(bs[1..], c, b);
      assert bs == [bs[0]] + bs[1..];
    }
  }

  lemma {:induction false} WithCountConcat(a: seq<Bar>, b: seq<Bar>, c: nat)
    ensures WithCount(a + b, c) == WithCount(a, c) + WithCount(b, c)
  {
    if a == [] {
      assert a + b == b;
    } else {
      var ab := a + b;
      assert ab != [] && ab[0] == a[0];
      assert ab[1..] == a[1..] + b;
      assert WithCount(ab, c) == IfCount(a[0], c) + WithCount(a[1..] + b, c);
      WithCountConcat(a[1..], b, c);
      assert WithCount(a, c) == IfCount(a[0], c) + WithCount(a[1..], c);
    }
  }

  lemma {:induction false} WithCountNone(bs: seq<Bar>, c: nat)
    requires forall i :: 0 <= i < |bs| ==> bs[i].count < c
    ensures WithCount(bs, c) == []
  {
    if bs != [] {
      WithCountNone(bs[1..], c);
    }
  }

  /** Inserting a bar into a descending list puts it after every bar of its own count. */
  lemma {:induction false} InsertDescStable(sorted: seq<Bar>, b: Bar, c: nat)
    requires Descending(sorted)
    ensures WithCount(InsertDesc(sorted, b), c) == WithCount(sorted, c) + IfCount(b, c)
  {
    if sorted == [] {
      assert InsertDesc(sorted, b) == [b];
      assert WithCount([b], c) == IfCount(b, c) + WithCount([], c);
    } else if sorted[0].count >= b.count {
      DescendingTail(sorted);
      InsertDescStable(sorted[1..], b, c);
      InsertUnfold(sorted, b);
      ConsKeepsStable(sorted[0], sorted[1..], InsertDesc(sorted[1..], b), b, c);
    } else {
      InsertInFront(sorted, b, c);
    }
  }

  /** A bar kept in front does not disturb the order of what follows it. */
  lemma ConsKeepsStable(x: Bar, tail: seq<Bar>, rest: seq<Bar>, b: Bar, c: nat)
    requires WithCount(rest, c) == WithCount(tail, c) + IfCount(b, c)
    ensures WithCount([x] + rest, c) == WithCount([x] + tail, c) + IfCount(b, c)
  {
    var head := WithCount([x], c);
    WithCountConcat([x], rest, c);
    WithCountConcat([x], tail, c);
    AppendAssoc(head, WithCount(tail, c), IfCount(b, c));
  }

  lemma InsertUnfold(sorted: seq<Bar>, b: Bar)
    requires sorted != [] && sorted[0].count >= b.count
    ensures InsertDesc(sorted, b) == [sorted[0]] + InsertDesc(sorted[1..], b)
    ensures sorted == [sorted[0]] + sorted[1..]
  {
  }

  lemma AppendAssoc(a: seq<Bar>, b: seq<Bar>, d: seq<Bar>)
    ensures a + (b + d) == (a + b) + d
  {
  }

  lemma InitLast(bs: seq<Bar>)
    requires bs != []
    ensures bs[..|bs| - 1] + [bs[|bs| - 1]] == bs
  {
  }

  lemma InsertInFront(sorted: seq<Bar>, b: Bar, c: nat)
    requires sorted != [] && sorted[0].count < b.count && Descending(sorted)
    ensures WithCount(InsertDesc(sorted, b), c) == WithCount(sorted, c) + IfCount(b, c)
  {
    if b.count == c {
      forall i | 0 <= i < |sorted|
        ensures sorted[i].count < c
      {
        assert i == 0 || sorted[0].count >= sorted[i].count;
      }
      WithCountNone(sorted, c);
    }
    assert InsertDesc(sorted, b) == [b] + sorted;
    WithCountConcat([b], sorted, c);
    assert WithCount([b], c) == IfCount(b, c) + WithCount([], c);
  }

  /** The sort is stable: for every count, the bars with that count come out in the order
      they went in. */
  lemma {:induction false} SortDescStable(bs: seq<Bar>, c: nat)
    ensures WithCount(SortDesc(bs), c) == WithCount(bs, c)
    decreases |bs|
  {
    if bs != [] {
      var init := bs[..|bs| - 1];
      var last := bs[|bs| - 1];
      SortDescStable(init, c);
      InsertDescStable(SortDesc(init), last, c);
      InitLast(bs);
      WithCountConcat(init, [last], c);
    }
  }

  /** For every count, the bars the histogram shows with it are the first bars with that
      count in order of first appearance. */
  lemma HistogramTies(files: seq<TreeNode>, c: nat)
    ensures |WithCount(Histogram(files), c)| <= |WithCount(Counts(files), c)|
    ensures WithCount(Histogram(files), c) == WithCount(Counts(files), c)[..|WithCount(Histogram(files), c)|]
  {
    var sorted := SortDesc(Counts(files));
    var k := if |sorted| <= HistogramSize then |sorted| else HistogramSize;
    assert Histogram(files) == sorted[..k];
    SortDescStable(Counts(files), c);
    TakeWithCount(sorted, k, c);
  }

  /** Cutting a list keeps, for every count, a prefix of its bars with that count. */
  lemma TakeWithCount(bs: seq<Bar>, k: nat, c: nat)
    requires k <= |bs|
    ensures |WithCount(bs[..k], c)| <= |WithCount(bs, c)|
    ensures WithCount(bs[..k], c) == WithCount(bs, c)[..|WithCount(bs[..k], c)|]
  {
    assert bs == bs[..k] + bs[k..];
    WithCountConcat(bs[..k], bs[k..], c);
  }

  /** Of two labels with the same count, the one that appears later is shown only when the
      earlier one is: a label left out at the cut comes after every shown label of its count. */
  lemma HistogramTieOrder(files: seq<TreeNode>, i: nat, j: nat)
    requires i < j < |Counts(files)| && Counts(files)[i].count == Counts(files)[j].count
    requires Counts(files)[j] in Histogram(files)
    ensures Counts(files)[i] in Histogram(files)
  {
    HistogramTies(files, Counts(files)[j].count);
    CountsDistinct(files);
    NotEarlier(Counts(files), j);
    PrefixKeepsEarlier(Counts(files), Histogram(files), i, j);
  }

  /** When the bars of one count that `shown` holds are the first bars of that count in
      `bars`, a bar of that count that `bars` holds only once is shown only when every
      earlier bar of its count is. */
  lemma PrefixKeepsEarlier(bars: seq<Bar>, shown: seq<Bar>, i: nat, j: nat)
    requires i < j < |bars| && bars[i].count == bars[j].count
    requires bars[j] !in bars[..j]
    requires |WithCount(shown, bars[j].count)| <= |WithCount(bars, bars[j].count)|
    requires WithCount(shown, bars[j].count) == WithCount(bars, bars[j].count)[..|WithCount(shown, bars[j].count)|]
    requires bars[j] in shown
    ensures bars[i] in shown
  {
    var c := bars[j].count;
    var all := WithCount(bars, c);
    var seen := WithCount(shown, c);
    var before := WithCount(bars[..j], c);
    assert all == before + WithCount(bars[j..], c) by {
      assert bars == bars[..j] + bars[j..];
      WithCountConcat(bars[..j], bars[j..], c);
    }
    WithCountIn(shown, c, bars[j]);
    var k :| 0 <= k < |seen| && seen[k] == bars[j];
    WithCountIn(bars[..j], c, bars[j]);
    assert k >= |before|;
    assert bars[i] == bars[..j][i];
    WithCountIn(bars[..j], c, bars[i]);
    var m :| 0 <= m < |before| && before[m] == bars[i];
    assert seen[m] == bars[i];
    WithCountIn(shown, c, bars[i]);
  }

  lemma NotEarlier(bars: seq<Bar>, j: nat)
    requires j < |bars|
    requires forall p, q :: 0 <= p < q < |bars| ==> bars[p].name != bars[q].name
    ensures bars[j] !in bars[..j]
  {
  }

  /** No two bars carry the same label. */
  lemma CountsDistinct(files: seq<TreeNode>)
    ensures forall i, j :: 0 <= i < j < |Counts(files)| ==> Counts(files)[i].name != Counts(files)[j].name
  {
    var gs := GroupBy(files, Label);
    GroupBySpec(files, Label);
    assert forall i :: 0 <= i < |gs| ==> Counts(files)[i].name == Keys(gs)[i];
  }

  /** The counts of all labels add up to the number of files. */
  lemma CountsSum(files: seq<TreeNode>)
    ensures SumCounts(Counts(files)) == |files|
  {
    GroupSizes(files, Label);
    BarSums(GroupBy(files, Label));
  }

  function SumCounts(bs: seq<Bar>): nat {
    if bs == [] then 0 else bs[0].count + SumCounts(bs[1..])
  }

  lemma {:induction false} BarSums(gs: seq<Group<TreeNode>>)
    ensures SumCounts(ToBars(gs)) == SumSizes(gs)
  {
    if gs != [] {
      BarSums(gs[1..]);
      assert ToBars(gs)[1..] == ToBars(gs[1..]);
    }
  }
}

=== FILE: ordering.dfy ===
/** Strict total orders and the sorted enumeration of a finite set under one.
    The host sorts directory entries with a comparator built on `localeCompare`;
    the model takes that collation as an abstract strict total order. */
module Ordering {

  ghost predicate StrictTotal<T(!new)>(lt: (T, T) -> bool) {
    && (forall x :: !lt(x, x))
    && (forall x, y, z :: lt(x, y) && lt(y, z) ==> lt(x, z))
    && (forall x, y :: x != y ==> lt(x, y) || lt(y, x))
  }

  /** `m` is the least element of `s` under `lt`. */
  predicate IsLeast<T(==)>(lt: (T, T) -> bool, m: T, s: set<T>) {
    m in s && forall x :: x in s && x != m ==> lt(m, x)
  }

  /** Every non-empty finite set has a least element under a strict total order. */
  lemma {:induction false} LeastExists<T(!new)>(lt: (T, T) -> bool, s: set<T>)
    requires StrictTotal(lt) && s != {}
    ensures exists m :: IsLeast(lt, m, s)
    decreases |s|
  {
    var x :| x in s;
    if s == {x} {
      assert IsLeast(lt, x, s);
    } else {
      var rest := s - {x};
      LeastExists(lt, rest);
      var m :| IsLeast(lt, m, rest);
      if lt(x, m) {
        forall y | y in s && y != x
          ensures lt(x, y)
        {
          if y != m {
            assert lt(m, y);
          }
        }
        assert IsLeast(lt, x, s);
      } else {
        assert lt(m, x);
        assert IsLeast(lt, m, s);
      }
    }
  }

  /** The least element is unique. */
  lemma LeastUnique<T(!new)>(lt: (T, T) -> bool, s: set<T>)
    requires StrictTotal(lt)
    ensures forall m, n :: IsLeast(lt, m, s) && IsLeast(lt, n, s) ==> m == n
  {
  }

  /** The elements of `s` in strictly increasing order. */
  function SortSet<T(==,!new)>(s: set<T>, lt: (T, T) -> bool): (r: seq<T>)
    requires StrictTotal(lt)
    ensures |r| == |s|
    ensures forall x :: x in r <==> x in s
    ensures forall i, j :: 0 <= i < j < |r| ==> lt(r[i], r[j])
    decreases |s|
  {
    if s == {} then []
    else
      LeastExists(lt, s);
      LeastUnique(lt, s);
      var m :| IsLeast(lt, m, s);
      var rest := SortSet(s - {m}, lt);
      assert forall j :: 0 <= j < |rest| ==> rest[j] in s - {m};
      [m] + rest
  }

  predicate Increasing<T>(lt: (T, T) -> bool, a: seq<T>) {
    forall i, j :: 0 <= i < j < |a| ==> lt(a[i], a[j])
  }

  /** Two strictly increasing sequences with the same elements are equal: the sorted
      order of a set is unique. */
  lemma {:induction false} IncreasingUnique<T(!new)>(lt: (T, T) -> bool, a: seq<T>, b: seq<T>)
    requires StrictTotal(lt) && Increasing(lt, a) && Increasing(lt, b)
    requires forall x :: x in a <==> x in b
    ensures a == b
    decreases |a|
  {
    assert a != [] ==> a[0] in a && a[0] in b;
    assert b != [] ==> b[0] in b && b[0] in a;
    if a != [] && b != [] {
      assert a[0] == b[0];
      forall x
        ensures x in a[1..] <==> x in b[1..]
      {
        if x in a[1..] {
          var i :| 1 <= i < |a| && a[i] == x;
          assert lt(a[0], x) && x in b;
          var j :| 0 <= j < |b| && b[j] == x;
          assert j != 0;
          assert b[1..][j - 1] == x;
        }
        if x in b[1..] {
          var i :| 1 <= i < |b| && b[i] == x;
          assert lt(b[0], x) && x in a;
          var j :| 0 <= j < |a| && a[j] == x;
          assert j != 0;
          assert a[1..][j - 1] == x;
        }
      }
      IncreasingUnique(lt, a[1..], b[1..]);
      assert a == [a[0]] + a[1..] && b == [b[0]] + b[1..];
    }
  }
}

=== FILE: output_log.dfy ===
/** The editor page's bounded logs: the debug log (at most 500 entries) and the older
    page's output log (at most 1000 lines), which keeps what a shell printed with the
    terminal control sequences removed. */
module Logs {
  import opened Text

  /** `xs.slice(-n)` for `n >= 1`: the last `n` entries, or all of them when there are
      fewer. For `n == 0` nothing is kept, whereas `slice(-0)` copies the whole array; the
      pages only ever pass a cap minus one, and their caps are 500 and 1000. */
  function KeepLast<T>(xs: seq<T>, n: nat): (r: seq<T>)
    ensures |r| == if |xs| < n then |xs| else n
    ensures r == xs[|xs| - |r|..]
  {
    if |xs| <= n then xs else xs[|xs| - n..]
  }

  /** `[...log.slice(-(cap - 1)), x]`: appends `x`, dropping the oldest entries so that at
      most `cap` remain. */
  function Push<T>(log: seq<T>, x: T, cap: nat): (r: seq<T>)
    requires cap >= 1
    ensures |r| == (if |log| < cap then |log| + 1 else cap)
    ensures r == (log + [x])[|log| + 1 - |r|..]
  {
    KeepLast(log, cap - 1) + [x]
  }

  /** A log only ever pushed to stays within its cap and ends with the newest entry. */
  lemma PushBounded<T>(log: seq<T>, x: T, cap: nat)
    requires cap >= 1 && |log| <= cap
    ensures |Push(log, x, cap)| <= cap
    ensures Push(log, x, cap)[|Push(log, x, cap)| - 1] == x
    ensures |log| < cap ==> Push(log, x, cap) == log + [x]
  {
  }

  /** Pushing entries one at a time equals keeping the last `cap` entries of everything. */
  function PushAll<T>(log: seq<T>, xs: seq<T>, cap: nat): seq<T>
    requires cap >= 1
    decreases |xs|
  {
    if xs == [] then log else PushAll(Push(log, xs[0], cap), xs[1..], cap)
  }

  lemma {:induction false} PushAllKeepsLast<T>(log: seq<T>, xs: seq<T>, cap: nat)
    requires cap >= 1 && |log| <= cap
    ensures PushAll(log, xs, cap) == KeepLast(log + xs, cap)
    decreases |xs|
  {
    if xs == [] {
      assert log + xs == log;
    } else {
      var x, rest := xs[0], xs[1..];
      var next := Push(log, x, cap);
      var whole := log + [x] + rest;
      assert whole == log + xs;
      PushAllKeepsLast(next, rest, cap);
      PushThenMore(log, x, rest, cap);
      assert PushAll(log, xs, cap) == KeepLast(whole, cap);
    }
  }

  /** What follows a push is kept as if the push had kept everything. */
  lemma PushThenMore<T>(log: seq<T>, x: T, rest: seq<T>, cap: nat)
    requires cap >= 1 && |log| <= cap
    ensures KeepLast(Push(log, x, cap) + rest, cap) == KeepLast(log + [x] + rest, cap)
  {
    PushIsKeepLast(log, x, cap);
    KeepLastAppend(log + [x], rest, cap);
  }

  /** A push is `KeepLast` of the log with the entry appended, when the log is within its cap. */
  lemma PushIsKeepLast<T>(log: seq<T>, x: T, cap: nat)
    requires cap >= 1 && |log| <= cap
    ensures Push(log, x, cap) == KeepLast(log + [x], cap)
  {
  }

  /** Keeping the last entries before appending more changes nothing once they are kept again. */
  lemma KeepLastAppend<T>(a: seq<T>, b: seq<T>, cap: nat)
    ensures KeepLast(KeepLast(a, cap) + b, cap) == KeepLast(a + b, cap)
  {
    if |a| > cap {
      var k := |a| - cap;
      assert KeepLast(a, cap) == a[k..];
      assert (a + b)[k..] == a[k..] + b;
      KeepLastSuffix(a + b, k, cap);
    } else {
      assert KeepLast(a, cap) == a;
    }
  }

  /** Dropping a prefix that `KeepLast` would drop anyway changes nothing. */
  lemma KeepLastSuffix<T>(xs: seq<T>, k: nat, cap: nat)
    requires k <= |xs|
    requires k == 0 || |xs| - k >= cap
    ensures KeepLast(xs[k..], cap) == KeepLast(xs, cap)
  {
    if k > 0 {
      assert xs[k..][|xs| - k - cap..] == xs[|xs| - cap..];
    }
  }

  // ---------------------------------------------------------------- control sequences

  const Esc: char := '\U{001B}'

  predicate IsParam(c: char) { '0' <= c <= '9' || c == ';' }

  /** The final letters the filter recognises: colour, cursor movement and erasing. */
  predicate IsFinal(c: char) { c in "mGKHFJABCDu" }

  /** The number of parameter characters at the start of `s`. */
  function ParamRun(s: string): (n: nat)
    ensures n <= |s|
    ensures forall i :: 0 <= i < n ==> IsParam(s[i])
    ensures n < |s| ==> !IsParam(s[n])
  {
    if s != [] && IsParam(s[0]) then 1 + ParamRun(s[1..]) else 0
  }

  /** The length of the control sequence `ESC [ params final` that `s` starts with, if any. */
  function CsiLength(s: string): (r: nat)
    ensures r <= |s|
    ensures r > 0 ==> r >= 3 && s[0] == Esc && s[1] == '[' && IsFinal(s[r - 1])
                      && forall i :: 2 <= i < r - 1 ==> IsParam(s[i])
  {
    if |s| >= 2 && s[0] == Esc && s[1] == '[' then
      var k := ParamRun(s[2..]);
      if 2 + k < |s| && IsFinal(s[2 + k]) then 3 + k else 0
    else 0
  }

  /** `s.replace(/\x1b\[[0-9;]*[mGKHFJABCDu]/g, "")`: scanning from the left, every control
      sequence found is removed and every other character is kept. */
  function StripCsi(s: string): (r: string)
    ensures |r| <= |s|
    decreases |s|
  {
    if s == [] then []
    else
      var n := CsiLength(s);
      if n > 0 then StripCsi(s[n..]) else [s[0]] + StripCsi(s[1..])
  }

  /** Text written with styling: plain runs and control sequences. */
  datatype Piece = Plain(text: string) | Code(params: string, final: char)
  {
    ghost predicate Valid() {
      match this
      case Plain(t) => Esc !in t
      case Code(p, f) => (forall i :: 0 <= i < |p| ==> IsParam(p[i])) && IsFinal(f)
    }
  }

  /** What a program writes to its terminal. */
  function Render(ps: seq<Piece>): string {
    if ps == [] then []
    else
      var head := match ps[0] case Plain(t) => t case Code(p, f) => [Esc, '['] + p + [f];
      head + Render(ps[1..])
  }

  /** What a reader sees: the plain runs only. */
  function Visible(ps: seq<Piece>): string {
    if ps == [] then []
    else
      var head := match ps[0] case Plain(t) => t case Code(_, _) => [];
      head + Visible(ps[1..])
  }

  /** Plain text without an escape character passes the filter unchanged. */
  lemma {:induction false} StripPlain(t: string, rest: string)
    requires Esc !in t
    ensures StripCsi(t + rest) == t + StripCsi(rest)
    decreases |t|
  {
    if t != [] {
      var s := t + rest;
      assert s[0] == t[0] != Esc;
      assert CsiLength(s) == 0;
      assert s[1..] == t[1..] + rest;
      assert StripCsi(s) == [t[0]] + StripCsi(t[1..] + rest);
      StripPlain(t[1..], rest);
      assert [t[0]] + (t[1..] + StripCsi(rest)) == t + StripCsi(rest);
    } else {
      assert t + rest == rest;
    }
  }

  /** A control sequence at the front is removed whole. */
  lemma StripCode(p: string, f: char, rest: string)
    requires forall i :: 0 <= i < |p| ==> IsParam(p[i])
    requires IsFinal(f)
    ensures StripCsi([Esc, '['] + p + [f] + rest) == StripCsi(rest)
  {
    var s := [Esc, '['] + p + [f] + rest;
    assert s[2..] == p + [f] + rest;
    ParamRunOf(p, [f] + rest);
    assert p + [f] + rest == p + ([f] + rest);
    assert s[2 + |p|] == f;
    assert s[3 + |p|..] == rest;
  }

  lemma {:induction false} ParamRunOf(p: string, rest: string)
    requires forall i :: 0 <= i < |p| ==> IsParam(p[i])
    requires rest != [] && !IsParam(rest[0])
    ensures ParamRun(p + rest) == |p|
    decreases |p|
  {
    if p != [] {
      assert (p + rest)[1..] == p[1..] + rest;
      ParamRunOf(p[1..], rest);
    } else {
      assert p + rest == rest;
    }
  }

  /** The filter shows exactly the plain runs of styled text. */
  lemma {:induction false} StripRender(ps: seq<Piece>)
    requires forall i :: 0 <= i < |ps| ==> ps[i].Valid()
    ensures StripCsi(Render(ps)) == Visible(ps)
  {
    if ps != [] {
      StripRender(ps[1..]);
      match ps[0]
      case Plain(t) =>
        StripPlain(t, Render(ps[1..]));
      case Code(p, f) =>
        assert [Esc, '['] + p + [f] + Render(ps[1..]) == Render(ps);
        StripCode(p, f, Render(ps[1..]));
    }
  }

  // ---------------------------------------------------------------- the output log

  const OutputCap: nat := 1000
  const DebugCap: nat := 500

  /** An output line as the panel shows it. */
  datatype Line = Out(text: string)

  /** The older page's `pty.onData` handler: the chunk without control sequences and
      surrounding white space is appended, unless nothing is left of it. */
  function OnData(output: seq<Line>, chunk: string): (r: seq<Line>)
    ensures AllSpace(StripCsi(chunk)) ==> r == output
    ensures !AllSpace(StripCsi(chunk)) ==>
      && |r| >= 1
      && r[..|r| - 1] == KeepLast(output, OutputCap - 1)
      && r[|r| - 1].text == Trim(StripCsi(chunk)) != ""
    ensures |output| <= OutputCap ==> |r| <= OutputCap
  {
    var clean := Trim(StripCsi(chunk));
    TrimEmptyIff(StripCsi(chunk));
    if clean == "" then output else Push(output, Out(clean), OutputCap)
  }

  /** Styled output is logged as its visible text, and styling alone logs nothing. */
  lemma OnDataStyled(output: seq<Line>, ps: seq<Piece>)
    requires forall i :: 0 <= i < |ps| ==> ps[i].Valid()
    requires |output| <= OutputCap
    ensures AllSpace(Visible(ps)) ==> OnData(output, Render(ps)) == output
    ensures !AllSpace(Visible(ps)) ==> OnData(output, Render(ps)) == Push(output, Out(Trim(Visible(ps))), OutputCap)
  {
    StripRender(ps);
    TrimEmptyIff(Visible(ps));
  }
}

=== FILE: scanner.dfy ===
/** The host's `buildTree`: a snapshot of a directory as nested nodes, at most seven
    levels deep, without ignored or dot-named entries, directories before files and
    each group in collation order. A directory that cannot be listed is empty. */
module Scanner {
  import opened Wrappers
  import opened Text
  import opened Ordering
  import opened Fs

  /** Listing stops below this depth: a call at a greater depth yields no entries. */
  const MaxDepth: nat := 6

  /** Names never shown in the tree. */
  const Ignored: set<string> := {
    "node_modules", ".git", ".DS_Store", "dist", "build",
    ".next", ".nuxt", ".vite", "__pycache__", ".cache",
    "coverage", ".nyc_output", ".turbo"
  }

  /** An entry the scan skips: an ignored name or any dot-named entry. */
  predicate Hidden(n: string) {
    n in Ignored || StartsWith(n, ".")
  }

  /** A node of the tree sent to the renderer; `path` is the absolute path string. */
  datatype TreeNode =
    | FileNode(name: string, path: string)
    | DirNode(name: string, path: string, children: seq<TreeNode>)

  /** The sort comparator: directories first, then names under the collation `lt`. */
  function EntryOrder(fs: FileSystem, dir: Path, lt: (string, string) -> bool): (string, string) -> bool {
    (a: string, b: string) =>
      var da := IsDir(fs, dir + [a]);
      var db := IsDir(fs, dir + [b]);
      (da && !db) || (da == db && lt(a, b))
  }

  lemma EntryOrderTotal(fs: FileSystem, dir: Path, lt: (string, string) -> bool)
    requires StrictTotal(lt)
    ensures StrictTotal(EntryOrder(fs, dir, lt))
  {
  }

  /** The levels left before the depth cap; it shrinks on every descent. */
  function Budget(depth: nat): nat {
    if depth > MaxDepth then 0 else MaxDepth + 1 - depth
  }

  /** The names a scan of `dir` shows. */
  function Visible(names: set<string>): (r: set<string>)
    ensures forall n :: n in r <==> n in names && !Hidden(n)
  {
    set n | n in names && !Hidden(n)
  }

  /** What a correct snapshot of `dir` scanned at `depth` is: empty past the depth cap or
      when `dir` cannot be listed; otherwise one node per visible child, each at the
      joined path with the child's kind, in comparator order, directories holding the
      snapshot of themselves one level deeper. */
  ghost predicate IsSnapshot(fs: FileSystem, dir: Path, depth: nat, lt: (string, string) -> bool, r: seq<TreeNode>)
    decreases Budget(depth)
  {
    if depth > MaxDepth || ReadDir(fs, dir).None? then r == []
    else
      && (forall n :: n in Names(r) <==> n in Visible(ReadDir(fs, dir).value))
      && Increasing(EntryOrder(fs, dir, lt), Names(r))
      && (forall i :: 0 <= i < |r| ==> Placed(fs, dir, r[i]))
      && (forall i :: 0 <= i < |r| ==> r[i].DirNode? ==>
            IsSnapshot(fs, dir + [r[i].name], depth + 1, lt, r[i].children))
  }

  /** The names of a list of nodes, in order. */
  function Names(r: seq<TreeNode>): (ns: seq<string>)
    ensures |ns| == |r|
    ensures forall i :: 0 <= i < |r| ==> ns[i] == r[i].name
  {
    if r == [] then [] else [r[0].name] + Names(r[1..])
  }

  /** A node names a child of `dir`, carries its joined path, and has its kind. */
  predicate Placed(fs: FileSystem, dir: Path, node: TreeNode) {
    && node.path == Render(dir + [node.name])
    && (node.DirNode? <==> IsDir(fs, dir + [node.name]))
  }

  /** `buildTree(dir, depth)` on the path `dir`, with `lt` as `localeCompare`. */
  function BuildTree(fs: FileSystem, dir: Path, depth: nat, lt: (string, string) -> bool): (r: seq<TreeNode>)
    requires StrictTotal(lt)
    ensures IsSnapshot(fs, dir, depth, lt, r)
    decreases Budget(depth), 3, 0
  {
    if depth > MaxDepth then []
    else
      match ReadDir(fs, dir)
      case None => []
      case Some(names) => ListDir(fs, dir, depth, lt, names)
  }

  /** A listable directory below the cap: its visible children sorted, then made into nodes. */
  function ListDir(fs: FileSystem, dir: Path, depth: nat, lt: (string, string) -> bool, names: set<string>): (r: seq<TreeNode>)
    requires StrictTotal(lt) && depth <= MaxDepth && ReadDir(fs, dir) == Some(names)
    ensures IsSnapshot(fs, dir, depth, lt, r)
    decreases Budget(depth), 2, 0
  {
    EntryOrderTotal(fs, dir, lt);
    var order := SortSet(Visible(names), EntryOrder(fs, dir, lt));
    var r := MakeNodes(fs, dir, depth, lt, order);
    assert Names(r) == order;
    r
  }

  /** The `map` step of `buildTree`: one node per name, in the given order. */
  function MakeNodes(fs: FileSystem, dir: Path, depth: nat, lt: (string, string) -> bool, names: seq<string>): (r: seq<TreeNode>)
    requires StrictTotal(lt) && depth <= MaxDepth
    ensures |r| == |names|
    ensures forall i :: 0 <= i < |r| ==> r[i].name == names[i] && Placed(fs, dir, r[i])
    ensures forall i :: 0 <= i < |r| ==> r[i].DirNode? ==>
              IsSnapshot(fs, dir + [r[i].name], depth + 1, lt, r[i].children)
    decreases Budget(depth), 1, |names|
  {
    if names == [] then []
    else [MakeNode(fs, dir, depth, lt, names[0])] + MakeNodes(fs, dir, depth, lt, names[1..])
  }

  /** One entry: a file node, or a directory node with the scan one level deeper. */
  function MakeNode(fs: FileSystem, dir: Path, depth: nat, lt: (string, string) -> bool, name: string): (r: TreeNode)
    requires StrictTotal(lt) && depth <= MaxDepth
    ensures r.name == name && Placed(fs, dir, r)
    ensures r.DirNode? ==> IsSnapshot(fs, dir + [name], depth + 1, lt, r.children)
    decreases Budget(depth), 0, 0
  {
    var fp := dir + [name];
    if IsDir(fs, fp) then DirNode(name, Render(fp), BuildTree(fs, fp, depth + 1, lt))
    else FileNode(name, Render(fp))
  }

  /** The snapshot is determined by the filesystem: any two lists meeting `IsSnapshot`
      for the same directory and depth are equal, so `BuildTree` is the only one. */
  lemma {:induction false} SnapshotUnique(fs: FileSystem, dir: Path, depth: nat, lt: (string, string) -> bool,
                                          a: seq<TreeNode>, b: seq<TreeNode>)
    requires StrictTotal(lt)
    requires IsSnapshot(fs, dir, depth, lt, a) && IsSnapshot(fs, dir, depth, lt, b)
    ensures a == b
    decreases Budget(depth), 1
  {
    if depth <= MaxDepth && ReadDir(fs, dir).Some? {
      EntryOrderTotal(fs, dir, lt);
      IncreasingUnique(EntryOrder(fs, dir, lt), Names(a), Names(b));
      forall i | 0 <= i < |a|
        ensures a[i] == b[i]
      {
        assert a[i].name == Names(a)[i] == Names(b)[i] == b[i].name;
        NodeUnique(fs, dir, depth, lt, a[i], b[i]);
      }
    }
  }

  /** Two nodes for the same child of `dir`, each with a snapshot below it, are equal. */
  lemma {:induction false} NodeUnique(fs: FileSystem, dir: Path, depth: nat, lt: (string, string) -> bool,
                                      x: TreeNode, y: TreeNode)
    requires StrictTotal(lt) && depth <= MaxDepth
    requires x.name == y.name && Placed(fs, dir, x) && Placed(fs, dir, y)
    requires x.DirNode? ==> IsSnapshot(fs, dir + [x.name], depth + 1, lt, x.children)
    requires y.DirNode? ==> IsSnapshot(fs, dir + [y.name], depth + 1, lt, y.children)
    ensures x == y
    decreases Budget(depth), 0
  {
    if x.DirNode? {
      SnapshotUnique(fs, dir + [x.name], depth + 1, lt, x.children, y.children);
    }
  }

  /** The nodes of a snapshot, every level flattened in pre-order. */
  function AllNodes(r: seq<TreeNode>): seq<TreeNode>
    decreases r
  {
    if r == [] then []
    else
      [r[0]] + (if r[0].DirNode? then AllNodes(r[0].children) else []) + AllNodes(r[1..])
  }

  /** How many levels of nodes a list holds. */
  function Height(r: seq<TreeNode>): nat
    decreases r
  {
    if r == [] then 0
    else
      var below := if r[0].DirNode? then Height(r[0].children) else 0;
      var rest := Height(r[1..]);
      var here := 1 + below;
      if here >= rest then here else rest
  }

  /** No node of the list has an ignored or dot-named entry's name. */
  predicate NoneHidden(ns: seq<TreeNode>) {
    forall i :: 0 <= i < |ns| ==> !Hidden(ns[i].name)
  }

  lemma NoneHiddenConcat(a: seq<TreeNode>, b: seq<TreeNode>)
    requires NoneHidden(a) && NoneHidden(b)
    ensures NoneHidden(a + b)
  {
    forall i | |a| <= i < |a + b|
      ensures (a + b)[i] == b[i - |a|]
    {
    }
  }

  /** No snapshot shows an ignored or dot-named entry, at any level. */
  lemma {:induction false} SnapshotClean(fs: FileSystem, dir: Path, depth: nat, lt: (string, string) -> bool, r: seq<TreeNode>)
    requires IsSnapshot(fs, dir, depth, lt, r)
    ensures NoneHidden(AllNodes(r))
    decreases Budget(depth)
  {
    if r != [] {
      forall i | 0 <= i < |r|
        ensures !Hidden(r[i].name)
        ensures r[i].DirNode? ==> NoneHidden(AllNodes(r[i].children))
      {
        assert r[i].name == Names(r)[i];
        assert r[i].name in Names(r);
        if r[i].DirNode? {
          SnapshotClean(fs, dir + [r[i].name], depth + 1, lt, r[i].children);
        }
      }
      CleanFromChildren(r);
    }
  }

  /** A list is clean at every level when its own names are and every directory's nodes are. */
  lemma {:induction false} CleanFromChildren(r: seq<TreeNode>)
    requires forall i :: 0 <= i < |r| ==> !Hidden(r[i].name)
    requires forall i :: 0 <= i < |r| && r[i].DirNode? ==> NoneHidden(AllNodes(r[i].children))
    ensures NoneHidden(AllNodes(r))
  {
    if r != [] {
      var below := if r[0].DirNode? then AllNodes(r[0].children) else [];
      assert forall i :: 0 <= i < |r| - 1 ==> r[1..][i] == r[i + 1];
      CleanFromChildren(r[1..]);
      NoneHiddenConcat([r[0]], below);
      NoneHiddenConcat([r[0]] + below, AllNodes(r[1..]));
    }
  }

  /** A snapshot taken at `depth` has at most `Budget(depth)` levels: seven from the top. */
  lemma {:induction false} SnapshotHeight(fs: FileSystem, dir: Path, depth: nat, lt: (string, string) -> bool, r: seq<TreeNode>)
    requires IsSnapshot(fs, dir, depth, lt, r)
    ensures Height(r) <= Budget(depth)
    decreases Budget(depth)
  {
    if r != [] {
      assert Budget(depth + 1) + 1 == Budget(depth);
      forall i | 0 <= i < |r| && r[i].DirNode?
        ensures Height(r[i].children) <= Budget(depth + 1)
      {
        SnapshotHeight(fs, dir + [r[i].name], depth + 1, lt, r[i].children);
      }
      HeightFromChildren(r, Budget(depth + 1));
    }
  }

  /** A list whose directories hold at most `b` levels has at most `b + 1` levels. */
  lemma {:induction false} HeightFromChildren(r: seq<TreeNode>, b: nat)
    requires forall i :: 0 <= i < |r| && r[i].DirNode? ==> Height(r[i].children) <= b
    ensures Height(r) <= b + 1
  {
    if r != [] {
      assert forall i :: 0 <= i < |r| - 1 ==> r[1..][i] == r[i + 1];
      HeightFromChildren(r[1..], b);
    }
  }

  /** On a well-formed filesystem every top-level node's path string resolves back to the
      entry it was listed from. Deeper levels follow by applying the lemma to a directory
      node's children, which `IsSnapshot` gives as the snapshot one level down. */
  lemma SnapshotPathsResolve(fs: FileSystem, dir: Path, depth: nat, lt: (string, string) -> bool, r: seq<TreeNode>)
    requires Wf(fs) && IsSnapshot(fs, dir, depth, lt, r)
    ensures forall i :: 0 <= i < |r| ==> dir + [r[i].name] in fs && Resolve(r[i].path) == Some(dir + [r[i].name])
  {
    forall i | 0 <= i < |r|
      ensures dir + [r[i].name] in fs && Resolve(r[i].path) == Some(dir + [r[i].name])
    {
      assert r[i].name == Names(r)[i];
      assert r[i].name in Names(r);
      ResolveRender(dir + [r[i].name]);
    }
  }
}

=== FILE: session.dfy ===
/** The host's single pseudo-terminal slot (`ptyProc` with `spawnPty` and the handlers
    that use it). Every shell the host ever started is kept in `procs`, indexed by the
    order of spawning, so that a shell which left the slot but still runs can be named. */
module Session {
  import opened Wrappers

  /** The size `spawnPty` starts every shell with. */
  const InitialCols: int := 120
  const InitialRows: int := 30

  /** One shell: where it started, its size, everything written to it, and whether
      it was sent a kill or has exited. */
  datatype Proc = Proc(cwd: string, cols: int, rows: int, input: seq<string>, killed: bool, exited: bool)
  {
    predicate Live() { !killed && !exited }
  }

  /** The processes started so far and the one in the slot, if any. */
  datatype Slot = Slot(procs: seq<Proc>, current: Option<nat>)
  {
    ghost predicate Valid() {
      current.Some? ==> current.value < |procs|
    }
  }

  const Empty: Slot := Slot([], None)

  /** The shells still running that the slot no longer holds: nothing can write to,
      resize or kill them any more. */
  function Orphans(s: Slot): (r: set<nat>)
    ensures forall i :: i in r <==> 0 <= i < |s.procs| && s.procs[i].Live() && s.current != Some(i)
  {
    set i | 0 <= i < |s.procs| && s.procs[i].Live() && s.current != Some(i)
  }

  /** `ptyProc.kill()` on the shell in the slot, when there is one; the slot keeps it. */
  function KillCurrent(s: Slot): (r: Slot)
    requires s.Valid()
    ensures r.Valid() && |r.procs| == |s.procs| && r.current == s.current
    ensures s.current.Some? ==> r.procs[s.current.value].killed
    ensures forall i :: 0 <= i < |s.procs| && s.current != Some(i) ==> r.procs[i] == s.procs[i]
  {
    match s.current
    case None => s
    case Some(c) => s.(procs := s.procs[c := s.procs[c].(killed := true)])
  }

  /** `spawnPty(cwd)`: the shell in the slot is killed and dropped, then a new shell of
      the initial size starts in `cwd`, or in `home` when `cwd` is empty. When starting
      throws (`fails`), the slot stays empty and the second component is false. */
  function Spawn(s: Slot, cwd: string, home: string, fails: bool): (r: (Slot, bool))
    requires s.Valid()
    ensures r.0.Valid()
    ensures r.1 == !fails
    ensures r.1 ==> |r.0.procs| == |s.procs| + 1 && r.0.current == Some(|s.procs|)
    ensures r.1 ==> r.0.procs[|s.procs|] == Proc(if cwd == "" then home else cwd, InitialCols, InitialRows, [], false, false)
    ensures !r.1 ==> |r.0.procs| == |s.procs| && r.0.current.None?
    ensures s.current.Some? ==> r.0.procs[s.current.value].killed
    ensures forall i :: 0 <= i < |s.procs| && s.current != Some(i) ==> r.0.procs[i] == s.procs[i]
  {
    var k := KillCurrent(s).(current := None);
    if fails then (k, false)
    else
      var p := Proc(if cwd == "" then home else cwd, InitialCols, InitialRows, [], false, false);
      (Slot(k.procs + [p], Some(|k.procs|)), true)
  }

  /** `ptyProc?.write(data)`: appended to the input of the shell in the slot; nothing
      happens when the slot is empty. */
  function Write(s: Slot, data: string): (r: Slot)
    requires s.Valid()
    ensures r.Valid() && |r.procs| == |s.procs| && r.current == s.current
    ensures s.current.None? ==> r == s
    ensures s.current.Some? ==> r.procs[s.current.value] == s.procs[s.current.value].(input := s.procs[s.current.value].input + [data])
    ensures forall i :: 0 <= i < |s.procs| && s.current != Some(i) ==> r.procs[i] == s.procs[i]
  {
    match s.current
    case None => s
    case Some(c) => s.(procs := s.procs[c := s.procs[c].(input := s.procs[c].input + [data])])
  }

  /** `ptyProc?.resize(cols, rows)`. */
  function Resize(s: Slot, cols: int, rows: int): (r: Slot)
    requires s.Valid()
    ensures r.Valid() && |r.procs| == |s.procs| && r.current == s.current
    ensures s.current.None? ==> r == s
    ensures s.current.Some? ==> r.procs[s.current.value] == s.procs[s.current.value].(cols := cols, rows := rows)
    ensures forall i :: 0 <= i < |s.procs| && s.current != Some(i) ==> r.procs[i] == s.procs[i]
  {
    match s.current
    case None => s
    case Some(c) => s.(procs := s.procs[c := s.procs[c].(cols := cols, rows := rows)])
  }

  /** Marks shell `id` as exited. */
  function Exited(s: Slot, id: nat): (r: seq<Proc>)
    ensures |r| == |s.procs|
    ensures id < |s.procs| ==> r[id] == s.procs[id].(exited := true)
    ensures forall i :: 0 <= i < |s.procs| && i != id ==> r[i] == s.procs[i]
  {
    if id < |s.procs| then s.procs[id := s.procs[id].(exited := true)] else s.procs
  }

  /** The exit handler `spawnPty` installs: the shell is marked exited and the slot is
      emptied (`ptyProc = null`), whichever shell it was. */
  function Exit(s: Slot, id: nat): (r: Slot)
    requires s.Valid() && id < |s.procs|
    ensures r.Valid() && r.current.None? && |r.procs| == |s.procs|
    ensures r.procs[id] == s.procs[id].(exited := true)
    ensures forall i :: 0 <= i < |s.procs| && i != id ==> r.procs[i] == s.procs[i]
  {
    Slot(Exited(s, id), None)
  }

  // ---------------------------------------------------------------- orphaned shells

  /** Spawning never leaves a running shell behind: the shell it replaces was killed. */
  lemma SpawnNoNewOrphans(s: Slot, cwd: string, home: string, fails: bool)
    requires s.Valid()
    ensures Orphans(Spawn(s, cwd, home, fails).0) == Orphans(s)
  {
    var r := Spawn(s, cwd, home, fails).0;
    forall i | i in Orphans(r)
      ensures i in Orphans(s)
    {
      assert i < |s.procs|;
    }
  }

  /** The exit of a shell that already left the slot empties the slot while its newer
      shell still runs: that shell becomes an orphan. */
  lemma StaleExitOrphans(s: Slot, id: nat)
    requires s.Valid() && id < |s.procs| && s.current.Some? && s.current != Some(id)
    requires s.procs[s.current.value].Live()
    ensures s.current.value in Orphans(Exit(s, id))
  {
  }

  /** Exactly how an exit changes the orphans: the exiting shell is no longer one, and the
      shell in the slot becomes one unless it is the shell that exited. */
  lemma ExitOrphans(s: Slot, id: nat)
    requires s.Valid() && id < |s.procs|
    ensures Orphans(Exit(s, id)) ==
      (Orphans(s) - {id})
      + (if s.current.Some? && s.current != Some(id) && s.procs[s.current.value].Live() then {s.current.value} else {})
  {
    var r := Exit(s, id);
    var extra := if s.current.Some? && s.current != Some(id) && s.procs[s.current.value].Live() then {s.current.value} else {};
    forall i | i in Orphans(r)
      ensures i in (Orphans(s) - {id}) + extra
    {
      assert i != id && r.procs[i] == s.procs[i];
    }
  }

  /** The sequence that produces a stale exit: `workspace:set` replaces the shell the
      window started, then the replaced shell reports its exit. The new shell runs on,
      out of reach, and the next `pty:run` starts yet another one. */
  lemma ReplacedShellExitOrphansNewShell(home: string, dir: string)
    requires dir != ""
    ensures
      var s1 := Spawn(Empty, home, home, false).0;
      var s2 := Spawn(s1, dir, home, false).0;
      var s3 := Exit(s2, 0);
      1 in Orphans(s3) && s3.procs[1].cwd == dir
  {
    var s1 := Spawn(Empty, home, home, false).0;
    var s2 := Spawn(s1, dir, home, false).0;
    StaleExitOrphans(s2, 0);
  }

  // ---------------------------------------------------------------- the intended exit

  /** The exit handler as evidently intended: the shell is marked exited, and the slot is
      emptied only when it still holds that shell. */
  function ExitOwn(s: Slot, id: nat): (r: Slot)
    requires s.Valid() && id < |s.procs|
    ensures r.Valid() && |r.procs| == |s.procs|
    ensures r.procs[id] == s.procs[id].(exited := true)
    ensures forall i :: 0 <= i < |s.procs| && i != id ==> r.procs[i] == s.procs[i]
    ensures r.current == if s.current == Some(id) then None else s.current
  {
    Slot(Exited(s, id), if s.current == Some(id) then None else s.current)
  }

  /** With the intended handler an exit never makes an orphan: the exiting shell simply
      stops being one. */
  lemma ExitOwnOrphans(s: Slot, id: nat)
    requires s.Valid() && id < |s.procs|
    ensures Orphans(ExitOwn(s, id)) == Orphans(s) - {id}
  {
    var r := ExitOwn(s, id);
    forall i | i in Orphans(r)
      ensures i in Orphans(s) - {id}
    {
      assert i != id && r.procs[i] == s.procs[i];
    }
  }

  /** The stale exit of the replaced shell leaves the new shell in the slot under the
      intended handler, still reachable by `pty:run`, `pty:resize` and `pty:stop`. */
  lemma ReplacedShellExitKeepsNewShell(home: string, dir: string)
    requires dir != ""
    ensures
      var s1 := Spawn(Empty, home, home, false).0;
      var s2 := Spawn(s1, dir, home, false).0;
      var s3 := ExitOwn(s2, 0);
      s3.current == Some(1) && s3.procs[1].cwd == dir && 1 !in Orphans(s3)
  {
  }
}

=== FILE: studio.dfy ===
/** The editor page (`StudioPage`): the open tabs, the active file, running the active file
    in the shared terminal, and the explorer's context actions. Every request the page makes
    of the host is appended to `sent`; what the host answers is a parameter of the step that
    waits for it. */
module Studio {
  import opened Wrappers
  import opened Text
  import opened Languages
  import opened Logs
  import Boundary

  /** An explorer entry (`{type, name, path}`). */
  datatype Kind = FileKind | DirectoryKind
  datatype Node = Node(kind: Kind, name: string, path: string)

  /** An open tab. */
  datatype OpenFile = OpenFile(name: string, path: string, content: string, dirty: bool)

  datatype State = State(
    workspace: Option<string>,
    files: seq<OpenFile>,
    active: Option<OpenFile>,
    running: bool,
    output: seq<Line>,
    debug: seq<string>,
    sent: seq<Boundary.Call>)
  {
    /** No two tabs show the same path, the active file is one of the tabs, and the debug
        log stays within its cap. */
    ghost predicate Valid() {
      && DistinctPaths(files)
      && (active.Some? ==> active.value in files)
      && |debug| <= DebugCap
    }
  }

  const Initial: State := State(None, [], None, false, [], [], [])

  ghost predicate DistinctPaths(files: seq<OpenFile>) {
    forall i, j :: 0 <= i < j < |files| ==> files[i].path != files[j].path
  }

  predicate IsOpen(files: seq<OpenFile>, path: string) {
    exists i :: 0 <= i < |files| && files[i].path == path
  }

  /** `openFiles.find(f => f.path === path)`. */
  function Find(files: seq<OpenFile>, path: string): (r: Option<OpenFile>)
    ensures r.Some? <==> IsOpen(files, path)
    ensures r.Some? ==> r.value in files && r.value.path == path
  {
    if files == [] then None
    else if files[0].path == path then Some(files[0])
    else
      var rest := Find(files[1..], path);
      assert forall i :: 1 <= i < |files| ==> files[i] == files[1..][i - 1];
      rest
  }

  /** `dbg(msg)`: the newest 500 debug entries are kept (the time stamp is not modelled). */
  function Dbg(s: State, msg: string): (r: State)
    ensures r == s.(debug := r.debug) && |r.debug| >= 1
    ensures |s.debug| <= DebugCap ==> |r.debug| <= DebugCap
    ensures r.debug[|r.debug| - 1] == msg
    ensures r.debug[..|r.debug| - 1] == KeepLast(s.debug, DebugCap - 1)
  {
    s.(debug := Push(s.debug, msg, DebugCap))
  }

  /** `openWorkspace(dir)`. */
  function OpenWorkspace(s: State, dir: string): (r: State)
    requires s.Valid()
    ensures r.Valid()
    ensures r.workspace == Some(dir) && r.files == s.files && r.active == s.active
    ensures r.sent == s.sent + [Boundary.SetWorkspace(dir)]
  {
    Dbg(s.(workspace := Some(dir), sent := s.sent + [Boundary.SetWorkspace(dir)]), "Workspace: " + dir)
  }

  // ---------------------------------------------------------------- tabs

  /** `openFile(node)`: a tab already showing the path becomes active; otherwise the file
      is read and, when the host returned its content (`read`), a clean tab is appended
      and made active. */
  function OpenTab(s: State, node: Node, read: Option<string>): (r: State)
    requires s.Valid()
    ensures r.Valid()
    ensures IsOpen(r.files, node.path) <==> IsOpen(s.files, node.path) || read.Some?
    ensures IsOpen(r.files, node.path) ==> r.active.Some? && r.active.value.path == node.path
    ensures IsOpen(s.files, node.path) ==> r.files == s.files && r.sent == s.sent
    ensures !IsOpen(s.files, node.path) ==> r.sent == s.sent + [Boundary.Read(node.path)]
    ensures !IsOpen(s.files, node.path) && read.Some? ==>
      r.files == s.files + [OpenFile(node.name, node.path, read.value, false)]
    ensures !IsOpen(s.files, node.path) && read.None? ==> r.files == s.files && r.active == s.active
    ensures r.running == s.running && r.workspace == s.workspace && r.debug == s.debug
  {
    match Find(s.files, node.path)
    case Some(f) => s.(active := Some(f))
    case None =>
      var asked := s.(sent := s.sent + [Boundary.Read(node.path)]);
      if read.None? then asked
      else
        var f := OpenFile(node.name, node.path, read.value, false);
        assert forall i :: 0 <= i < |s.files| ==> s.files[i].path != node.path;
        assert (s.files + [f])[|s.files|] == f;
        asked.(files := s.files + [f], active := Some(f))
  }

  /** An edit of one tab. */
  datatype Edit = Typed(content: string) | Saved

  function ApplyEdit(f: OpenFile, e: Edit): (r: OpenFile)
    ensures r.path == f.path && r.name == f.name
  {
    match e
    case Typed(c) => f.(content := c, dirty := true)
    case Saved => f.(dirty := false)
  }

  /** `files.map(x => x.path === path ? edited(x) : x)`. */
  function EditPath(files: seq<OpenFile>, path: string, e: Edit): (r: seq<OpenFile>)
    ensures |r| == |files|
    ensures forall i :: 0 <= i < |files| ==> r[i].path == files[i].path && r[i].name == files[i].name
    ensures forall i :: 0 <= i < |files| && files[i].path != path ==> r[i] == files[i]
    ensures forall i :: 0 <= i < |files| && files[i].path == path ==> r[i] == ApplyEdit(files[i], e)
  {
    seq(|files|, i requires 0 <= i < |files| => if files[i].path == path then ApplyEdit(files[i], e) else files[i])
  }

  /** The same edit applied to the tab list and to the active file. */
  function EditBoth(s: State, path: string, e: Edit): (r: State)
    requires s.Valid()
    ensures r.Valid()
    ensures r.active.Some? <==> s.active.Some?
    ensures r.sent == s.sent && r.running == s.running && r.debug == s.debug
  {
    var files := EditPath(s.files, path, e);
    var active := if s.active.Some? && s.active.value.path == path then Some(ApplyEdit(s.active.value, e)) else s.active;
    assert active.Some? ==> active.value in files by {
      if s.active.Some? {
        var k :| 0 <= k < |s.files| && s.files[k] == s.active.value;
        assert files[k] == active.value;
      }
    }
    s.(files := files, active := active)
  }

  /** `changeFile(path, val)`: the tab showing `path` gets the new text and is marked dirty. */
  function ChangeFile(s: State, path: string, val: string): (r: State)
    requires s.Valid()
    ensures r.Valid()
    ensures |r.files| == |s.files|
    ensures forall i :: 0 <= i < |s.files| ==>
      r.files[i] == if s.files[i].path == path then s.files[i].(content := val, dirty := true) else s.files[i]
    ensures s.active.Some? && s.active.value.path == path ==> r.active == Some(s.active.value.(content := val, dirty := true))
    ensures s.active.Some? && s.active.value.path != path ==> r.active == s.active
    ensures r.sent == s.sent
  {
    EditBoth(s, path, Typed(val))
  }

  /** The tabs whose path `drop` does not select, in their order. */
  function Keep(files: seq<OpenFile>, drop: string -> bool): (r: seq<OpenFile>)
    ensures |r| <= |files|
    ensures forall f :: f in r <==> f in files && !drop(f.path)
    ensures DistinctPaths(files) ==> DistinctPaths(r)
  {
    if files == [] then []
    else
      var rest := Keep(files[1..], drop);
      assert forall f :: f in files[1..] ==> f in files;
      if drop(files[0].path) then rest
      else
        assert DistinctPaths(files) ==> forall f :: f in files[1..] ==> f.path != files[0].path;
        [files[0]] + rest
  }

  /** `closeTab(node)`: the tab is removed; when it was active, the last remaining tab
      becomes active, or none. */
  function CloseTab(s: State, path: string): (r: State)
    requires s.Valid()
    ensures r.Valid()
    ensures !IsOpen(r.files, path)
    ensures forall f :: f in r.files <==> f in s.files && f.path != path
    ensures s.active.Some? && s.active.value.path != path ==> r.active == s.active
    ensures s.active.Some? && s.active.value.path == path ==>
      r.active == if r.files == [] then None else Some(r.files[|r.files| - 1])
    ensures r.sent == s.sent
  {
    var next := Keep(s.files, p => p == path);
    var active :=
      if s.active.Some? && s.active.value.path == path then
        (if next == [] then None else Some(next[|next| - 1]))
      else s.active;
    s.(files := next, active := active)
  }

  /** `save(file)`: the given file, or else the active one, is written, and its tab is
      marked clean whatever the write answered. */
  function Save(s: State, file: Option<OpenFile>): (r: State)
    requires s.Valid()
    ensures r.Valid()
    ensures file.None? && s.active.None? ==> r == s
    ensures file.Some? || s.active.Some? ==>
      var t := if file.Some? then file.value else s.active.value;
      && r.sent == s.sent + [Boundary.Write(t.path, t.content)]
      && (forall f :: f in r.files && f.path == t.path ==> !f.dirty)
      && (r.active.Some? && r.active.value.path == t.path ==> !r.active.value.dirty)
      && |r.debug| >= 1 && r.debug[|r.debug| - 1] == "Saved: " + t.name
      && |r.files| == |s.files|
      && (forall i :: 0 <= i < |s.files| ==>
            r.files[i] == if s.files[i].path == t.path then s.files[i].(dirty := false) else s.files[i])
      && (s.active.Some? && s.active.value.path == t.path ==> r.active == Some(s.active.value.(dirty := false)))
      && (s.active.Some? && s.active.value.path != t.path ==> r.active == s.active)
    ensures |r.files| == |s.files| && r.running == s.running
  {
    var t := if file.Some? then file else s.active;
    if t.None? then s
    else
      var written := s.(sent := s.sent + [Boundary.Write(t.value.path, t.value.content)]);
      Dbg(EditBoth(written, t.value.path, Saved), "Saved: " + t.value.name)
  }

  // ---------------------------------------------------------------- running

  /** The common part of both revisions' `run()`: the run is marked on and the output
      cleared, a dirty active file is saved, then the command goes to the shell. */
  function Launch(s: State, cmd: string): (r: State)
    requires s.Valid()
    ensures r.Valid() && r.running && r.output == []
    ensures r.sent == s.sent + DirtyWrite(s.active) + [Boundary.PtyRun(cmd)]
    ensures |r.debug| >= 1 && r.debug[|r.debug| - 1] == "Run: " + cmd
  {
    var started := s.(running := true, output := []);
    var saved := if s.active.Some? && s.active.value.dirty then Save(started, None) else started;
    Dbg(saved.(sent := saved.sent + [Boundary.PtyRun(cmd)]), "Run: " + cmd)
  }

  /** The write `run()` sends before the command: the active file, when it is dirty. */
  function DirtyWrite(active: Option<OpenFile>): seq<Boundary.Call> {
    if active.Some? && active.value.dirty then [Boundary.Write(active.value.path, active.value.content)] else []
  }

  /** `run()` of the current page: nothing happens without an active file or while a run is
      on; a file whose language has no command is refused with a debug line; otherwise the
      command for its language runs. */
  function Run(s: State): (r: State)
    requires s.Valid()
    ensures r.Valid()
    ensures s.active.None? || s.running ==> r == s
    ensures !s.running && s.active.Some? && RunCommandFor(s.active.value.name, s.active.value.path).None? ==>
      r == Dbg(s, "Cannot run this file type")
    ensures !s.running && s.active.Some? && RunCommandFor(s.active.value.name, s.active.value.path).Some? ==>
      var cmd := RunCommandFor(s.active.value.name, s.active.value.path).value;
      && r.running && r.output == []
      && r.sent == s.sent + DirtyWrite(s.active) + [Boundary.PtyRun(cmd)]
      && |r.debug| >= 1 && r.debug[|r.debug| - 1] == "Run: " + cmd
  {
    if s.active.None? || s.running then s
    else RunFile(s, RunCommandFor(s.active.value.name, s.active.value.path))
  }

  /** The guarded part of `run()`, given the command for the active file, if it has one. */
  function RunFile(s: State, command: Option<string>): (r: State)
    requires s.Valid() && s.active.Some?
    ensures r.Valid()
    ensures command.None? ==> r == Dbg(s, "Cannot run this file type")
    ensures command.Some? ==>
      && r.running && r.output == []
      && r.sent == s.sent + DirtyWrite(s.active) + [Boundary.PtyRun(command.value)]
      && |r.debug| >= 1 && r.debug[|r.debug| - 1] == "Run: " + command.value
  {
    if command.None? then Dbg(s, "Cannot run this file type") else Launch(s, command.value)
  }

  /** `run()` of the older page: no guard and no language check; the active file, or
      `index.js` when there is none, is run with `node`. */
  function RunOld(s: State): (r: State)
    requires s.Valid()
    ensures r.Valid() && r.running && r.output == []
    ensures s.active.None? ==> r.sent == s.sent + [Boundary.PtyRun("node index.js")]
    ensures s.active.Some? ==>
      r.sent == s.sent + DirtyWrite(s.active) + [Boundary.PtyRun(CommandLine("node", s.active.value.path))]
  {
    Launch(s, if s.active.Some? then CommandLine("node", s.active.value.path) else "node index.js")
  }

  /** `stop()`. */
  function Stop(s: State): (r: State)
    requires s.Valid()
    ensures r.Valid() && !r.running
    ensures r.sent == s.sent + [Boundary.PtyStop] && r.files == s.files
    ensures |r.debug| >= 1 && r.debug[|r.debug| - 1] == "Stopped"
  {
    Dbg(s.(sent := s.sent + [Boundary.PtyStop], running := false), "Stopped")
  }

  /** The page's `pty.onExit` listener. */
  function OnExit(s: State, code: int): (r: State)
    requires s.Valid()
    ensures r.Valid() && !r.running
    ensures r.sent == s.sent && r.files == s.files && r.active == s.active
    ensures |r.debug| >= 1 && r.debug[|r.debug| - 1] == "Exit: " + IntToString(code)
  {
    Dbg(s.(running := false), "Exit: " + IntToString(code))
  }

  // ---------------------------------------------------------------- context actions

  /** `sep`: a backslash when the workspace path contains one. */
  function Sep(workspace: string): (r: string)
    ensures r == "\\" <==> '\\' in workspace
    ensures r == "/" <==> '\\' !in workspace
  {
    if '\\' in workspace then "\\" else "/"
  }

  /** `dir(node)`: a folder's own path; for a file, its path without the last component,
      rejoined with `sep`, or the workspace when that leaves nothing; the workspace when
      there is no node. */
  function TargetDir(node: Option<Node>, workspace: string): (r: string)
    ensures node.None? ==> r == workspace
    ensures node.Some? && node.value.kind == DirectoryKind ==> r == node.value.path
    ensures node.Some? && node.value.kind == FileKind && NoneOf(node.value.path, PathSeps) ==> r == workspace
    ensures node.Some? && node.value.kind == FileKind && workspace != "" ==> r != ""
  {
    match node
    case None => workspace
    case Some(n) =>
      if n.kind == DirectoryKind then n.path
      else
        var parts := Split(n.path, PathSeps);
        assert NoneOf(n.path, PathSeps) ==> parts == [n.path] by {
          if NoneOf(n.path, PathSeps) {
            SplitFreePrefix(n.path, "", PathSeps);
            assert n.path + "" == n.path;
          }
        }
        var up := Join(parts[..|parts| - 1], Sep(workspace));
        if up == "" then workspace else up
  }

  /** "New File": the named empty file is created in the target folder and opened. */
  function NewFile(s: State, node: Option<Node>, name: string, read: Option<string>): (r: State)
    requires s.Valid() && s.workspace.Some?
    ensures r.Valid()
    ensures name == "" ==> r == s
    ensures name != "" ==>
      var fp := TargetDir(node, s.workspace.value) + Sep(s.workspace.value) + name;
      && |r.sent| >= |s.sent| + 1
      && r.sent[|s.sent|] == Boundary.Write(fp, "")
      && (read.Some? ==> IsOpen(r.files, fp) && r.active.Some? && r.active.value.path == fp)
    ensures name != "" ==>
      var fp := TargetDir(node, s.workspace.value) + Sep(s.workspace.value) + name;
      && (IsOpen(s.files, fp) ==>
            r.sent == s.sent + [Boundary.Write(fp, "")] && r.files == s.files
            && r.active.Some? && r.active.value.path == fp)
      && (!IsOpen(s.files, fp) ==> r.sent == s.sent + [Boundary.Write(fp, ""), Boundary.Read(fp)])
      && (!IsOpen(s.files, fp) && read.Some? ==> r.files == s.files + [OpenFile(name, fp, read.value, false)])
      && (!IsOpen(s.files, fp) && read.None? ==> r.files == s.files && r.active == s.active)
    ensures r.running == s.running && r.workspace == s.workspace && r.debug == s.debug
  {
    if name == "" then s
    else
      var ws := s.workspace.value;
      var fp := TargetDir(node, ws) + Sep(ws) + name;
      var written := s.(sent := s.sent + [Boundary.Write(fp, "")]);
      OpenTab(written, Node(FileKind, name, fp), read)
  }

  /** "New Folder". */
  function NewFolder(s: State, node: Option<Node>, name: string): (r: State)
    requires s.Valid() && s.workspace.Some?
    ensures r.Valid() && r.files == s.files && r.active == s.active
    ensures name == "" ==> r == s
    ensures name != "" ==>
      r.sent == s.sent + [Boundary.Mkdir(TargetDir(node, s.workspace.value) + Sep(s.workspace.value) + name)]
  {
    if name == "" then s
    else s.(sent := s.sent + [Boundary.Mkdir(TargetDir(node, s.workspace.value) + Sep(s.workspace.value) + name)])
  }

  /** "Rename": an empty or unchanged name does nothing; otherwise the entry is renamed and
      only the tab with exactly its path is closed. Without a node the page throws before
      anything is sent. */
  function RenameEntry(s: State, node: Option<Node>, newName: string): (r: State)
    requires s.Valid()
    ensures r.Valid()
    ensures node.None? || newName == "" || newName == node.value.name ==> r == s
    ensures node.Some? && newName != "" && newName != node.value.name ==>
      && r.sent == s.sent + [Boundary.Rename(node.value.path, newName)]
      && (forall f :: f in r.files <==> f in s.files && f.path != node.value.path)
      && (r.active.Some? <==> s.active.Some? && s.active.value.path != node.value.path)
  {
    if node.None? || newName == "" || newName == node.value.name then s
    else
      var n := node.value;
      var files := Keep(s.files, p => p == n.path);
      var active := if s.active.Some? && s.active.value.path == n.path then None else s.active;
      s.(sent := s.sent + [Boundary.Rename(n.path, newName)], files := files, active := active)
  }

  /** `path` is the deleted entry or lies inside it. */
  predicate Within(path: string, base: string) {
    path == base || StartsWith(path, base + "/") || StartsWith(path, base + "\\")
  }

  /** "Delete" as written: every tab whose path merely starts with the deleted path is
      closed, so deleting `app` also closes `app.js`. */
  function DeleteAsWritten(s: State, node: Option<Node>, confirmed: bool): (r: State)
    requires s.Valid()
    ensures r.Valid()
    ensures !confirmed || node.None? ==> r == s
    ensures confirmed && node.Some? ==>
      && r.sent == s.sent + [Boundary.Delete(node.value.path)]
      && (forall f :: f in r.files <==> f in s.files && !StartsWith(f.path, node.value.path))
  {
    if !confirmed || node.None? then s
    else
      var base := node.value.path;
      var files := Keep(s.files, p => StartsWith(p, base));
      var active := if s.active.Some? && StartsWith(s.active.value.path, base) then None else s.active;
      s.(sent := s.sent + [Boundary.Delete(base)], files := files, active := active)
  }

  /** "Delete": the entry is deleted and exactly the tabs inside it are closed. */
  function DeleteEntry(s: State, node: Option<Node>, confirmed: bool): (r: State)
    requires s.Valid()
    ensures r.Valid()
    ensures !confirmed || node.None? ==> r == s
    ensures confirmed && node.Some? ==>
      && r.sent == s.sent + [Boundary.Delete(node.value.path)]
      && (forall f :: f in r.files <==> f in s.files && !Within(f.path, node.value.path))
      && (r.active.Some? <==> s.active.Some? && !Within(s.active.value.path, node.value.path))
  {
    if !confirmed || node.None? then s
    else
      var base := node.value.path;
      var files := Keep(s.files, p => Within(p, base));
      var active := if s.active.Some? && Within(s.active.value.path, base) then None else s.active;
      s.(sent := s.sent + [Boundary.Delete(base)], files := files, active := active)
  }

  /** "Open in Terminal": the shell changes to the target folder. */
  function OpenTerminal(s: State, node: Option<Node>): (r: State)
    requires s.Valid() && s.workspace.Some?
    ensures r.Valid() && r.files == s.files
    ensures r.sent == s.sent + [Boundary.PtyCd(TargetDir(node, s.workspace.value))]
  {
    s.(sent := s.sent + [Boundary.PtyCd(TargetDir(node, s.workspace.value))])
  }

  // ---------------------------------------------------------------- properties

  /** Opening a file a second time only activates its tab again. */
  lemma OpenTabTwice(s: State, node: Node, read: Option<string>, again: Option<string>)
    requires s.Valid()
    ensures
      var once := OpenTab(s, node, read);
      var twice := OpenTab(once, node, again);
      IsOpen(once.files, node.path) ==>
        twice.files == once.files && twice.sent == once.sent && twice.active.Some? && twice.active.value.path == node.path
  {
  }

  /** Closing the tab a file was just opened in restores the tab list. */
  lemma CloseAfterOpen(s: State, node: Node, content: string)
    requires s.Valid() && !IsOpen(s.files, node.path)
    ensures CloseTab(OpenTab(s, node, Some(content)), node.path).files == s.files
  {
    var f := OpenFile(node.name, node.path, content, false);
    KeepAppendDropped(s.files, f, p => p == node.path);
    KeepNothing(s.files, p => p == node.path);
  }

  lemma {:induction false} KeepNothing(files: seq<OpenFile>, drop: string -> bool)
    requires forall i :: 0 <= i < |files| ==> !drop(files[i].path)
    ensures Keep(files, drop) == files
  {
    if files != [] {
      KeepNothing(files[1..], drop);
      assert [files[0]] + files[1..] == files;
    }
  }

  lemma {:induction false} KeepAppendDropped(files: seq<OpenFile>, x: OpenFile, drop: string -> bool)
    requires drop(x.path)
    ensures Keep(files + [x], drop) == Keep(files, drop)
  {
    if files == [] {
      assert files + [x] == [x];
      assert [x][1..] == [];
    } else {
      assert (files + [x])[1..] == files[1..] + [x];
      KeepAppendDropped(files[1..], x, drop);
    }
  }

  /** Closing the active tab activates the tab that stood last among the remaining ones
      in the old order: every tab after it showed the closed path. */
  lemma CloseTabActivatesLastOther(s: State, path: string)
    requires s.Valid() && s.active.Some? && s.active.value.path == path
    ensures
      var r := CloseTab(s, path);
      r.active.Some? ==> (exists i :: 0 <= i < |s.files| && s.files[i] == r.active.value
                           && s.files[i].path != path
                           && forall j :: i < j < |s.files| ==> s.files[j].path == path)
  {
    KeepLastKept(s.files, p => p == path);
  }

  /** Filtering a concatenation filters each part, in order. */
  lemma {:induction false} KeepConcat(a: seq<OpenFile>, b: seq<OpenFile>, drop: string -> bool)
    ensures Keep(a + b, drop) == Keep(a, drop) + Keep(b, drop)
  {
    if a == [] {
      assert a + b == b;
    } else {
      assert (a + b)[1..] == a[1..] + b;
      KeepConcat(a[1..], b, drop);
    }
  }

  /** The last tab kept is the last tab of the list that `drop` does not select. */
  lemma {:induction false} KeepLastKept(files: seq<OpenFile>, drop: string -> bool)
    ensures
      var k := Keep(files, drop);
      k != [] ==> exists i :: LastKeptAt(files, drop, i) && files[i] == k[|k| - 1]
  {
    var k := Keep(files, drop);
    if files == [] { return; }
    var h, t := files[0], files[1..];
    var kt := Keep(t, drop);
    KeepCons(files, drop);
    if kt != [] {
      KeepLastKept(t, drop);
      var i :| LastKeptAt(t, drop, i) && t[i] == kt[|kt| - 1];
      LastAfter(files, t, drop, i);
      assert LastKeptAt(files, drop, i + 1);
    } else if !drop(h.path) {
      KeepEmpty(t, drop);
      LastAfter(files, t, drop, -1);
      assert LastKeptAt(files, drop, 0);
    }
  }

  /** `files[i]` is not selected by `drop`, and every tab after it is. */
  ghost predicate LastKeptAt(files: seq<OpenFile>, drop: string -> bool, i: int) {
    && 0 <= i < |files| && !drop(files[i].path)
    && forall j :: i < j < |files| ==> drop(files[j].path)
  }

  /** One step of the filter. */
  lemma KeepCons(files: seq<OpenFile>, drop: string -> bool)
    requires files != []
    ensures Keep(files, drop) == if drop(files[0].path) then Keep(files[1..], drop) else [files[0]] + Keep(files[1..], drop)
  {
  }

  /** Moving an index of `files[1..]` into `files`. */
  lemma LastAfter(files: seq<OpenFile>, t: seq<OpenFile>, drop: string -> bool, i: int)
    requires files != [] && t == files[1..] && -1 <= i < |t|
    requires forall j :: i < j < |t| ==> drop(t[j].path)
    ensures forall j :: i + 1 < j < |files| ==> drop(files[j].path)
  {
    forall j | i + 1 < j < |files| ensures drop(files[j].path) {
      assert files[j] == t[j - 1];
    }
  }

  /** Nothing is kept only when every tab is selected. */
  lemma {:induction false} KeepEmpty(files: seq<OpenFile>, drop: string -> bool)
    requires Keep(files, drop) == []
    ensures forall j :: 0 <= j < |files| ==> drop(files[j].path)
  {
    forall j | 0 <= j < |files| ensures drop(files[j].path) {
      assert files[j] in files;
    }
  }

  /** What was typed into the active tab is what saving it writes, and the tab is clean
      afterwards. */
  lemma ChangeThenSave(s: State, val: string)
    requires s.Valid() && s.active.Some?
    ensures
      var p := s.active.value.path;
      var r := Save(ChangeFile(s, p, val), None);
      && r.sent == s.sent + [Boundary.Write(p, val)]
      && r.active.Some? && r.active.value.path == p && r.active.value.content == val && !r.active.value.dirty
  {
  }

  /** A run ends with the exit of its command or with `stop()`. */
  lemma RunThenStop(s: State, code: int)
    requires s.Valid()
    ensures !Stop(Run(s)).running && !OnExit(Run(s), code).running
  {
  }

  /** HTML and Markdown files show the run button (`canRun`) but `run()` refuses them. */
  lemma ViewerNotRun(s: State)
    requires s.Valid() && s.active.Some? && !s.running
    requires Ext(s.active.value.name) in {"html", "md"}
    ensures CanRun(s.active.value.name)
    ensures Run(s).sent == s.sent && !Run(s).running
  {
    CanRunIff(s.active.value.name);
    RunPrograms(s.active.value.name, s.active.value.path);
  }

  /** The older page runs every file with `node`; the current one picks the program from
      the language, so a Python file runs with `python3`. */
  lemma RunRevisionsPython(s: State)
    requires s.Valid() && s.active.Some? && !s.running
    requires Ext(s.active.value.name) == "py"
    ensures
      var f := s.active.value;
      && Run(s).sent == s.sent + DirtyWrite(s.active) + [Boundary.PtyRun(CommandLine("python3", f.path))]
      && RunOld(s).sent == s.sent + DirtyWrite(s.active) + [Boundary.PtyRun(CommandLine("node", f.path))]
  {
    RunPrograms(s.active.value.name, s.active.value.path);
  }

  /** For a file, the target folder is the folder the file is in, written with the
      workspace's separator. */
  lemma TargetDirOfFile(dirs: seq<string>, leaf: string, name: string, workspace: string, c: char)
    requires |dirs| >= 1 && c in PathSeps && Sep(workspace) == [c]
    requires forall i :: 0 <= i < |dirs| ==> NoneOf(dirs[i], PathSeps)
    requires NoneOf(leaf, PathSeps)
    requires Join(dirs, [c]) != ""
    ensures TargetDir(Some(Node(FileKind, name, Join(dirs + [leaf], [c]))), workspace) == Join(dirs, [c])
  {
    SplitJoinInit(dirs, leaf, PathSeps, c);
  }

  /** "New File" on a file creates its sibling. */
  lemma NewFileSibling(s: State, dirs: seq<string>, leaf: string, name: string, c: char, read: Option<string>)
    requires s.Valid() && s.workspace.Some?
    requires |dirs| >= 1 && c in PathSeps && Sep(s.workspace.value) == [c]
    requires forall i :: 0 <= i < |dirs| ==> NoneOf(dirs[i], PathSeps)
    requires NoneOf(leaf, PathSeps) && Join(dirs, [c]) != "" && name != ""
    ensures
      var r := NewFile(s, Some(Node(FileKind, leaf, Join(dirs + [leaf], [c]))), name, read);
      r.sent[|s.sent|] == Boundary.Write(Join(dirs + [name], [c]), "")
  {
    TargetDirOfFile(dirs, leaf, leaf, s.workspace.value, c);
    JoinAppend(dirs, name, [c]);
  }

  /** The defect of "Delete" as written: deleting an entry closes the tab of any path that
      merely extends its name, such as `app.js` next to a deleted `app`, and clears that
      tab's unsaved edits from the page; the corrected action keeps it open. */
  lemma DeleteAsWrittenClosesSibling(s: State, node: Node, rest: string)
    requires s.Valid()
    requires rest != [] && rest[0] !in PathSeps
    requires IsOpen(s.files, node.path + rest)
    ensures IsOpen(DeleteEntry(s, Some(node), true).files, node.path + rest)
    ensures !IsOpen(DeleteAsWritten(s, Some(node), true).files, node.path + rest)
  {
    var p := node.path + rest;
    var i :| 0 <= i < |s.files| && s.files[i].path == p;
    assert s.files[i] in s.files;
    assert p[..|node.path|] == node.path;
    assert p[|node.path|] == rest[0];
    assert !Within(p, node.path);
    var r := DeleteEntry(s, Some(node), true);
    assert s.files[i] in r.files;
  }

  /** After the corrected "Delete", neither the deleted entry's own tab nor a tab of any
      of its descendants is open. */
  lemma DeleteEntryCloses(s: State, node: Node)
    requires s.Valid()
    ensures !IsOpen(DeleteEntry(s, Some(node), true).files, node.path)
    ensures forall d :: !IsOpen(DeleteEntry(s, Some(node), true).files, node.path + "/" + d)
  {
  }
}

=== FILE: terminal_tabs.dfy ===
/** The terminal tabs of the bottom panel (`MultiTerminal`): tab ids from a counter that
    lives as long as the page's script, one terminal instance per tab created the first
    time the tab's element appears, and the bridge listeners each instance holds. */
module TerminalTabs {
  import opened Wrappers
  import Boundary

  /** The listeners a terminal instance subscribed on the bridge: `pty:data` and `pty:exit`. */
  datatype Instance = Instance(dataToken: nat, exitToken: nat)

  datatype State = State(
    counter: nat,                  // the script-level `tabCounter`
    tabs: seq<nat>,                // tab ids, in display order
    active: nat,
    instances: map<nat, Instance>, // `instancesRef`
    refs: set<nat>,                // ids recorded in `tabRefs`
    inits: seq<nat>,               // the ids terminals were created for, in order
    reg: Boundary.Registry)
  {
    ghost predicate Valid() {
      && |tabs| >= 1
      && Increasing(tabs)
      && (forall x :: x in tabs ==> 1 <= x <= counter)
      && active in tabs
      && Unique(inits)
      && (forall id :: id in instances ==> id in refs && id in inits)
      && (forall id :: id in inits ==> id in refs)
      && reg.Valid()
    }
  }

  ghost predicate Increasing(xs: seq<nat>) {
    forall i, j :: 0 <= i < j < |xs| ==> xs[i] < xs[j]
  }

  ghost predicate Unique(xs: seq<nat>) {
    forall i, j :: 0 <= i < j < |xs| ==> xs[i] != xs[j]
  }

  /** The panel as it mounts: one tab with id 1, active; the counter keeps its value from
      earlier mounts. */
  function Mount(counter: nat, reg: Boundary.Registry): (r: State)
    requires counter >= 1 && reg.Valid()
    ensures r.Valid() && r.tabs == [1] && r.active == 1 && r.counter == counter
  {
    State(counter, [1], 1, map[], {}, [], reg)
  }

  /** `addTab()`: the counter is incremented, and a tab with the new value is appended and
      made active. */
  function AddTab(s: State): (r: State)
    requires s.Valid()
    ensures r.Valid()
    ensures r.counter == s.counter + 1 && r.active == r.counter
    ensures r.counter !in s.tabs && r.tabs == s.tabs + [r.counter]
    ensures r.instances == s.instances && r.reg == s.reg
  {
    var id := s.counter + 1;
    assert forall i :: 0 <= i < |s.tabs| ==> s.tabs[i] in s.tabs;
    s.(counter := id, tabs := s.tabs + [id], active := id)
  }

  /** `tabs.filter(x => x.id !== id)`. */
  function Remove(tabs: seq<nat>, id: nat): (r: seq<nat>)
    ensures forall x :: x in r <==> x in tabs && x != id
  {
    if tabs == [] then []
    else
      assert tabs == [tabs[0]] + tabs[1..];
      (if tabs[0] == id then [] else [tabs[0]]) + Remove(tabs[1..], id)
  }

  /** Removing a tab keeps the others in increasing order. */
  lemma {:induction false} RemoveIncreasing(tabs: seq<nat>, id: nat)
    requires Increasing(tabs)
    ensures Increasing(Remove(tabs, id))
  {
    if tabs != [] {
      RemoveIncreasing(tabs[1..], id);
      var rest := Remove(tabs[1..], id);
      assert forall x :: x in rest ==> x in tabs[1..];
      assert forall i :: 0 <= i < |rest| ==> rest[i] in rest;
    }
  }

  /** `tabs.find(x => x.id !== id)?.id ?? 1`. */
  function FirstOther(tabs: seq<nat>, id: nat): (r: nat)
    ensures (r in tabs && r != id) || (r == 1 && forall x :: x in tabs ==> x == id)
    ensures r in tabs && r != id ==>
      exists i :: 0 <= i < |tabs| && tabs[i] == r && forall j :: 0 <= j < i ==> tabs[j] == id
  {
    if tabs == [] then 1
    else if tabs[0] != id then tabs[0]
    else
      assert tabs == [tabs[0]] + tabs[1..];
      var r := FirstOther(tabs[1..], id);
      assert r in tabs[1..] && r != id ==>
        exists i :: 0 <= i < |tabs| && tabs[i] == r && forall j :: 0 <= j < i ==> tabs[j] == id by {
        if r in tabs[1..] && r != id {
          var i :| 0 <= i < |tabs[1..]| && tabs[1..][i] == r && forall j :: 0 <= j < i ==> tabs[1..][j] == id;
          assert tabs[i + 1] == r;
          assert forall j :: 1 <= j < i + 1 ==> tabs[j] == tabs[1..][j - 1];
        }
      }
      r
  }

  /** The instance's cleanup: both bridge listeners are removed. */
  function Release(reg: Boundary.Registry, inst: Instance): (r: Boundary.Registry)
    requires reg.Valid()
    ensures r.Valid()
    ensures inst.dataToken !in Boundary.Handlers(r, Boundary.PtyData)
    ensures inst.exitToken !in Boundary.Handlers(r, Boundary.PtyExit)
    ensures forall x :: x in Boundary.Handlers(r, Boundary.PtyData) <==>
      x in Boundary.Handlers(reg, Boundary.PtyData) && x != inst.dataToken
    ensures forall x :: x in Boundary.Handlers(r, Boundary.PtyExit) <==>
      x in Boundary.Handlers(reg, Boundary.PtyExit) && x != inst.exitToken
    ensures forall c :: c != Boundary.PtyData && c != Boundary.PtyExit ==>
      Boundary.Handlers(r, c) == Boundary.Handlers(reg, c)
    ensures r.next == reg.next
  {
    var r1 := Boundary.Unsubscribe(reg, Boundary.PtyData, inst.dataToken);
    Boundary.UnsubscribedHearsNothing(reg, Boundary.PtyData, inst.dataToken);
    Boundary.UnsubscribedHearsNothing(r1, Boundary.PtyExit, inst.exitToken);
    Boundary.Unsubscribe(r1, Boundary.PtyExit, inst.exitToken)
  }

  /** `closeTab(id)`: refused for the last tab; otherwise the tab's terminal, if it has one,
      releases its listeners and is forgotten, the tab is removed, and when it was active
      the first other tab becomes active. */
  function CloseTab(s: State, id: nat): (r: State)
    requires s.Valid()
    ensures r.Valid()
    ensures |s.tabs| == 1 ==> r == s
    ensures |s.tabs| > 1 ==>
      && id !in r.tabs
      && (forall x :: x in r.tabs <==> x in s.tabs && x != id)
      && id !in r.instances
      && (s.active != id ==> r.active == s.active)
      && (s.active == id ==> r.active == FirstOther(s.tabs, id) && r.active in s.tabs)
    ensures |s.tabs| > 1 && id in s.instances ==>
      && s.instances[id].dataToken !in Boundary.Handlers(r.reg, Boundary.PtyData)
      && s.instances[id].exitToken !in Boundary.Handlers(r.reg, Boundary.PtyExit)
    ensures |s.tabs| > 1 ==> r.instances == s.instances - {id}
    ensures |s.tabs| > 1 && id in s.instances ==>
      && (forall x :: x in Boundary.Handlers(r.reg, Boundary.PtyData) <==>
            x in Boundary.Handlers(s.reg, Boundary.PtyData) && x != s.instances[id].dataToken)
      && (forall x :: x in Boundary.Handlers(r.reg, Boundary.PtyExit) <==>
            x in Boundary.Handlers(s.reg, Boundary.PtyExit) && x != s.instances[id].exitToken)
      && (forall c :: c != Boundary.PtyData && c != Boundary.PtyExit ==>
            Boundary.Handlers(r.reg, c) == Boundary.Handlers(s.reg, c))
    ensures id !in s.instances ==> r.reg == s.reg
    ensures r.counter == s.counter && r.refs == s.refs && r.inits == s.inits
  {
    if |s.tabs| == 1 then s
    else
      var reg := if id in s.instances then Release(s.reg, s.instances[id]) else s.reg;
      var tabs := Remove(s.tabs, id);
      var active := if s.active == id then FirstOther(s.tabs, id) else s.active;
      var kept := if s.tabs[0] != id then s.tabs[0] else s.tabs[1];
      assert s.tabs[0] < s.tabs[1] && kept in tabs;
      RemoveIncreasing(s.tabs, id);
      s.(reg := reg, instances := s.instances - {id}, tabs := tabs, active := active)
  }

  /** `initTerm(id, el)`: without an element, or when the tab already has a terminal,
      nothing happens; otherwise a terminal is created and subscribes its two listeners. */
  function InitTerm(s: State, id: nat, present: bool): (r: State)
    requires s.Valid() && id in s.refs && id !in s.inits
    ensures r.Valid()
    ensures !present ==> r == s
    ensures present ==>
      && r.inits == s.inits + [id]
      && id in r.instances
      && Boundary.Handlers(r.reg, Boundary.PtyData) == Boundary.Handlers(s.reg, Boundary.PtyData) + [r.instances[id].dataToken]
      && Boundary.Handlers(r.reg, Boundary.PtyExit) == Boundary.Handlers(s.reg, Boundary.PtyExit) + [r.instances[id].exitToken]
    ensures r.tabs == s.tabs && r.active == s.active && r.refs == s.refs
  {
    if !present || id in s.instances then s
    else
      var (r1, t1) := Boundary.Subscribe(s.reg, Boundary.PtyData);
      var (r2, t2) := Boundary.Subscribe(r1, Boundary.PtyExit);
      s.(reg := r2, instances := s.instances[id := Instance(t1, t2)], inits := s.inits + [id])
  }

  /** The ref callback `setTabRef(id)(el)`, which React calls on every render: the first
      time an element for the tab arrives it is recorded and the terminal created. */
  function SetTabRef(s: State, id: nat, present: bool): (r: State)
    requires s.Valid()
    ensures r.Valid()
    ensures !present || id in s.refs ==> r == s
    ensures present && id !in s.refs ==> id in r.refs && id in r.instances && r.inits == s.inits + [id]
  {
    if !present || id in s.refs then s
    else
      var recorded := s.(refs := s.refs + {id});
      InitTerm(recorded, id, true)
  }

  // ---------------------------------------------------------------- properties

  /** A tab just added and closed again leaves the tab list as it was. */
  lemma CloseAfterAdd(s: State)
    requires s.Valid()
    ensures CloseTab(AddTab(s), s.counter + 1).tabs == s.tabs
  {
    var a := AddTab(s);
    assert |a.tabs| > 1;
    RemoveLast(s.tabs, s.counter + 1);
  }

  lemma {:induction false} RemoveLast(tabs: seq<nat>, id: nat)
    requires id !in tabs
    ensures Remove(tabs + [id], id) == tabs
  {
    if tabs == [] {
      assert Remove([id], id) == Remove([], id);
    } else {
      assert (tabs + [id])[1..] == tabs[1..] + [id];
      RemoveLast(tabs[1..], id);
      assert [tabs[0]] + tabs[1..] == tabs;
    }
  }

  /** However often React calls the ref callback, a tab's terminal is created once. */
  lemma SetTabRefIdempotent(s: State, id: nat)
    requires s.Valid()
    ensures SetTabRef(SetTabRef(s, id, true), id, true) == SetTabRef(s, id, true)
  {
  }

  /** Releasing an instance right after it subscribed restores every channel. */
  lemma ReleaseFresh(reg: Boundary.Registry)
    requires reg.Valid()
    ensures
      var (r1, t1) := Boundary.Subscribe(reg, Boundary.PtyData);
      var (r2, t2) := Boundary.Subscribe(r1, Boundary.PtyExit);
      forall c :: Boundary.Handlers(Release(r2, Instance(t1, t2)), c) == Boundary.Handlers(reg, c)
  {
    var (r1, t1) := Boundary.Subscribe(reg, Boundary.PtyData);
    var (r2, t2) := Boundary.Subscribe(r1, Boundary.PtyExit);
    var data := Boundary.Handlers(reg, Boundary.PtyData);
    var exit := Boundary.Handlers(reg, Boundary.PtyExit);
    assert t1 !in data && t2 !in exit;
    var u1 := Boundary.Unsubscribe(r2, Boundary.PtyData, t1);
    Boundary.UnsubscribeLast(r2, Boundary.PtyData, data, t1);
    Boundary.UnsubscribeLast(u1, Boundary.PtyExit, exit, t2);
  }

  /** Creating a tab's terminal and closing the tab leaves every bridge channel with the
      listeners it had before. */
  lemma InitThenCloseRestoresListeners(s: State, id: nat)
    requires s.Valid() && id in s.tabs && id !in s.refs && |s.tabs| > 1
    ensures forall c :: Boundary.Handlers(CloseTab(SetTabRef(s, id, true), id).reg, c) == Boundary.Handlers(s.reg, c)
  {
    var (r1, t1) := Boundary.Subscribe(s.reg, Boundary.PtyData);
    var (r2, t2) := Boundary.Subscribe(r1, Boundary.PtyExit);
    var withTerm := SetTabRef(s, id, true);
    assert withTerm.reg == r2 && withTerm.instances[id] == Instance(t1, t2);
    assert CloseTab(withTerm, id).reg == Release(r2, Instance(t1, t2));
    ReleaseFresh(s.reg);
  }
}

=== FILE: text.dfy ===
/** String helpers the host and renderer code rely on: JavaScript's `trim`, ASCII
    lower-casing, `split`/`join` on separator characters, `startsWith`, and the
    text after the last occurrence of a character. Strings are sequences of code points. */
module Text {

  /** The code points `String.prototype.trim` removes: WhiteSpace and LineTerminator. */
  predicate IsSpace(c: char) {
    || c == ' ' || c == '\t' || c == '\n' || c == '\r' || c == '\U{000B}' || c == '\U{000C}'
    || c == '\U{00A0}' || c == '\U{1680}' || ('\U{2000}' <= c <= '\U{200A}')
    || c == '\U{2028}' || c == '\U{2029}' || c == '\U{202F}' || c == '\U{205F}'
    || c == '\U{3000}' || c == '\U{FEFF}'
  }

  predicate AllSpace(s: string) {
    forall i :: 0 <= i < |s| ==> IsSpace(s[i])
  }

  /** `s` with its leading white space removed. */
  function TrimStart(s: string): (r: string)
    ensures r == "" || !IsSpace(r[0])
    ensures |r| <= |s| && r == s[|s| - |r|..]
    ensures AllSpace(s[..|s| - |r|])
  {
    if |s| > 0 && IsSpace(s[0]) then TrimStart(s[1..]) else s
  }

  /** `s` with its trailing white space removed. */
  function TrimEnd(s: string): (r: string)
    ensures r == "" || !IsSpace(r[|r| - 1])
    ensures |r| <= |s| && r == s[..|r|]
    ensures AllSpace(s[|r|..])
  {
    if |s| > 0 && IsSpace(s[|s| - 1]) then TrimEnd(s[..|s| - 1]) else s
  }

  /** The length of the white space `s` starts with. */
  function LeadingBlanks(s: string): (n: nat)
    ensures n <= |s| && AllSpace(s[..n]) && (n == |s| || !IsSpace(s[n]))
  {
    |s| - |TrimStart(s)|
  }

  /** JavaScript's `s.trim()`: the infix of `s` left once white space is cut from both ends. */
  function Trim(s: string): (r: string)
    ensures r == "" || (!IsSpace(r[0]) && !IsSpace(r[|r| - 1]))
    ensures var i := LeadingBlanks(s);
      i + |r| <= |s| && r == s[i..i + |r|] && AllSpace(s[i + |r|..])
  {
    var a := TrimStart(s);
    var r := TrimEnd(a);
    var i := |s| - |a|;
    assert s[i..i + |r|] == r;
    assert s[i + |r|..] == a[|r|..];
    r
  }

  /** Trimming leaves nothing exactly when the input is all white space. */
  lemma TrimEmptyIff(s: string)
    ensures Trim(s) == "" <==> AllSpace(s)
  {
    var a := TrimStart(s);
    if !AllSpace(s) {
      var k :| 0 <= k < |s| && !IsSpace(s[k]);
      assert a[k - (|s| - |a|)] == s[k];
    }
  }

  /** White space before or after a string does not change what `trim` returns. */
  lemma TrimSurrounding(pre: string, s: string, post: string)
    requires AllSpace(pre) && AllSpace(post)
    ensures Trim(pre + s + post) == Trim(s)
  {
    assert pre + s + post == pre + (s + post);
    TrimStartSpaces(pre, s + post);
    if AllSpace(s) {
      TrimStartSpaces(s, post);
      TrimStartSpaces(post, "");
      TrimStartSpaces(s, "");
      assert post + "" == post && s + "" == s;
    } else {
      TrimStartAppend(s, post);
      TrimEndSpaces(TrimStart(s), post);
    }
  }

  lemma {:induction false} TrimStartSpaces(pre: string, x: string)
    requires AllSpace(pre)
    ensures TrimStart(pre + x) == TrimStart(x)
  {
    if pre != [] {
      assert (pre + x)[1..] == pre[1..] + x;
      TrimStartSpaces(pre[1..], x);
    } else {
      assert pre + x == x;
    }
  }

  lemma {:induction false} TrimEndSpaces(x: string, post: string)
    requires AllSpace(post)
    ensures TrimEnd(x + post) == TrimEnd(x)
  {
    if post != [] {
      assert (x + post)[..|x + post| - 1] == x + post[..|post| - 1];
      TrimEndSpaces(x, post[..|post| - 1]);
    } else {
      assert x + post == x;
    }
  }

  lemma {:induction false} TrimStartAppend(s: string, t: string)
    requires !AllSpace(s)
    ensures TrimStart(s + t) == TrimStart(s) + t
  {
    if IsSpace(s[0]) {
      assert (s + t)[1..] == s[1..] + t;
      assert !AllSpace(s[1..]) by {
        var k :| 0 <= k < |s| && !IsSpace(s[k]);
        assert s[1..][k - 1] == s[k];
      }
      TrimStartAppend(s[1..], t);
    }
  }

  /** ASCII upper case to lower case; every other code point is kept. */
  function LowerChar(c: char): char {
    if 'A' <= c <= 'Z' then (c as int + 32) as char else c
  }

  /** `s.toLowerCase()`, restricted to the ASCII letters. */
  function Lower(s: string): (r: string)
    ensures |r| == |s|
    ensures forall i :: 0 <= i < |s| ==> r[i] == LowerChar(s[i])
  {
    if s == "" then "" else [LowerChar(s[0])] + Lower(s[1..])
  }

  /** Lower-casing never introduces a character that is not a lower-case letter. */
  lemma {:induction false} LowerKeepsOut(s: string, c: char)
    requires c !in s && !('a' <= c <= 'z')
    ensures c !in Lower(s)
  {
    if s != "" {
      LowerKeepsOut(s[1..], c);
    }
  }

  /** Lower-casing a text without upper-case letters leaves it as it is. */
  lemma LowerUnchanged(s: string)
    requires forall i :: 0 <= i < |s| ==> !('A' <= s[i] <= 'Z')
    ensures Lower(s) == s
  {
  }

  /** JavaScript's `s.startsWith(p)`. */
  predicate StartsWith(s: string, p: string) {
    |p| <= |s| && s[..|p|] == p
  }

  /** `s.split(c).pop()`: the text after the last `c`, or all of `s` when it has no `c`. */
  function AfterLast(s: string, c: char): (r: string)
    ensures c !in r
    ensures |r| <= |s| && r == s[|s| - |r|..]
    ensures |r| < |s| ==> s[|s| - |r| - 1] == c
  {
    if |s| == 0 then ""
    else if s[|s| - 1] == c then ""
    else AfterLast(s[..|s| - 1], c) + [s[|s| - 1]]
  }

  /** The text after the last `c` is whatever follows an occurrence of `c` and has none itself. */
  lemma {:induction false} AfterLastOf(pre: string, c: char, tail: string)
    requires c !in tail
    ensures AfterLast(pre + [c] + tail, c) == tail
  {
    var s := pre + [c] + tail;
    if tail != [] {
      var init := tail[..|tail| - 1];
      assert s[..|s| - 1] == pre + [c] + init;
      AfterLastOf(pre, c, init);
      assert tail == init + [tail[|tail| - 1]];
    }
  }

  /** The characters `/[\\/]/` splits a path on. */
  const PathSeps: set<char> := {'/', '\\'}

  predicate NoneOf(s: string, seps: set<char>) {
    forall i :: 0 <= i < |s| ==> s[i] !in seps
  }

  /** `s.split(re)` for a regular expression that is one character class `seps`:
      the maximal separator-free pieces, in order, empty pieces included. */
  function Split(s: string, seps: set<char>): (r: seq<string>)
    ensures |r| >= 1
    ensures forall i :: 0 <= i < |r| ==> NoneOf(r[i], seps)
  {
    if |s| == 0 then [""]
    else
      var rest := Split(s[1..], seps);
      if s[0] in seps then [""] + rest
      else [[s[0]] + rest[0]] + rest[1..]
  }

  /** `parts.join(sep)`. */
  function Join(parts: seq<string>, sep: string): string {
    if |parts| == 0 then ""
    else if |parts| == 1 then parts[0]
    else parts[0] + sep + Join(parts[1..], sep)
  }

  /** Splitting on one character and joining with it again gives the input back. */
  lemma {:induction false} JoinSplit(s: string, c: char)
    ensures Join(Split(s, {c}), [c]) == s
  {
    if |s| > 0 {
      var rest := Split(s[1..], {c});
      JoinSplit(s[1..], c);
      if s[0] == c {
        assert Split(s, {c}) == [""] + rest;
        assert ([""] + rest)[1..] == rest;
      } else {
        var r := Split(s, {c});
        assert r == [[s[0]] + rest[0]] + rest[1..];
        if |rest| > 1 {
          assert r[1..] == rest[1..];
          assert Join(r, [c]) == [s[0]] + rest[0] + [c] + Join(rest[1..], [c]);
        }
      }
    }
  }

  /** Joining one more piece appends the separator and the piece. */
  lemma {:induction false} JoinAppend(parts: seq<string>, x: string, sep: string)
    requires |parts| >= 1
    ensures Join(parts + [x], sep) == Join(parts, sep) + sep + x
  {
    if |parts| > 1 {
      assert (parts + [x])[1..] == parts[1..] + [x];
      JoinAppend(parts[1..], x, sep);
    }
  }

  /** A separator-free prefix glues onto the first piece of what follows it. */
  lemma {:induction false} SplitFreePrefix(x: string, t: string, seps: set<char>)
    requires NoneOf(x, seps)
    ensures Split(x + t, seps) == [x + Split(t, seps)[0]] + Split(t, seps)[1..]
  {
    if |x| > 0 {
      SplitFreePrefix(x[1..], t, seps);
      assert (x + t)[1..] == x[1..] + t;
      var rest := Split(x[1..] + t, seps);
      assert rest[1..] == Split(t, seps)[1..];
      assert (x + t)[0] == x[0];
      assert Split(x + t, seps) == [[x[0]] + rest[0]] + rest[1..];
      assert [x[0]] + (x[1..] + Split(t, seps)[0]) == x + Split(t, seps)[0];
    } else {
      assert x + t == t;
      assert x + Split(t, seps)[0] == Split(t, seps)[0];
    }
  }

  /** Joining separator-free pieces with a separator and splitting again recovers the pieces. */
  lemma {:induction false} SplitJoin(parts: seq<string>, seps: set<char>, c: char)
    requires |parts| >= 1 && c in seps
    requires forall i :: 0 <= i < |parts| ==> NoneOf(parts[i], seps)
    ensures Split(Join(parts, [c]), seps) == parts
  {
    if |parts| == 1 {
      SplitFreePrefix(parts[0], "", seps);
      assert parts[0] + "" == parts[0];
    } else {
      var tail := Join(parts[1..], [c]);
      SplitJoin(parts[1..], seps, c);
      assert Split([c] + tail, seps) == [""] + parts[1..];
      SplitFreePrefix(parts[0], [c] + tail, seps);
      assert parts[0] + [c] + tail == parts[0] + ([c] + tail);
      assert parts[0] + "" == parts[0];
      assert [parts[0]] + parts[1..] == parts;
    }
  }

  /** Splitting a joined path and dropping the last piece gives the pieces before it. */
  lemma SplitJoinInit(dirs: seq<string>, leaf: string, seps: set<char>, c: char)
    requires c in seps && NoneOf(leaf, seps)
    requires forall i :: 0 <= i < |dirs| ==> NoneOf(dirs[i], seps)
    ensures var sp := Split(Join(dirs + [leaf], [c]), seps); |sp| >= 1 && sp[..|sp| - 1] == dirs
  {
    var parts := dirs + [leaf];
    assert forall i :: 0 <= i < |parts| ==> NoneOf(parts[i], seps);
    SplitJoin(parts, seps, c);
    assert parts[..|parts| - 1] == dirs;
  }

  /** The decimal digits of `n`, as `String(n)` writes a non-negative integer. */
  function NatToString(n: nat): (r: string)
    ensures |r| >= 1
    ensures forall i :: 0 <= i < |r| ==> '0' <= r[i] <= '9'
  {
    var d := ['0' + (n % 10) as char];
    if n < 10 then d else NatToString(n / 10) + d
  }

  /** `String(n)` for an integer. */
  function IntToString(n: int): string {
    if n < 0 then "-" + NatToString(-n) else NatToString(n)
  }
}

=== FILE: workspace_setup.dfy ===
/** The start screen (`WorkspaceSetup`): a typed directory path or the native folder
    picker chooses the workspace the studio opens. */
module WorkspaceSetup {
  import opened Wrappers
  import opened Text

  const EmptyPathError: string := "Enter a directory path."

  /** The screen's state: the typed path, the error shown, whether a browse is running. */
  datatype Form = Form(input: string, error: string, loading: bool)

  /** A form after an action, with the directory handed to the studio, if any. */
  datatype Outcome = Outcome(form: Form, chosen: Option<string>)

  /** The "Open Workspace" button is disabled exactly when the typed path is blank. */
  predicate OpenDisabled(f: Form) {
    Trim(f.input) == ""
  }

  /** `handleOpen`: a blank path shows an error and chooses nothing; otherwise the error is
      cleared and the trimmed path is chosen. */
  function HandleOpen(f: Form): (r: Outcome)
    ensures r.form.input == f.input && r.form.loading == f.loading
    ensures r.chosen.None? <==> AllSpace(f.input)
    ensures r.chosen.None? ==> r.form.error == EmptyPathError
    ensures r.chosen.Some? ==>
      && r.form.error == ""
      && r.chosen.value == Trim(f.input) != ""
  {
    TrimEmptyIff(f.input);
    if AllSpace(f.input) then Outcome(f.(error := EmptyPathError), None)
    else Outcome(f.(error := ""), Some(Trim(f.input)))
  }

  /** Pressing Enter or the button when it is enabled always opens a workspace, and the
      button is disabled exactly in the cases where `handleOpen` would refuse. */
  lemma DisabledIffRefused(f: Form)
    ensures OpenDisabled(f) <==> HandleOpen(f).chosen.None?
    ensures OpenDisabled(f) <==> HandleOpen(f).form.error == EmptyPathError
  {
    TrimEmptyIff(f.input);
  }

  /** `handleBrowse` around the page's `onBrowse`: the picker's answer `picked` (none when
      it was cancelled) opens a workspace when it is a non-empty path; whether it succeeded
      or failed, the form is no longer loading afterwards. */
  function HandleBrowse(f: Form, picked: Option<string>): (r: Outcome)
    ensures !r.form.loading
    ensures r.form.input == f.input && r.form.error == f.error
    ensures r.chosen.Some? <==> picked.Some? && picked.value != ""
    ensures r.chosen.Some? ==> r.chosen == picked
  {
    var chosen := if picked.Some? && picked.value != "" then picked else None;
    Outcome(f.(loading := false), chosen)
  }

  /** Browsing never changes the typed path or its error, so the Open button's state is
      the same afterwards. */
  lemma BrowseKeepsOpenButton(f: Form, picked: Option<string>)
    ensures OpenDisabled(HandleBrowse(f, picked).form) == OpenDisabled(f)
  {
  }

  /** A path typed with surrounding blanks opens the same workspace as the path alone. */
  lemma {:induction false} OpenIgnoresSurroundingBlanks(f: Form, pre: string, post: string)
    requires AllSpace(pre) && AllSpace(post)
    ensures HandleOpen(f.(input := pre + f.input + post)).chosen == HandleOpen(f).chosen
  {
    TrimSurrounding(pre, f.input, post);
    TrimEmptyIff(f.input);
    TrimEmptyIff(pre + f.input + post);
  }
}

=== FILE: wrappers.dfy ===
/** Failure-compatible wrappers shared by every module of the model. */
module Wrappers {

  /** A value that may be missing: JavaScript's `null`/`undefined` in the source. */
  datatype Option<+T> = None | Some(value: T) {

    /** The wrapped value, or `default` when there is none (JavaScript's `x ?? default`). */
    function GetOr(default: T): T {
      match this
      case Some(v) => v
      case None => default
    }
  }

  /** The outcome of an operation that either yields a value or fails with an error. */
  datatype Result<+T, +E> = Ok(value: T) | Err(error: E)
}
